=== FILE: README.md ===
# optimus in Dafny

A model of the pure cores of optimus, a set of Substreams modules. The modules turn decoded
Ethereum blocks into keyed "create row" table changes for a SQL sink. The model covers these
parts:

- **UniswapX fills** (`uniswapx`).
  - The Dutch-auction `decay` of an amount over a time window. It uses 256-bit unsigned
    arithmetic with truncating division, and it panics on an invalid window or on an overflow.
  - Positional decoding of an `ExclusiveDutchOrder` from ABI tokens, and its conversion into
    the wire record. The deadline is clamped to `u32`.
  - `map_fills`: it keeps the `Fill` logs of the tracked reactor, classifies the calling
    function by its 4-byte selector and flattens the decoded orders.
  - `db_out`: one fill row per order. The row describes the first output that does not go
    to the protocol fee recipient, plus the fee output's decayed amount.
- **Generic events** (`events`, `to-table-derive`, `build-mod`, `events/build.rs`).
  - The `TableField` value encoding.
  - The `ToTableChange` derive macro, as the semantics of the code it generates.
  - The generated top-level `Events` enum and its first-match `match_and_decode`.
  - `get_events` and `transform`, and the `push_create` row layout.
  - The build script's ClickHouse schema generator and its manifest placeholder substitution.
- **Blocks and transactions** (`tx`). One `blocks` row per block, then one `transactions`
  row per trace.
- **Prices** (`prices`).
  - `db_out_inner`: `tokens` rows from created tokens, and `values` rows from deleted hourly
    price windows.
  - The token-info store handler, which sets a token only if its address is not yet stored.

Modules:

- `Wrappers`: `Option`, `Result`, and order-preserving `MapResult`/`FlatMap` with their laws.
- `Text`: `Hex`, decimal rendering, ASCII lower-casing, `join`/`split` and `str::replace`.
- `Chain`: shared integer and timestamp types.
- `Changes`: the table change record and its append-only column writes.
- `DecayEngine`, `DutchOrder`, `UniswapX`.
- `Encoding`, `TableDerive`, `Dispatch`, `Schema`, `Events`.
- `Tx`, `Prices`.

Panics (`unwrap`, `panic!`, `unimplemented!`) are modelled as `Err` results that name the
failure. A handler that panics produces no output, and so does an `Err`. Foreign functions
are parameters of the operations that call them:

- `ethabi::decode` and the generated call decoders;
- `Fill::match_log`;
- each contract module's `match_and_decode`;
- the `Timestamp` display and database renderings;
- `heck`'s upper camel case;
- `syn::Ident::new`'s identifier test and `syn::parse_file`;
- the struct and field names the `Abigen` bindings give to events and inputs;
- ABI file loading.

## Model

| member | source | states |
|---|---|---|
| DecayEngine.Decay | uniswapx/src/uniswap_structs.rs:229-253 | Fails with `EndTimeBeforeStartTime` exactly when the window ends before it starts. Once `now` reaches the end it gives the end amount, even when start, end and now coincide. Before the start of a non-empty window it gives the start amount. Strictly inside, it fails with the overflow exactly when the amount difference times the elapsed time reaches 2^256. Any result lies between the two amounts. |
| DecayEngine.CheckedMul | uniswapx/src/uniswap_structs.rs:248-250 | `checked_mul` yields the product exactly when it is below 2^256. |
| DecayEngine.Interior | uniswapx/src/uniswap_structs.rs:244-252 | Inside the window, the only failure is the overflow, exactly when the distance times the elapsed time reaches 2^256. A result lies between the amounts. |
| DecayEngine.Decreasing | uniswapx/src/uniswap_structs.rs:247-248 | A falling amount fails exactly on overflow of `(start - end) * elapsed`. Otherwise it stays within `[end, start]`. |
| DecayEngine.Increasing | uniswapx/src/uniswap_structs.rs:249-250 | A rising amount fails exactly on overflow of `(end - start) * elapsed`. Otherwise it stays within `[start, end]`. |
| DecayEngine.DecayInterpolates | uniswapx/src/uniswap_structs.rs:244-252 | Strictly inside the window, the result moves the start amount towards the end amount by the truncated fraction elapsed/duration of their distance. The fraction is characterised by bracketing, without division. |
| DecayEngine.DecayEndpoints | uniswapx/src/uniswap_structs.rs:240-243 | At the start of a non-empty window the start amount applies. At the end of any valid window, including an empty one, the end amount applies. |
| DecayEngine.DecayConstant | uniswapx/src/uniswap_structs.rs:238-252 | Equal start and end amounts never change and never overflow on a valid window. |
| DecayEngine.DecayMonotone | uniswapx/src/uniswap_structs.rs:240-252 | For a fixed valid window, decay never decreases over time when the end amount is at least the start amount, and never increases otherwise. |
| DutchOrder.Take | uniswapx/src/uniswap_structs.rs:56-61 | Taking the token at a position succeeds exactly when it exists and has the requested kind, and then yields that token. |
| DutchOrder.OrderInfoFromTokens | uniswapx/src/uniswap_structs.rs:17-26 | Succeeds exactly when the tokens fit the six `params()` kinds positionally, surplus tokens allowed. The fields are then the tokens at positions 0 to 5. |
| DutchOrder.InputFromTokens | uniswapx/src/uniswap_structs.rs:150-156 | The same for the input layout: address, amount, amount. |
| DutchOrder.OutputFromTokens | uniswapx/src/uniswap_structs.rs:189-196 | The same for the output layout: address, amount, amount, recipient. |
| DutchOrder.OutputsFromTokens | uniswapx/src/uniswap_structs.rs:117-124 | The output array decodes exactly when every element is a tuple that decodes as an output. The outputs are then those decodings, one per element, in order. |
| DutchOrder.OrderFromDecoded | uniswapx/src/uniswap_structs.rs:102-127 | A failed ABI decode is `AbiDecodeFailed`, an empty token list `MissingToken`, and a last token that is not a tuple `WrongTokenKind`. Otherwise the order is exactly the positional decoding of that last tuple's fields. |
| DutchOrder.OrderFromTokens | uniswapx/src/uniswap_structs.rs:108-126 | Succeeds exactly when the tokens fit the seven-field order layout and the order info, input and output array decode. The order info and input are the decodings of tuples 0 and 5, the decay window is tokens 1 and 2, the exclusive filler token 3, the override basis points token 4, and the outputs the decoding of array 6. |
| DutchOrder.ClampDeadline | uniswapx/src/uniswap_structs.rs:32-36 | The deadline saturates at `u32::MAX`: kept when at most that, `u32::MAX` otherwise. |
| DutchOrder.OrderInfoToProto | uniswapx/src/uniswap_structs.rs:29-49 | The deadline text is decimal and reads back as `min(deadline, u32::MAX)`. The nonce text reads back as the nonce. Addresses and validation data are copied unchanged. |
| DutchOrder.InputToProto | uniswapx/src/uniswap_structs.rs:158-165 | Succeeds exactly when the input's decay does. The decayed amount is then the decimal text of that decay. The token is kept, and the start and end amounts are their decimal texts. |
| DutchOrder.OutputToProto | uniswapx/src/uniswap_structs.rs:198-206 | Likewise for an output: the decayed amount is the decimal text of its decay, the start and end amounts are their decimal texts, and the token and recipient are kept. |
| DutchOrder.OutputsToProto | uniswapx/src/uniswap_structs.rs:93-97 | One wire output per output, in order, all over the same window. Fails exactly when some output's decay fails. |
| DutchOrder.IntoProto | uniswapx/src/uniswap_structs.rs:78-99 | A negative block time fails, because `U256::from(i64)` rejects it. Otherwise, conversion succeeds exactly when the input and every output convert over the one window (block time, decay start, decay end). The transaction info and order info are attached; the decay start and end times and the override basis points are their decimal texts, and the exclusive filler is kept. |
| DutchOrder.IntoProtoSucceeds | uniswapx/src/uniswap_structs.rs:78-99 | Conversion succeeds exactly when the block time is non-negative and every leg's decay succeeds. An inverted window fails the whole order. |
| DutchOrder.IntoProtoDecayedBetween | uniswapx/src/uniswap_structs.rs:92-97 | Every decayed amount on a converted order is decimal text whose value lies between that leg's start and end amounts. |
| UniswapX.SelectorBytesInjective | uniswapx/src/lib.rs:27-30 | The four selector constants are pairwise distinct. |
| UniswapX.Classify | uniswapx/src/lib.rs:57-68 | Input shorter than 4 bytes fails (the slice `[0..4]` panics). A known selector is the one whose bytes are the first four of the input. Any other selector fails with `UnknownFunction`; it is not skipped. |
| UniswapX.DecodeCall | uniswapx/src/lib.rs:58-66 | For each entry point, decoding succeeds exactly when that entry point's call decoder accepts the input; any failure is `CallDecodeFailed`. The single-order entry points yield exactly the decoded order. The batch entry points yield the decoded order list unchanged, in order. |
| UniswapX.OrderToProto | uniswapx/src/lib.rs:74-75 | An undecodable order fails with `AbiDecodeFailed`, and any other order-decoding error is passed on. A decoded order converts exactly as `into_proto` of it with the call's transaction info does: the same success, the same wire order, the same error. |
| UniswapX.OrdersToProto | uniswapx/src/lib.rs:71-77 | Succeeds exactly when every encoded order converts. The result then has one order per encoded order, at the same position, each being that order's conversion with the call's transaction info. |
| UniswapX.FillsOfCall | uniswapx/src/lib.rs:42-77 | A call whose selector cannot be classified fails with that error. A classified call whose arguments do not decode fails with the decoding error. Otherwise its fills are the position-aligned conversions of the decoded orders. Every order carries the call's transaction info, and a single-order entry point yields one order. |
| UniswapX.ItemFills | uniswapx/src/lib.rs:41 | An item that is not a `Fill` log of the tracked reactor contributes nothing and cannot fail. A tracked item contributes its call's orders. |
| UniswapX.MapFills | uniswapx/src/lib.rs:34-81 | A missing header or header timestamp fails. Otherwise the result is the flattening of the items, with the header's seconds as block time. |
| UniswapX.CollectFills | uniswapx/src/lib.rs:38-78 | The block succeeds exactly when every item's contribution does. No items give no fills. |
| UniswapX.CollectFillsSingle | uniswapx/src/lib.rs:38-78 | A single item's fills are exactly that item's contribution. |
| UniswapX.ExecuteFills | uniswapx/src/lib.rs:58-75 | A tracked `execute` call whose order decodes contributes exactly `[into_proto(order, tx_info)]`, and fails exactly when that conversion does. |
| UniswapX.BatchFillsInOrder | uniswapx/src/lib.rs:63-77 | A tracked `executeBatch` call contributes one fill per encoded order, at the same position, each the conversion of that order. It fails exactly when some order's conversion does. |
| UniswapX.CollectFillsAppend | uniswapx/src/lib.rs:38-78 | The fills of a concatenation are the fills of the first part followed by those of the second, so call order is kept. A failure in the first part fails the whole. Order within a call is stated by `UniswapX.CollectFillsSingle` with `UniswapX.BatchFillsInOrder`. |
| UniswapX.CollectFillsSkipsUntracked | uniswapx/src/lib.rs:41 | Items that are not tracked `Fill` logs contribute nothing and cannot fail, whatever their calls hold. |
| UniswapX.UnknownSelectorFailsBlock | uniswapx/src/lib.rs:67 | A tracked log whose call has an unknown or too-short selector fails the whole block. |
| UniswapX.CollectFillsTxInfo | uniswapx/src/lib.rs:42-56 | Every order of a block carries the transaction info of some tracked item. |
| UniswapX.FirstWhere | uniswapx/src/lib.rs:98-103 | Finds the first output whose fee-ness matches, or reports that none does. |
| UniswapX.FillKeys | uniswapx/src/lib.rs:90-94 | The row key has exactly `tx_block_time`, `tx_block_number`, `tx_hash` (hex) and `tx_log_index`. |
| UniswapX.FeeDecayed | uniswapx/src/lib.rs:109-114 | The decayed amount of the first output paid to the fee recipient, or `"0"` when there is none. |
| UniswapX.RowOf | uniswapx/src/lib.rs:98-117 | No row exactly when every output goes to the fee recipient. Otherwise a `Create` in `exclusive_dutch_auction_fills` under the fill key. |
| UniswapX.RowOfDescribes | uniswapx/src/lib.rs:98-146 | A fill row holds all 23 fill columns in order. The order-info, transaction, order and input columns hold those messages' fields, hex-rendered for addresses and byte strings. The five output columns come from the first output that does not go to the fee recipient. The fee column holds the first fee output's decayed amount, or `"0"`. |
| UniswapX.FillFields | uniswapx/src/lib.rs:116-146 | The column writes give exactly the fill column names, and each column holds the value at its position. |
| UniswapX.FillRowFields | uniswapx/src/lib.rs:116-146 | Each of the 23 fill columns holds the message field it is named after: `reactor` the info's reactor, `output_token` the chosen output's token, `fee_decayed_amount` the fee amount passed in, and so on. |
| UniswapX.FillRow | uniswapx/src/lib.rs:88-97 | An order missing its transaction info, order info or input fails, because `db_out` unwraps them. Otherwise its row is as above. |
| UniswapX.OrderRows | uniswapx/src/lib.rs:87-147 | An order contributes at most one row, and none exactly when every output is a fee output. The row is in the fills table under the order's key. |
| UniswapX.DbOut | uniswapx/src/lib.rs:84-150 | Fails exactly when some order misses a message. Otherwise there are at most as many rows as orders, all in the fills table. Which rows, and in which order, is stated by `UniswapX.DbOutAppend` and `UniswapX.DbOutRows`. |
| UniswapX.DbOutAppend | uniswapx/src/lib.rs:84-150 | The rows of a concatenation of orders are the rows of each part, in order, and it fails exactly when a part does. One order gives exactly its own rows (`UniswapX.OrderRows`), so the rows are the per-order rows, in the orders' sequence. |
| UniswapX.DbOutRows | uniswapx/src/lib.rs:87-147 | A row is emitted exactly when it is the row of one of the orders. |
| UniswapX.DbOutOneRowPerOrder | uniswapx/src/lib.rs:87-147 | When every order has a non-fee output there is exactly one row per order, in order, keyed by that order's transaction info. |
| UniswapX.DbOutSkipsFeeOnly | uniswapx/src/lib.rs:104-106 | Orders whose every output goes to the fee recipient produce no row. |
| Encoding.EncodeAll | events/src/events.rs:29-33 | One element encoding per element. |
| Encoding.Encode | events/src/events.rs:17-79 | Bytes encode as hex, two characters per byte. A big integer encodes as a non-empty text starting with `-` exactly when it is negative. Vectors are bracketed and tuples parenthesised. |
| Encoding.EncodeAllIndex | events/src/events.rs:29-33 | Element encodings keep element order. |
| Encoding.EncodeBytes | events/src/events.rs:17-21 | A byte vector encodes as hex, two characters per byte, and the hex decodes back to the bytes. |
| Encoding.EncodeBig | events/src/events.rs:23-27 | A non-negative big integer encodes as decimal digits that read back as the value. A negative one encodes as `-` followed by the digits of its magnitude, and those digits read back as the magnitude. |
| Encoding.EncodeListShape | events/src/events.rs:29-33 | The empty vector is `[]`. A vector is bracketed, with commas only between element encodings. |
| Encoding.EncodeListCons | events/src/events.rs:29-33 | Prepending an element to a non-empty vector prepends its encoding and one comma. |
| Encoding.EncodeTupleShape | events/src/events.rs:35-54 | Pairs and triples are parenthesised, with their components in order and separated by commas. |
| Encoding.EncodeCompositional | events/src/events.rs:29-79 | Vectors or tuples whose elements encode pairwise alike encode alike. |
| Encoding.HexHasNoComma | events/src/events.rs:17-21 | No byte vector's encoding contains a comma. |
| Encoding.EncodeAllBytesInjective | events/src/events.rs:17-21 | Byte-vector sequences with equal element encodings are equal. |
| Encoding.BytesListInjective | events/src/events.rs:17-33 | Distinct non-empty vectors of byte vectors encode differently. |
| Encoding.BytesTupleInjective | events/src/events.rs:35-79 | Distinct tuples of byte vectors encode differently. |
| Encoding.EmptyListCollision | events/src/events.rs:29-33 | The empty vector and the vector holding one empty byte vector both encode as `[]`. |
| TableDerive.TablePrefix | to-table-derive/src/lib.rs:30-39 | No `table_prefix` attribute means no prefix. Otherwise only the first such attribute counts, and it yields a prefix exactly when it is `name = "literal"`. |
| TableDerive.TableName | to-table-derive/src/lib.rs:41-42 | The table name is the prefix (empty when absent) followed by the lower-cased type name. |
| TableDerive.VariantNames | to-table-derive/src/lib.rs:70-89 | The variant identifiers, one per variant, in order. |
| TableDerive.Derive | to-table-derive/src/lib.rs:26-59 | Expansion succeeds exactly for structs with named fields and for enums whose every variant wraps one value. A struct gets its table name and its field names in order. An enum gets one delegating arm per variant, in order. |
| TableDerive.AddTableChangesMethod | to-table-derive/src/lib.rs:127-171 | Tuple and unit structs, unions, and enum variants without exactly one field are generation failures (`unimplemented!`). |
| TableDerive.Innermost | to-table-derive/src/lib.rs:70-89 | A chain of wrapping enum values ends in a struct value. |
| TableDerive.AddTableChanges | to-table-derive/src/lib.rs:127-171 | Only appends writes. The table, keys, ordinal, operation and earlier writes are unchanged. |
| TableDerive.InnermostWellFormed | to-table-derive/src/lib.rs:149-168 | The struct at the bottom of a derivable chain is itself derivable. |
| TableDerive.Delegation | to-table-derive/src/lib.rs:70-122 | An enum value's table name, contract name and column writes are those of the struct it wraps. A struct's contract name is its module's `CONTRACT_NAME`. |
| TableDerive.GetTableName | to-table-derive/src/lib.rs:61-91 | The generated `get_table_name` of a value is the table name of the struct at the bottom of its chain of wrapping enums. |
| TableDerive.GetContractName | to-table-derive/src/lib.rs:94-124 | The generated `get_contract_name` of a value is the `CONTRACT_NAME` of the module of the struct at the bottom of its chain. |
| TableDerive.StructWrites | to-table-derive/src/lib.rs:129-146 | A struct writes one column per named field, in declaration order: the field name, no old value, and the field value's encoding. |
| TableDerive.PrefixFromBuildAttribute | events/build.rs:194-196 | The `table_prefix = "<p>"` attribute the build script attaches gives table `p` followed by the lower-cased name. |
| TableDerive.OnlyFirstPrefixConsulted | to-table-derive/src/lib.rs:30-39 | A first `table_prefix` that is not a string literal hides a later one that is. |
| TableDerive.TableNameCaseCollision | to-table-derive/src/lib.rs:42 | Two types whose names differ only in letter case share a table. |
| Dispatch.GenerateCode | build-mod/src/lib.rs:19-64 | Succeeds exactly when every ABI name and every camel-cased name is an identifier (`syn::Ident::new` panics otherwise) and the generated text parses (`syn::parse_file`). It then gives one module per ABI name, in input order, and one enum variant per module, named by its camel-cased name. The first ABI name that is not an identifier is reported; failing that, the first camel-cased one. |
| Dispatch.FirstRejected | build-mod/src/lib.rs:20-31 | Finds the first name that is not an identifier, or reports that all are. |
| Dispatch.FirstMatch | build-mod/src/lib.rs:33-55 | Finds the first module whose decoder accepts the log, or reports that none does. |
| Dispatch.MatchAndDecode | build-mod/src/lib.rs:51-56 | Returns `None` exactly when every module's decoder does. Otherwise it wraps the first successful decoding, in module order, in that module's variant. |
| Dispatch.VariantIdentifiesModule | build-mod/src/lib.rs:44-49 | When the generated code compiles (distinct modules and variants), a decoded event's variant determines the module that decoded it. |
| Dispatch.OrderIrrelevantWhenUnique | build-mod/src/lib.rs:33-55 | When at most one module decodes a log, reordering the modules does not change the result. |
| Schema.WriteParamTypeSql | events/build.rs:64-89 | The writer-based generator produces exactly the reference column type: `String` for strings and bytes, `FixedString(40)` for addresses, `FixedString(n)` for `FixedBytes(n)`, `Int<n>`, `UInt<n>`, `Boolean`, `Array(t)` for both array kinds, and `Tuple(t1,...,tk)`. |
| Schema.WriteTupleItems | events/build.rs:79-84 | The tuple loop writes the item types with a comma after every item but the last. |
| Schema.ParamSqlAll | events/build.rs:77-86 | One column type per tuple item. |
| Schema.ParamSqlAllPrefix | events/build.rs:79-84 | The item types of a longer prefix extend those of a shorter one by one type. |
| Schema.ParamSqlCollisions | events/build.rs:66-76 | A fixed array's length is not part of its column type, which equals the dynamic array's. Bytes and strings share a column type. |
| Schema.ParamSqlShape | events/build.rs:64-89 | Column types are never shorter than four characters. Composite types end with `)`. |
| Schema.TableEndLength | events/build.rs:19-36 | The trailer is 330 characters long, as its declared byte-array type says. |
| Schema.TrailerWidthsMatchHex | events/build.rs:20-25 | The trailer's `FixedString(64)` and `FixedString(40)` widths are the lengths of a 32-byte hash's and a 20-byte address's hex. |
| Schema.FixedBytesWidthHalved | events/build.rs:68 | The column for an `n`-byte fixed array is `FixedString(n)`: half the length of the array's hex, and not the hex length. |
| Schema.TableSqlName | events/build.rs:101-104 | The table is the lower-cased event name, preceded by the prefix when there is one. |
| Schema.TableNamesAgree | events/build.rs:101-104 | For any naming of the generated struct, the derive macro's table name under the attribute the build script attaches is the schema's table name for the struct's name. It equals the schema's table name for the event's own name exactly when the two names agree after lower-casing. |
| Schema.ColumnsSqlAppend | events/build.rs:107-111 | Each input gives the line ``\t`name` type,\n``, and the lines of a run of inputs are the lines of its parts, in order. |
| Schema.DeclaredColumns | events/build.rs:19-36 | A table declares its inputs in order, then the six trailer columns. |
| Schema.ParamNames | events/build.rs:107-111 | The input names, in order. |
| Schema.CreateTableSql | events/build.rs:106-112 | An event's statement is `CREATE TABLE IF NOT EXISTS db.table (`, then exactly the column lines of its inputs, then the fixed trailer. |
| Schema.EventsSqlAppend | events/build.rs:99-113 | The statements for a run of events are the statements for its parts, concatenated in order. |
| Schema.ContractSql | events/build.rs:98-115 | A contract's output is the statements of all its events, taken over its event groups in order, with nothing written between groups. |
| Schema.SchemaSql | events/build.rs:205-216 | Succeeds exactly when every configured ABI loads, and otherwise fails with the contracts loop's error. The text is then the database and cursors preamble followed by the contracts' tables, with nothing else. |
| Schema.DatabaseSql | events/build.rs:119-137 | The preamble starts with `CREATE DATABASE IF NOT EXISTS db;` and continues with the `db.cursors` table. |
| Schema.ContractsSql | events/build.rs:211-213 | Succeeds exactly when every ABI loads. A failure names the file of a contract that does not load. No contracts give no text. |
| Schema.ContractsSqlAppend | events/build.rs:211-213 | The tables of a run of contracts are the tables of its parts, in configuration order, and it fails exactly when a part does. |
| Schema.ContractsSqlSingle | events/build.rs:211-213 | One contract fails exactly when its ABI does not load, naming its file. Otherwise it gives exactly the tables of its loaded event groups under its own prefix. |
| Schema.SubstituteNoPlaceholders | events/build.rs:223-225 | A template without `{` is copied unchanged. |
| Schema.SubstituteName | events/build.rs:223 | `{{NAME}}` between placeholder-free text becomes the configured name. |
| Schema.SubstitutionCascades | events/build.rs:223-225 | Replacements apply in turn, so a name containing `{{VERSION}}` has it replaced by the version. |
| Schema.SubstituteChunks | events/build.rs:218-229 | For any template made of brace-free text and the three placeholders, and brace-free configured values, substitution replaces each placeholder by its value and keeps the text. |
| Events.LogEvents | events/src/lib.rs:42-56 | A log no module decodes contributes nothing. A decoded log needs the header's timestamp, and its info comes from the log, its receipt's transaction and the block. |
| Events.GetEvents | events/src/lib.rs:34-60 | A missing header fails whatever the logs. Otherwise the logs' contributions are flattened in order. |
| Events.MissingTimestampFailsIffDecoded | events/src/lib.rs:51 | A block without a timestamp fails exactly when one of its logs decodes. |
| Events.EventsFollowLogs | events/src/lib.rs:40-57 | With a timestamp, flattening yields exactly the decoded logs, in log order, each with its own info. |
| Events.GetEventsFollowLogs | events/src/lib.rs:34-60 | On a block with a full header, `get_events` is exactly the decoded logs, in order. |
| Events.DecodedEvents | events/src/lib.rs:40-57 | No more events than logs. |
| Events.EventKeys | events/src/lib.rs:84-97 | Keys are exactly `evt_tx_hash` (hex), `evt_index` (decimal), `evt_block_number` and `evt_block_time`. |
| Events.PushCreate | events/src/db.rs:10-23 | One `Create` change with the given table, keys and ordinal. |
| Events.PushCreateStandard | events/src/db.rs:26-36 | The seven standard writes come first, none with an old value. The transaction hash, from, to and contract address are hex, and the index and block number decimal. |
| Events.PushCreateNames | events/src/db.rs:26-39 | A row's columns are the seven standard ones, then the wrapped struct's fields in declaration order. |
| Events.TransformEvents | events/src/lib.rs:78-100 | One change per event, in order. Change `i` is `push_create` of event `i` into that event's table, under its keys, with ordinal 0 and operation `Create`. |
| Events.TransformColumns | events/src/lib.rs:78-100 | Each event's row writes the seven standard columns, then the fields of the struct the event wraps, in declaration order. |
| Events.Transform | events/src/lib.rs:67-74 | Fails exactly when `get_events` does, a missing header included. Otherwise the rows are exactly the transformed events of `get_events`, one per event, in order. |
| Events.EventsAreWellFormed | events/src/lib.rs:40-57 | Every extracted event was produced by a decoder, so it is well formed when every decoder's output is. |
| Events.KeysArePrimaryKey | events/src/lib.rs:84-97 | The row keys are the trailer columns forming the tables' primary key. |
| Events.RowColumnsVersusSchema | events/src/db.rs:26-39 | For any field naming of the generated bindings, a row writes the seven standard columns, then the renamed inputs in order. When the naming keeps the input names, that is exactly the columns its table declares plus `contract_address`, which the schema lacks. |
| Tx.BlockTime | tx/src/lib.rs:31 | The block time exists exactly when the header and its timestamp do. A missing header is `MissingHeader`. |
| Tx.BeValueLeadingZero | tx/src/lib.rs:120-124 | Leading zero bytes do not change a big-endian value. |
| Tx.BigIntToString | tx/src/lib.rs:120-124 | A missing number renders as `"0"`. A present one renders as decimal digits, without leading zeros, that read back as its unsigned big-endian value. |
| Tx.MissingLikeZero | tx/src/lib.rs:103-106 | A missing number and a zero number render alike, as `"0"`. |
| Tx.StatusName | tx/src/lib.rs:45 | Status codes 0 to 3 have names, which map back to their codes. Other codes are unknown. |
| Tx.TypeName | tx/src/lib.rs:68 | Type codes 0 to 2 have names, which map back to their codes. Other codes are unknown. |
| Tx.FirstReward | tx/src/lib.rs:89-92 | Finds the first `RewardMineBlock` balance change (reason code 2), or reports that there is none. |
| Tx.Miner | tx/src/lib.rs:89-96 | The miner is the hex address of the first mining reward, or forty zeros. |
| Tx.ZeroMinerAmbiguous | tx/src/lib.rs:89-96 | A reward to the zero address reads like no reward at all. |
| Tx.BlockKeys | tx/src/lib.rs:80-83 | Block keys are exactly `time`, `number` and `hash` (hex). |
| Tx.CreateBlockChange | tx/src/lib.rs:74-118 | Fails exactly when the block time does, because the timestamp is read before the header test. Otherwise a `Create` in `blocks` with ordinal 0 under the block keys. |
| Tx.BlockColumns | tx/src/lib.rs:86-116 | The block row holds the 8 block columns in order, each with its header field rendered. `miner` holds the first block-reward recipient (the zero address when there is none), and `difficulty` holds `"0"` when the header has none. |
| Tx.BlockRowFields | tx/src/lib.rs:86-116 | Each block column, written into an empty change, holds the header field or reward recipient it is named after. |
| Tx.TxKeys | tx/src/lib.rs:34-38 | Transaction keys are exactly `hash`, `block_number`, `block_time` and `block_hash`, with the hashes in hex. |
| Tx.CreateTransactionChange | tx/src/lib.rs:25-72 | Fails exactly when the block time fails or the status or type code is unknown. Otherwise a `Create` in `transactions` with the trace's begin ordinal. |
| Tx.TransactionColumns | tx/src/lib.rs:45-69 | The transaction row holds the 14 transaction columns in order, each with its trace field rendered. `status` and `type` hold the enum names. `success` is `"true"` exactly when the status is `SUCCEEDED`, and `"false"` otherwise. |
| Tx.TxRowFields | tx/src/lib.rs:45-69 | Each transaction column, written into an empty change, holds the trace field it is named after. `success` is the status code compared with `SUCCEEDED`'s. |
| Tx.TransactionChanges | tx/src/lib.rs:18-20 | One change per trace, in trace order, each in `transactions` with its trace's ordinal. Fails exactly when some trace's change does. |
| Tx.DbOut | tx/src/lib.rs:12-23 | A missing header fails. The handler succeeds exactly when the block time exists and every trace's status and type are known. The block row then comes first, followed by each trace's transaction row, in trace order. |
| Prices.FirstSegment | prices/src/lib.rs:118 | The first key segment has no `:` and is a prefix of the key. |
| Prices.PoolWindowsIdFields | prices/src/lib.rs:117-123 | Segments 0, 1 and 2 of the key. A key with fewer segments fails at the first missing one. |
| Prices.PoolWindowsIdFieldsOfJoin | prices/src/lib.rs:117-123 | Keys joined from `:`-free segments give those segments back. |
| Prices.ParseU64 | prices/src/lib.rs:65 | A parse yields a value below 2^64. An empty or bare `+` text fails. A digit string parses to its value when that fits in 64 bits. A parse succeeds only on an optional `+` followed by at least one digit, and yields those digits' value, so any other character makes it fail. |
| Prices.ParseRendering | prices/src/lib.rs:65 | Every `u64` rendering parses back, with or without a leading `+`. |
| Prices.HourOf | prices/src/lib.rs:65 | The hour is `time_id * 3600` when that fits in 64 bits. It is always below 2^64. |
| Prices.HourWraps | prices/src/lib.rs:65 | From `2^64 / 3600` on, the product wraps: a later time id gets an earlier hour. |
| Prices.TokenKeys | prices/src/lib.rs:41-45 | Token keys are exactly `blockchain` (`ethereum`), `contract_address`, `name` and `symbol`. |
| Prices.TokenChange | prices/src/lib.rs:47-54 | A created token's row: a `Create` in `tokens` with the delta's ordinal and one `decimals` column. |
| Prices.TokenChanges | prices/src/lib.rs:35-55 | At most one row per delta, every one in `tokens` on chain `ethereum`. |
| Prices.TokenChangesComplete | prices/src/lib.rs:35-39 | Every `Create` token delta has its row. |
| Prices.TokenChangesSound | prices/src/lib.rs:35-39 | Every token row is the row of some `Create` delta, so other operations are skipped. |
| Prices.TokenChangesAppend | prices/src/lib.rs:35-55 | Token rows keep delta order. |
| Prices.ValueChange | prices/src/lib.rs:63-79 | Fails exactly when the key lacks a segment or the time id does not parse. Otherwise a `Create` in `values` with the delta's ordinal, keyed by chain, hour and token address, holding the old value as `price`. |
| Prices.ValueRows | prices/src/lib.rs:57-62 | A delta contributes only if its first key segment is `TokenHourData` and it is a `Delete`. |
| Prices.ValueChanges | prices/src/lib.rs:57-80 | Fails exactly when some selected delta's row fails. With no selected delta there are no rows. |
| Prices.ValueChangesComplete | prices/src/lib.rs:57-80 | Every selected delta's row is among the value rows. |
| Prices.ValueChangesAppend | prices/src/lib.rs:57-80 | Value rows keep delta order: the rows of a concatenation are the rows of the parts, and one delta gives exactly its own rows. |
| Prices.ValueRowsOrigin | prices/src/lib.rs:57-80 | Every value row is the row of a selected delta and is in `values`. |
| Prices.DbOutInner | prices/src/lib.rs:29-82 | Fails exactly when the value rows fail. The token rows come first, and the value rows follow, with nothing else. |
| Prices.TokensPrecedeValues | prices/src/lib.rs:35-80 | All token rows precede all value rows. |
| Prices.SetIfNotExists | prices/src/lib.rs:94-103 | Adds the token's address, and never changes a stored entry. |
| Prices.SetAll | prices/src/lib.rs:90-114 | Sets each token in order: stored entries are kept, every token's address ends up stored, and nothing else is added. |
| Prices.SetAllFirstWins | prices/src/lib.rs:90-114 | A new address holds the first token seen with it. |
| Prices.SetAllPresent | prices/src/lib.rs:94-113 | Setting tokens that are all stored changes nothing. |
| Prices.SetAllIdempotent | prices/src/lib.rs:90-114 | Setting the same tokens twice is the same as once. |
| Prices.PoolTokens | prices/src/lib.rs:90-113 | Token0 then token1, pool by pool. |
| Prices.StoreTokenInfo | prices/src/lib.rs:89-115 | Fails exactly when some pool lacks a token. Otherwise it sets token0 then token1 of each pool, in pool order. |
| Prices.StoreNeverOverwrites | prices/src/lib.rs:94-113 | The handler never overwrites a stored token. |
| Prices.StoreFirstTokenWins | prices/src/lib.rs:89-115 | A new address holds the first token seen with it in pool order. |
| Prices.StoreIdempotent | prices/src/lib.rs:89-115 | Replaying a block's pools changes nothing. |
| Changes.NewCreate | events/src/db.rs:18-23 | `push_change_composite` makes a `Create` with the given table, keys and ordinal, and no columns. |
| Changes.Write | events/src/db.rs:26-36 | `.change` appends one write with no old value and keeps earlier writes. |
| Changes.WriteAll | events/src/db.rs:26-36 | A run of writes appends them in order after the existing ones. |
| Changes.WriteAllNames | events/src/db.rs:26-39 | Writing named columns appends exactly those names, in order. |
| Changes.WriteColumns | tx/src/lib.rs:86-116 | Writing into a fresh change gives exactly the named columns, each holding the value at its position. |
| Text.UnHexHex | events/src/events.rs:19 | The hex rendering decodes back to the bytes. |
| Text.HexInjective | uniswapx/src/lib.rs:93 | Distinct byte strings have distinct hex renderings, so the hex key identifies the transaction hash. |
| Text.DigitsValueOfNatToString | uniswapx/src/uniswap_structs.rs:40-41 | A decimal rendering reads back as the number. |
| Text.NatToStringInjective | events/src/lib.rs:89-92 | Distinct numbers render differently. |
| Text.Lower | to-table-derive/src/lib.rs:42 | Lower-casing keeps the length, maps each character and leaves no ASCII capital. |
| Text.Split | prices/src/lib.rs:117-123 | A key splits into at least one `:`-free segment, and the segments join back to the key. |
| Text.SplitJoin | prices/src/lib.rs:117-123 | Splitting a join of `:`-free segments gives them back. |
| Text.JoinInjective | events/src/events.rs:29-33 | Joining separator-free parts is injective. |
| Text.ReplaceAbsent | events/build.rs:223-225 | A pattern whose first character does not occur leaves the text unchanged. |
| Text.ReplaceSelf | events/build.rs:223-225 | Replacing a pattern by itself changes nothing. |
| Text.ReplaceAt | events/build.rs:223-225 | The first occurrence of a pattern is replaced, and replacement continues after it. |

## Left out

- Streaming, cursors, the network client, the forwarder and the `Abigen` build wrappers are I/O or generated code with no logic of their own.
- File plumbing is left out: the build scripts' file creation and `normalize_path`, `write_to_file`, and the `prettyplease` formatting. The model covers what the generated code does, not its token text.
- `ethabi::decode`, the call decoders, `Fill::match_log`, each contract's `match_and_decode`, ABI loading, `heck` camel case, `syn`'s identifier test and parser, and the bindings generator's naming are foreign. They are parameters of the operations that call them.
- The `Timestamp` display and database renderings are parameters. `BigDecimal` display is represented by the text it yields.
- Protobuf wire encoding is not modelled. Wire records are datatypes, and enum codes outside the ones `from_i32` knows are unknown.
- The substreams store and the `Tables`/`DatabaseChanges` builders are not modelled. Their effect is modelled as an ordered list of changes. `Tables` merges rows that share a primary key; the model keeps one change per row in emission order, so batch orders sharing a key stay separate.
- Store ordinals are kept in the rows but not in the token store. The store maps an address to a token.
- Unicode lower-casing is restricted to ASCII.
- Tx.TypeName: knows the legacy, access-list and dynamic-fee types only. Codes that later protobuf versions add are treated as unknown, so they fail.
- Tuples of arity 2 to 5 are modelled by one variable-arity constructor guarded by `Encoding.Supported`.
- Encoding.EncodeTupleShape: states the layout for pairs and triples only. Arities 4 and 5 follow the same rule through `Encoding.EncodeCompositional` and `Encode`'s definition.
- Schema.ContractsSql: on failure it names some contract whose ABI does not load, not necessarily the first one. It does not model that earlier contracts' tables were already written to the file.
- Events.PushCreate: its own contract states only the change's header. Column names and standard values are in `Events.PushCreateNames` and `Events.PushCreateStandard`.
- Prices.TokenChanges: its own contract states only bounds and the table. Membership in both directions is in `Prices.TokenChangesComplete` and `Prices.TokenChangesSound`.
- Prices.HourOf: models the release build, where `u64` multiplication wraps. A debug build would panic instead.

## Where the code and the intended behaviour differ

The model follows the code in each of these places:

- `decay` with start, end and now all equal gives the end amount, because the end test comes first.
- An unknown selector panics the whole block rather than being skipped. A call input shorter than four bytes panics too.
- `checked_mul(..).unwrap()` panics on overflow instead of saturating.
- A negative block time makes `U256::from(i64)` panic during order conversion.
- In `tx`, the block's timestamp is read before `if let Some(header)`. A block without a header therefore fails, rather than yielding transaction rows without a block row.
- The schema trailer declares six standard columns, while `push_create` writes seven. `contract_address` is written to a column the generated table does not declare. The two sides also agree on the other columns only while the bindings keep the ABI's input and event names (`Events.RowColumnsVersusSchema`, `Schema.TableNamesAgree`).
- `map_fills` decodes the whole call for every tracked `Fill` log. A batch call with N `Fill` logs therefore yields N copies of its N orders. The copies made for one log share its `tx_log_index`, so their fill rows share a primary key, and `Tables` merges them into one row. The model emits every copy (`UniswapX.CollectFillsAppend`, `UniswapX.BatchFillsInOrder`).
- `FixedBytes(n)` maps to `FixedString(n)`, although its hex needs `2n` characters (`Schema.FixedBytesWidthHalved`).
- The value encoding is not injective on vectors of byte vectors: `[]` and `[<empty bytes>]` both encode as `[]`.

=== FILE: chain.dfy ===
/** Chain primitives shared by the block-processing modules. */
module Chain {

  /** Rust's `i64`. */
  type i64 = x: int | -0x8000_0000_0000_0000 <= x < 0x8000_0000_0000_0000

  /** `prost_types::Timestamp`, the block header's time. */
  datatype Timestamp = Timestamp(seconds: i64, nanos: int)
}

=== FILE: changes.dfy ===
/** The sink-facing record: one keyed "table change" with an ordered list of column writes.
    Composite keys are maps (the source uses `HashMap`/`BTreeMap`, whose iteration order carries
    no meaning downstream). */
module Changes {
  import opened Wrappers

  datatype Operation = Create | Update | Delete

  /** One column write: the column name, the old value (always `None` here) and the new value,
      already rendered as text. */
  datatype Field = Field(name: string, oldValue: Option<string>, newValue: string)

  datatype TableChange = TableChange(
    table: string,
    keys: map<string, string>,
    ordinal: nat,
    operation: Operation,
    fields: seq<Field>)

  /** `push_change_composite(table, keys, ordinal, Create)`: a change with no columns yet. */
  function NewCreate(table: string, keys: map<string, string>, ordinal: nat): (tc: TableChange)
    ensures tc.table == table && tc.keys == keys && tc.ordinal == ordinal
    ensures tc.operation == Create && tc.fields == []
  {
    TableChange(table, keys, ordinal, Create, [])
  }

  /** `.change(name, (None, value))`: appends one write; earlier writes are kept. */
  function Write(tc: TableChange, name: string, value: string): (r: TableChange)
    ensures r.table == tc.table && r.keys == tc.keys && r.ordinal == tc.ordinal
    ensures r.operation == tc.operation
    ensures r.fields == tc.fields + [Field(name, None, value)]
  {
    tc.(fields := tc.fields + [Field(name, None, value)])
  }

  /** Appends a list of `(name, value)` writes in order. */
  function WriteAll(tc: TableChange, writes: seq<(string, string)>): (r: TableChange)
    ensures r.table == tc.table && r.keys == tc.keys && r.ordinal == tc.ordinal
    ensures r.operation == tc.operation
    ensures |r.fields| == |tc.fields| + |writes|
    ensures r.fields[..|tc.fields|] == tc.fields
    ensures forall i :: |tc.fields| <= i < |r.fields| ==>
              r.fields[i] == Field(writes[i - |tc.fields|].0, None, writes[i - |tc.fields|].1)
    decreases |writes|
  {
    if writes == [] then tc
    else WriteAll(Write(tc, writes[0].0, writes[0].1), writes[1..])
  }

  /** Column names paired with their values, position by position. */
  function Pairs(names: seq<string>, values: seq<string>): (ws: seq<(string, string)>)
    requires |names| == |values|
    ensures |ws| == |names|
    ensures forall i :: 0 <= i < |ws| ==> ws[i] == (names[i], values[i])
  {
    if names == [] then [] else [(names[0], values[0])] + Pairs(names[1..], values[1..])
  }

  /** The column names of a change, in write order. */
  function FieldNames(fields: seq<Field>): (names: seq<string>)
    ensures |names| == |fields|
    ensures forall i :: 0 <= i < |fields| ==> names[i] == fields[i].name
  {
    if fields == [] then [] else [fields[0].name] + FieldNames(fields[1..])
  }

  /** Writing named columns appends exactly those names, in order. */
  lemma WriteAllNames(tc: TableChange, names: seq<string>, values: seq<string>)
    requires |names| == |values|
    ensures FieldNames(WriteAll(tc, Pairs(names, values)).fields) == FieldNames(tc.fields) + names
  {
    var r := WriteAll(tc, Pairs(names, values));
    var ws := Pairs(names, values);
    var n := |tc.fields|;
    var expected := FieldNames(tc.fields) + names;
    forall k | 0 <= k < |r.fields|
      ensures FieldNames(r.fields)[k] == expected[k]
    {
      if k < n {
        assert r.fields[..n][k] == tc.fields[k];
      } else {
        assert r.fields[k] == Field(ws[k - n].0, None, ws[k - n].1);
      }
    }
  }

  /** Writing named columns into a fresh change gives exactly those names, in order, each
      holding the value at its position. */
  lemma WriteColumns(tc: TableChange, names: seq<string>, values: seq<string>)
    requires tc.fields == [] && |names| == |values|
    ensures FieldNames(WriteAll(tc, Pairs(names, values)).fields) == names
    ensures forall i :: 0 <= i < |names| ==> WriteAll(tc, Pairs(names, values)).fields[i] == Field(names[i], None, values[i])
  {
    var fields := WriteAll(tc, Pairs(names, values)).fields;
    assert forall i :: 0 <= i < |names| ==> fields[i] == Field(names[i], None, values[i]);
  }

  /** Rust's `bool::to_string`. */
  function BoolText(b: bool): string {
    if b then "true" else "false"
  }
}

=== FILE: decay.dfy ===
/** The Dutch-auction decay engine: clamped linear interpolation of an amount over a time
    window, on 256-bit unsigned integers with truncating division and checked multiplication. */
module DecayEngine {
  import opened Wrappers

  /** 2^256: every `U256` is below it. */
  const U256_LIMIT: nat := 0x1_0000_0000_0000_0000_0000_0000_0000_0000_0000_0000_0000_0000_0000_0000

  type U256 = n: nat | n < U256_LIMIT

  /** `DecayInformation`: the evaluation time and the decay window. */
  datatype DecayInfo = DecayInfo(now: U256, start: U256, end: U256)

  /** The two panics of `decay`: the `EndTimeBeforeStartTime` panic and the `unwrap` of a
      failed `checked_mul`. */
  datatype DecayError = EndTimeBeforeStartTime | MulOverflow

  /** `x` lies in the closed interval spanned by `a` and `b`, whichever is larger. */
  predicate Between(x: int, a: int, b: int) {
    (a <= x <= b) || (b <= x <= a)
  }

  /** `|a - b|`. */
  function Dist(a: nat, b: nat): nat {
    if a < b then b - a else a - b
  }

  /** `U256::checked_mul`: the product when it fits in 256 bits. */
  function CheckedMul(a: U256, b: U256): (r: Option<U256>)
    ensures r.Some? <==> a * b < U256_LIMIT
    ensures r.Some? ==> r.value == a * b
  {
    if a * b < U256_LIMIT then Some(a * b) else None
  }

  // ---------------------------------------------------------------------------------------
  // Arithmetic helpers
  // ---------------------------------------------------------------------------------------

  lemma MulMonotone(d: nat, a: nat, b: nat)
    requires a <= b
    ensures d * a <= d * b
  {
  }

  lemma LessFromScaled(a: int, b: int, m: nat)
    requires m > 0 && a * m < b * m
    ensures a < b
  {
    assert (b - a) * m == b * m - a * m;
  }

  lemma DivMonotone(x: nat, y: nat, m: nat)
    requires x <= y && m > 0
    ensures x / m <= y / m
  {
    DivBracket(x, m);
    DivBracket(y, m);
    LessFromScaled(x / m, y / m + 1, m);
  }

  /** Truncating division characterised without `/`: `q * m <= p < (q + 1) * m`. */
  lemma DivBracket(p: nat, m: nat)
    requires m > 0
    ensures (p / m) * m <= p < (p / m + 1) * m
  {
    assert p == (p / m) * m + p % m;
  }

  /** A fraction `el / dur < 1` of `d` is at most `d`. */
  lemma ScaledAtMost(d: nat, el: nat, dur: nat)
    requires el < dur
    ensures (d * el) / dur <= d
  {
    MulMonotone(d, el, dur);
    DivMonotone(d * el, d * dur, dur);
    assert (d * dur) / dur == d;
  }

  // ---------------------------------------------------------------------------------------
  // decay
  // ---------------------------------------------------------------------------------------

  /** `decay`: invalid windows fail; at or after the end the end amount applies (this test comes
      first, so `start == end == now` yields the end amount); at or before the start the start
      amount applies; strictly inside, the amount moves from the start amount towards the end
      amount by the truncated fraction `elapsed / duration`, failing when the product
      `|end - start| * elapsed` does not fit in 256 bits. */
  function Decay(w: DecayInfo, startAmount: U256, endAmount: U256): (r: Result<U256, DecayError>)
    ensures r == Err(EndTimeBeforeStartTime) <==> w.end < w.start
    ensures w.start <= w.end <= w.now ==> r == Ok(endAmount)
    ensures w.now <= w.start <= w.end && w.now < w.end ==> r == Ok(startAmount)
    ensures w.start < w.now < w.end ==>
              (r == Err(MulOverflow) <==> Dist(startAmount, endAmount) * (w.now - w.start) >= U256_LIMIT)
    ensures r.Ok? ==> Between(r.value, startAmount, endAmount)
  {
    if w.end < w.start then Err(EndTimeBeforeStartTime)
    else if w.end <= w.now then Ok(endAmount)
    else if w.start >= w.now then Ok(startAmount)
    else Interior(startAmount, endAmount, w.now - w.start, w.end - w.start)
  }

  /** The interpolating branch of `decay`, for `0 < elapsed < duration`. */
  function Interior(startAmount: U256, endAmount: U256, elapsed: U256, duration: U256)
    : (r: Result<U256, DecayError>)
    requires 0 < elapsed < duration
    ensures r.Err? ==> r.error == MulOverflow
    ensures r.Err? <==> Dist(startAmount, endAmount) * elapsed >= U256_LIMIT
    ensures r.Ok? ==> Between(r.value, startAmount, endAmount)
  {
    if endAmount < startAmount then Decreasing(startAmount, endAmount, elapsed, duration)
    else Increasing(startAmount, endAmount, elapsed, duration)
  }

  /** `start_amount - (start_amount - end_amount) * elapsed / duration`. */
  function Decreasing(startAmount: U256, endAmount: U256, elapsed: U256, duration: U256)
    : (r: Result<U256, DecayError>)
    requires endAmount < startAmount && 0 < elapsed < duration
    ensures r.Err? ==> r.error == MulOverflow
    ensures r.Err? <==> (startAmount - endAmount) * elapsed >= U256_LIMIT
    ensures r.Ok? ==> endAmount <= r.value <= startAmount
  {
    var d: U256 := startAmount - endAmount;
    match CheckedMul(d, elapsed)
    case None => Err(MulOverflow)
    case Some(p) =>
      DecreasingStep(startAmount, endAmount, elapsed, duration, p);
      Ok(startAmount - p / duration)
  }

  lemma DecreasingStep(s: nat, e: nat, elapsed: nat, duration: nat, p: nat)
    requires e < s && 0 < elapsed < duration && p == (s - e) * elapsed
    ensures e <= s - p / duration <= s
  {
    ScaledAtMost(s - e, elapsed, duration);
  }

  lemma IncreasingStep(s: nat, e: nat, elapsed: nat, duration: nat, p: nat)
    requires s <= e && 0 < elapsed < duration && p == (e - s) * elapsed
    ensures s <= s + p / duration <= e
  {
    ScaledAtMost(e - s, elapsed, duration);
  }

  /** `start_amount + (end_amount - start_amount) * elapsed / duration`. */
  function Increasing(startAmount: U256, endAmount: U256, elapsed: U256, duration: U256)
    : (r: Result<U256, DecayError>)
    requires startAmount <= endAmount && 0 < elapsed < duration
    ensures r.Err? ==> r.error == MulOverflow
    ensures r.Err? <==> (endAmount - startAmount) * elapsed >= U256_LIMIT
    ensures r.Ok? ==> startAmount <= r.value <= endAmount
  {
    var d: U256 := endAmount - startAmount;
    match CheckedMul(d, elapsed)
    case None => Err(MulOverflow)
    case Some(p) =>
      IncreasingStep(startAmount, endAmount, elapsed, duration, p);
      Ok(startAmount + p / duration)
  }

  /** Strictly inside the window a successful result is the start amount moved towards the end
      amount by exactly the truncated quotient of `|end - start| * elapsed` by the duration. */
  lemma DecayInterpolates(w: DecayInfo, s: U256, e: U256)
    requires w.start < w.now < w.end
    requires Decay(w, s, e).Ok?
    ensures var r := Decay(w, s, e).value;
            var el := w.now - w.start;
            var dur := w.end - w.start;
            && (e >= s ==> (r - s) * dur <= (e - s) * el < (r - s + 1) * dur)
            && (e < s ==> (s - r) * dur <= (s - e) * el < (s - r + 1) * dur)
  {
    var el := w.now - w.start;
    var dur := w.end - w.start;
    if e >= s {
      DivBracket((e - s) * el, dur);
    } else {
      DivBracket((s - e) * el, dur);
    }
  }

  /** Evaluated at the start of a non-empty window, decay gives the start amount; at the end of
      any valid window, the end amount. */
  lemma DecayEndpoints(start: U256, end: U256, s: U256, e: U256)
    requires start <= end
    ensures start < end ==> Decay(DecayInfo(start, start, end), s, e) == Ok(s)
    ensures Decay(DecayInfo(end, start, end), s, e) == Ok(e)
  {
  }

  /** A constant amount never decays and never overflows. */
  lemma DecayConstant(w: DecayInfo, s: U256)
    requires w.start <= w.end
    ensures Decay(w, s, s) == Ok(s)
  {
  }

  /** For a fixed valid window, decay is monotone in time: non-decreasing when the end amount
      is at least the start amount, non-increasing otherwise. */
  lemma DecayMonotone(now1: U256, now2: U256, start: U256, end: U256, s: U256, e: U256)
    requires start <= end && now1 <= now2
    requires Decay(DecayInfo(now1, start, end), s, e).Ok?
    requires Decay(DecayInfo(now2, start, end), s, e).Ok?
    ensures var r1 := Decay(DecayInfo(now1, start, end), s, e).value;
            var r2 := Decay(DecayInfo(now2, start, end), s, e).value;
            (e >= s ==> r1 <= r2) && (e < s ==> r1 >= r2)
  {
    var w1 := DecayInfo(now1, start, end);
    var w2 := DecayInfo(now2, start, end);
    if start < now1 && now2 < end {
      var dur := end - start;
      MulMonotone(Dist(s, e), now1 - start, now2 - start);
      DivMonotone(Dist(s, e) * (now1 - start), Dist(s, e) * (now2 - start), dur);
    }
  }
}

=== FILE: derive.dfy ===
/** The `ToTableChange` derive macro: what it generates for a type definition, and how the
    generated methods behave on values. Parsing Rust tokens is out of scope; a type definition is
    given by its name, its attributes and the shape of its data. */
module TableDerive {
  import opened Wrappers
  import opened Text
  import opened Changes
  import opened Encoding

  /** The shape of an attribute's content: `name = "literal"`, `name = <other expression>`, a
      bare path, or a parenthesised list. */
  datatype Meta = NameValueStr(lit: string) | NameValueOther | PathOnly | ListMeta

  datatype Attr = Attr(path: string, meta: Meta)

  datatype Fields = Named(names: seq<string>) | Unnamed(arity: nat) | Unit

  function FieldCount(f: Fields): nat {
    match f
    case Named(ns) => |ns|
    case Unnamed(n) => n
    case Unit => 0
  }

  datatype Variant = Variant(name: string, fields: Fields)

  datatype Data = StructData(fields: Fields) | EnumData(variants: seq<Variant>) | UnionData

  datatype TypeDef = TypeDef(name: string, attrs: seq<Attr>, data: Data)

  const TABLE_PREFIX_ATTR := "table_prefix"

  /** The attribute at `i` is the first one named `table_prefix`. */
  predicate FirstPrefixAt(attrs: seq<Attr>, i: nat) {
    i < |attrs| && attrs[i].path == TABLE_PREFIX_ATTR &&
    forall j :: 0 <= j < i ==> attrs[j].path != TABLE_PREFIX_ATTR
  }

  /** Only the first `table_prefix` attribute is consulted; it contributes a prefix only when it
      is of the form `table_prefix = "literal"`. */
  function TablePrefix(attrs: seq<Attr>): (r: Option<string>)
    ensures (forall i :: 0 <= i < |attrs| ==> attrs[i].path != TABLE_PREFIX_ATTR) ==> r.None?
    ensures forall i: nat :: FirstPrefixAt(attrs, i) ==>
              r == (if attrs[i].meta.NameValueStr? then Some(attrs[i].meta.lit) else None)
  {
    if attrs == [] then None
    else if attrs[0].path == TABLE_PREFIX_ATTR then
      (if attrs[0].meta.NameValueStr? then Some(attrs[0].meta.lit) else None)
    else
      var r := TablePrefix(attrs[1..]);
      assert forall i: nat :: FirstPrefixAt(attrs, i) ==> i > 0 && FirstPrefixAt(attrs[1..], i - 1) by {
        forall i: nat | FirstPrefixAt(attrs, i)
          ensures i > 0 && FirstPrefixAt(attrs[1..], i - 1)
        {
          assert i > 0;
          forall j | 0 <= j < i - 1
            ensures attrs[1..][j].path != TABLE_PREFIX_ATTR
          {
            assert attrs[1..][j] == attrs[j + 1];
          }
        }
      }
      r
  }

  /** The table name: the prefix (empty when absent) followed by the lower-cased type name. */
  function TableName(def: TypeDef): (name: string)
    ensures |name| >= |def.name|
    ensures name[|name| - |def.name|..] == Lower(def.name)
    ensures name[..|name| - |def.name|] == TablePrefix(def.attrs).GetOr("")
  {
    TablePrefix(def.attrs).GetOr("") + Lower(def.name)
  }

  // ---------------------------------------------------------------------------------------
  // Generation
  // ---------------------------------------------------------------------------------------

  /** `unimplemented!()` while expanding the macro: a compile-time failure. */
  datatype DeriveError = Unimplemented

  /** What the macro generates: for a struct, the table name literal and the column names its
      `add_table_changes` writes; for an enum, the variants its three methods delegate through. */
  datatype Impl = StructImpl(tableName: string, columns: seq<string>) | EnumImpl(variants: seq<string>)

  /** The data shapes the macro can expand: structs with named fields, and enums whose every
      variant has exactly one field. */
  predicate Derivable(data: Data) {
    match data
    case StructData(f) => f.Named?
    case EnumData(vs) => forall i :: 0 <= i < |vs| ==> FieldCount(vs[i].fields) == 1
    case UnionData => false
  }

  /** The identifiers the generated `match` arms name, one per variant, in declaration order.
      These are Rust identifiers of the enum, not column names. */
  function VariantNames(vs: seq<Variant>): (names: seq<string>)
    ensures |names| == |vs|
    ensures forall i :: 0 <= i < |vs| ==> names[i] == vs[i].name
  {
    seq(|vs|, i requires 0 <= i < |vs| => vs[i].name)
  }

  /** `impl_to_table`. The three methods are generated in the order changes, table name,
      contract name; every failure is the same `unimplemented!()`. */
  function Derive(def: TypeDef): (r: Result<Impl, DeriveError>)
    ensures r.Ok? <==> Derivable(def.data)
    ensures r.Ok? && def.data.StructData? ==>
              r.value.StructImpl? && r.value.columns == def.data.fields.names &&
              r.value.tableName == TableName(def)
    ensures r.Ok? && def.data.EnumData? ==>
              r.value.EnumImpl? && |r.value.variants| == |def.data.variants| &&
              forall i :: 0 <= i < |def.data.variants| ==> r.value.variants[i] == def.data.variants[i].name
  {
    var changes :- AddTableChangesMethod(def.data);
    match def.data
    case StructData(f) => Ok(StructImpl(TableName(def), f.names))
    case EnumData(vs) => Ok(EnumImpl(VariantNames(vs)))
  }

  /** `add_table_changes_method`: the only generator that rejects structs and unions; its
      success decides the whole expansion. */
  function AddTableChangesMethod(data: Data): (r: Result<(), DeriveError>)
    ensures r.Ok? <==> Derivable(data)
  {
    match data
    case StructData(f) => if f.Named? then Ok(()) else Err(Unimplemented)
    case EnumData(vs) =>
      if forall i :: 0 <= i < |vs| ==> FieldCount(vs[i].fields) == 1 then Ok(()) else Err(Unimplemented)
    case UnionData => Err(Unimplemented)
  }

  // ---------------------------------------------------------------------------------------
  // The generated methods on values
  // ---------------------------------------------------------------------------------------

  /** A value of a deriving type: a struct with its module's `CONTRACT_NAME` and its field
      values, or an enum variant wrapping a value of another deriving type. */
  datatype Obj =
    | Record(def: TypeDef, contractName: string, values: seq<Val>)
    | Wrapped(def: TypeDef, variant: nat, inner: Obj)

  /** A value the compiled program can hold: every level's type derives successfully, a struct
      has one value per named field and an enum value names one of its variants. */
  predicate WellFormed(o: Obj) {
    match o
    case Record(def, _, values) =>
      def.data.StructData? && def.data.fields.Named? && |values| == |def.data.fields.names|
    case Wrapped(def, k, inner) =>
      def.data.EnumData? && Derivable(def.data) && k < |def.data.variants| && WellFormed(inner)
  }

  /** The struct a chain of enum variants ends in. */
  function Innermost(o: Obj): (r: Obj)
    ensures r.Record?
  {
    match o
    case Record(_, _, _) => o
    case Wrapped(_, _, inner) => Innermost(inner)
  }

  /** `get_table_name`: an enum answers with the table of the struct its chain ends in. */
  function GetTableName(o: Obj): (name: string)
    requires WellFormed(o)
    ensures name == TableName(Innermost(o).def)
  {
    match o
    case Record(def, _, _) => TableName(def)
    case Wrapped(_, _, inner) => GetTableName(inner)
  }

  /** `get_contract_name`: an enum answers with the contract of the struct its chain ends in. */
  function GetContractName(o: Obj): (name: string)
    requires WellFormed(o)
    ensures name == Innermost(o).contractName
  {
    match o
    case Record(_, contract, _) => contract
    case Wrapped(_, _, inner) => GetContractName(inner)
  }

  /** `add_table_changes`: a struct appends one write per named field, in declaration order,
      each value in its `TableField` encoding; an enum delegates to the wrapped value. */
  function AddTableChanges(o: Obj, tc: TableChange): (r: TableChange)
    requires WellFormed(o)
    ensures r.table == tc.table && r.keys == tc.keys && r.ordinal == tc.ordinal
    ensures r.operation == tc.operation
    ensures |r.fields| >= |tc.fields| && r.fields[..|tc.fields|] == tc.fields
  {
    match o
    case Record(def, _, values) => WriteAll(tc, Pairs(def.data.fields.names, EncodeAll(values)))
    case Wrapped(_, _, inner) => AddTableChanges(inner, tc)
  }

  lemma {:induction false} InnermostWellFormed(o: Obj)
    requires WellFormed(o)
    ensures WellFormed(Innermost(o))
  {
    if o.Wrapped? {
      InnermostWellFormed(o.inner);
    }
  }

  /** All three generated methods of an enum reach the struct at the bottom of the chain: the
      table, the contract and the columns are those of the innermost struct. */
  lemma {:induction false} Delegation(o: Obj, tc: TableChange)
    requires WellFormed(o)
    ensures WellFormed(Innermost(o))
    ensures GetTableName(o) == TableName(Innermost(o).def)
    ensures GetContractName(o) == Innermost(o).contractName
    ensures AddTableChanges(o, tc) == AddTableChanges(Innermost(o), tc)
  {
    InnermostWellFormed(o);
    if o.Wrapped? {
      Delegation(o.inner, tc);
    }
  }

  /** A struct's writes: its named fields, in order, each holding its value's encoding. */
  lemma StructWrites(o: Obj, tc: TableChange)
    requires WellFormed(o) && o.Record?
    ensures var r := AddTableChanges(o, tc);
            var names := o.def.data.fields.names;
            && |r.fields| == |tc.fields| + |names|
            && forall i :: 0 <= i < |names| ==>
                 r.fields[|tc.fields| + i] == Field(names[i], None, Encode(o.values[i]))
  {
    var names := o.def.data.fields.names;
    var r := AddTableChanges(o, tc);
    forall i | 0 <= i < |names|
      ensures r.fields[|tc.fields| + i] == Field(names[i], None, Encode(o.values[i]))
    {
      EncodeAllIndex(o.values, i);
    }
  }

  // ---------------------------------------------------------------------------------------
  // Properties of table naming
  // ---------------------------------------------------------------------------------------

  /** The prefix build scripts attach (`table_prefix = "<p>"`) is the one used. */
  lemma PrefixFromBuildAttribute(name: string, p: string, data: Data)
    ensures TableName(TypeDef(name, [Attr(TABLE_PREFIX_ATTR, NameValueStr(p))], data)) == p + Lower(name)
  {
    assert FirstPrefixAt([Attr(TABLE_PREFIX_ATTR, NameValueStr(p))], 0);
  }

  /** A first `table_prefix` attribute that is not a string literal hides a later one that is. */
  lemma OnlyFirstPrefixConsulted(p: string)
    ensures TablePrefix([Attr(TABLE_PREFIX_ATTR, PathOnly), Attr(TABLE_PREFIX_ATTR, NameValueStr(p))]) == None
  {
    assert FirstPrefixAt([Attr(TABLE_PREFIX_ATTR, PathOnly), Attr(TABLE_PREFIX_ATTR, NameValueStr(p))], 0);
  }

  /** Lower-casing makes table names case-insensitive: two types whose names differ only in
      letter case, with the same attributes, share a table. */
  lemma TableNameCaseCollision(attrs: seq<Attr>, d1: Data, d2: Data)
    ensures TypeDef("Swap", attrs, d1) != TypeDef("SWAP", attrs, d2)
    ensures TableName(TypeDef("Swap", attrs, d1)) == TableName(TypeDef("SWAP", attrs, d2))
  {
    assert "Swap"[1] != "SWAP"[1];
    var lower := Lower("Swap");
    var upper := Lower("SWAP");
    assert lower[0] == upper[0] && lower[1] == upper[1] && lower[2] == upper[2] && lower[3] == upper[3];
  }
}

=== FILE: dispatch.dfy ===
/** The generated top-level `Events` enum and its `match_and_decode`: one variant per contract
    module, named by upper-camel-casing the module name, and a first-match-wins dispatch over the
    modules in configuration order. The per-module decoders and the camel-casing are parameters. */
module Dispatch {
  import opened Wrappers

  /** The generated bindings: the `pub mod` declarations and, aligned with them, the enum
      variants as (variant identifier, module) pairs. */
  datatype Bindings = Bindings(mods: seq<string>, variants: seq<(string, string)>)

  /** The items `quote!` lays out: one `pub mod` per ABI name and one variant per module. */
  function Layout(files: seq<string>, camel: string -> string): (b: Bindings)
    ensures b.mods == files && |b.variants| == |files|
    ensures forall i :: 0 <= i < |files| ==> b.variants[i] == (camel(files[i]), files[i])
  {
    if files == [] then Bindings([], [])
    else
      var rest := Layout(files[1..], camel);
      Bindings([files[0]] + rest.mods, [(camel(files[0]), files[0])] + rest.variants)
  }

  /** Why code generation fails: `syn::Ident::new` panics on a name that is not an identifier,
      and `syn::parse_file` rejects code that does not parse (a keyword as a module name). */
  datatype GenError = NotAnIdentifier(name: string) | ParseFailed

  /** The index of the first name the identifier check rejects, if any. */
  function FirstRejected(names: seq<string>, isIdent: string -> bool): (r: Option<nat>)
    ensures r.None? <==> forall i :: 0 <= i < |names| ==> isIdent(names[i])
    ensures r.Some? ==> r.value < |names| && !isIdent(names[r.value]) &&
                        forall j :: 0 <= j < r.value ==> isIdent(names[j])
  {
    if names == [] then None
    else if !isIdent(names[0]) then Some(0)
    else match FirstRejected(names[1..], isIdent)
      case None => None
      case Some(k) => Some(k + 1)
  }

  /** The upper-camel-cased ABI names, in order. */
  function CamelNames(files: seq<string>, camel: string -> string): (names: seq<string>)
    ensures |names| == |files| && forall i :: 0 <= i < |files| ==> names[i] == camel(files[i])
  {
    seq(|files|, i requires 0 <= i < |files| => camel(files[i]))
  }

  /** `CodeGeneration::generate_code`, without the pretty-printing. The module identifiers are
      built first, then the variant identifiers, then the code is parsed; `isIdent` is what
      `syn::Ident::new` accepts and `parses` whether `syn::parse_file` accepts the code. */
  function GenerateCode(files: seq<string>, camel: string -> string, isIdent: string -> bool,
                        parses: Bindings -> bool): (r: Result<Bindings, GenError>)
    ensures r.Ok? <==> && (forall i :: 0 <= i < |files| ==> isIdent(files[i]) && isIdent(camel(files[i])))
                       && parses(Layout(files, camel))
    ensures r.Ok? ==> r.value.mods == files && |r.value.variants| == |files|
    ensures r.Ok? ==> forall i :: 0 <= i < |files| ==> r.value.variants[i] == (camel(files[i]), files[i])
    ensures FirstRejected(files, isIdent).Some? ==>
              r == Err(NotAnIdentifier(files[FirstRejected(files, isIdent).value]))
    ensures FirstRejected(files, isIdent).None? && FirstRejected(CamelNames(files, camel), isIdent).Some? ==>
              r == Err(NotAnIdentifier(camel(files[FirstRejected(CamelNames(files, camel), isIdent).value])))
  {
    var camels := CamelNames(files, camel);
    match FirstRejected(files, isIdent)
    case Some(i) => Err(NotAnIdentifier(files[i]))
    case None =>
      match FirstRejected(camels, isIdent)
      case Some(i) => Err(NotAnIdentifier(camels[i]))
      case None =>
        var b := Layout(files, camel);
        if parses(b) then Ok(b) else Err(ParseFailed)
  }

  /** The generated code compiles only if the modules and the variant identifiers are distinct. */
  predicate Compiles(files: seq<string>, camel: string -> string) {
    forall i, j :: 0 <= i < j < |files| ==> files[i] != files[j] && camel(files[i]) != camel(files[j])
  }

  /** A decoded top-level event: the variant, the module whose decoder matched, and its event. */
  datatype Decoded<E> = Decoded(variant: string, source: string, event: E)

  /** The index of the first module whose decoder accepts the log. */
  function FirstMatch<L, E>(files: seq<string>, decode: (string, L) -> Option<E>, log: L): (r: Option<nat>)
    ensures r.None? <==> forall i :: 0 <= i < |files| ==> decode(files[i], log).None?
    ensures r.Some? ==> r.value < |files| && decode(files[r.value], log).Some? &&
                        forall j :: 0 <= j < r.value ==> decode(files[j], log).None?
  {
    if files == [] then None
    else if decode(files[0], log).Some? then Some(0)
    else match FirstMatch(files[1..], decode, log)
      case None => None
      case Some(k) => Some(k + 1)
  }

  /** The generated `Events::match_and_decode`: the `if let` clauses are tried in module order
      and the first success is returned, wrapped in that module's variant. */
  function MatchAndDecode<L, E>(files: seq<string>, camel: string -> string,
                                decode: (string, L) -> Option<E>, log: L): (r: Option<Decoded<E>>)
    ensures r.None? <==> forall i :: 0 <= i < |files| ==> decode(files[i], log).None?
    ensures r.Some? ==>
              exists i :: 0 <= i < |files| &&
                (forall j :: 0 <= j < i ==> decode(files[j], log).None?) &&
                decode(files[i], log) == Some(r.value.event) &&
                r.value == Decoded(camel(files[i]), files[i], r.value.event)
  {
    match FirstMatch(files, decode, log)
    case None => None
    case Some(i) => Some(Decoded(camel(files[i]), files[i], decode(files[i], log).value))
  }

  /** When the code compiles, a decoded event's variant determines its module (`source`). */
  lemma VariantIdentifiesModule<L, E>(files: seq<string>, camel: string -> string,
                                      decode: (string, L) -> Option<E>, log1: L, log2: L)
    requires Compiles(files, camel)
    requires MatchAndDecode(files, camel, decode, log1).Some?
    requires MatchAndDecode(files, camel, decode, log2).Some?
    ensures MatchAndDecode(files, camel, decode, log1).value.variant ==
            MatchAndDecode(files, camel, decode, log2).value.variant ==>
            MatchAndDecode(files, camel, decode, log1).value.source ==
            MatchAndDecode(files, camel, decode, log2).value.source
  {
    var i := FirstMatch(files, decode, log1).value;
    var j := FirstMatch(files, decode, log2).value;
    if i < j {
      assert camel(files[i]) != camel(files[j]);
    } else if j < i {
      assert camel(files[j]) != camel(files[i]);
    }
  }

  /** Configuration order matters only when two modules accept the same log: if one module at
      most decodes it, reordering the modules does not change the result. */
  lemma OrderIrrelevantWhenUnique<L, E>(files: seq<string>, files': seq<string>, camel: string -> string,
                                        decode: (string, L) -> Option<E>, log: L)
    requires multiset(files) == multiset(files')
    requires forall i, j :: 0 <= i < j < |files| && decode(files[i], log).Some? ==> decode(files[j], log).None?
    ensures MatchAndDecode(files, camel, decode, log) == MatchAndDecode(files', camel, decode, log)
  {
    var r := MatchAndDecode(files, camel, decode, log);
    var r' := MatchAndDecode(files', camel, decode, log);
    if r.None? {
      forall j | 0 <= j < |files'|
        ensures decode(files'[j], log).None?
      {
        assert files'[j] in multiset(files);
      }
    } else {
      var i := FirstMatch(files, decode, log).value;
      assert files[i] in multiset(files');
      var k :| 0 <= k < |files'| && files'[k] == files[i];
      var j := FirstMatch(files', decode, log).value;
      assert files'[j] in multiset(files);
      var m :| 0 <= m < |files| && files[m] == files'[j];
      assert m == i;
    }
  }
}

=== FILE: dutch_order.dfy ===
/** Decoding of an exclusive Dutch order from ABI tokens and its conversion into the wire
    record, with every input and output leg decayed over the order's window at the block time.
    `ethabi::decode` itself is a parameter: the model starts from the tokens it produces. */
module DutchOrder {
  import opened Wrappers
  import opened Text
  import opened DecayEngine
  import opened Chain

  /** `ethabi::Token`. Addresses are 20-byte strings as the decoder produces them. */
  datatype Token =
    | AddressT(addr: seq<byte>)
    | FixedBytesT(fixedBytes: seq<byte>)
    | BytesT(bytes: seq<byte>)
    | IntT(intVal: U256)
    | UintT(uint: U256)
    | BoolT(boolVal: bool)
    | StringT(str: string)
    | FixedArrayT(fixedItems: seq<Token>)
    | ArrayT(items: seq<Token>)
    | TupleT(fields: seq<Token>)

  /** The parameter kinds the order layouts use (`ethabi::ParamType`). */
  datatype ParamKind = AddressP | Uint256P | BytesP | TupleP | ArrayP

  /** Whether `into_address`/`into_uint`/`into_bytes`/`into_tuple`/`into_array` succeeds on a
      token for the given parameter kind. */
  predicate Accepts(t: Token, k: ParamKind) {
    match k
    case AddressP => t.AddressT?
    case Uint256P => t.UintT?
    case BytesP => t.BytesT?
    case TupleP => t.TupleT?
    case ArrayP => t.ArrayT? || t.FixedArrayT?
  }

  /** The tokens fit a layout positionally; surplus trailing tokens are allowed. */
  predicate FitsLayout(ts: seq<Token>, layout: seq<ParamKind>) {
    |ts| >= |layout| && forall i :: 0 <= i < |layout| ==> Accepts(ts[i], layout[i])
  }

  /** `OrderInfo::params()`. */
  const ORDER_INFO_LAYOUT: seq<ParamKind> := [AddressP, AddressP, Uint256P, Uint256P, AddressP, BytesP]
  /** `DutchInput::params()`. */
  const INPUT_LAYOUT: seq<ParamKind> := [AddressP, Uint256P, Uint256P]
  /** `DutchOutput::params()`. */
  const OUTPUT_LAYOUT: seq<ParamKind> := [AddressP, Uint256P, Uint256P, AddressP]
  /** `ExclusiveDutchOrder::params()` at the top level. */
  const ORDER_LAYOUT: seq<ParamKind> := [TupleP, Uint256P, Uint256P, AddressP, Uint256P, TupleP, ArrayP]

  datatype OrderError =
    | MissingToken        // `pop().unwrap()` on an exhausted token list
    | WrongTokenKind      // `into_x().unwrap()` on a token of another kind
    | AbiDecodeFailed     // `ethabi::decode` returned an error
    | DecayFailed(reason: DecayError)
    | NegativeBlockTime   // `U256::from(i64)` of a negative block time panics

  datatype OrderInfo = OrderInfo(
    reactor: seq<byte>,
    swapper: seq<byte>,
    nonce: U256,
    deadline: U256,
    validationContract: seq<byte>,
    validationData: seq<byte>)

  datatype DutchInput = DutchInput(token: seq<byte>, startAmount: U256, endAmount: U256)

  datatype DutchOutput = DutchOutput(
    token: seq<byte>,
    startAmount: U256,
    endAmount: U256,
    recipient: seq<byte>)

  datatype ExclusiveDutchOrder = ExclusiveDutchOrder(
    info: OrderInfo,
    decayStart: U256,
    decayEnd: U256,
    exclusiveFiller: seq<byte>,
    exclusivityOverrideBps: U256,
    input: DutchInput,
    outputs: seq<DutchOutput>)

  // ---------------------------------------------------------------------------------------
  // Positional token access: `value.pop().unwrap().into_x().unwrap()` on the reversed list
  // ---------------------------------------------------------------------------------------

  function Take(ts: seq<Token>, i: nat, k: ParamKind): (r: Result<Token, OrderError>)
    ensures r.Ok? <==> i < |ts| && Accepts(ts[i], k)
    ensures r.Ok? ==> r.value == ts[i]
  {
    if i >= |ts| then Err(MissingToken)
    else if !Accepts(ts[i], k) then Err(WrongTokenKind)
    else Ok(ts[i])
  }

  function AddressAt(ts: seq<Token>, i: nat): Result<seq<byte>, OrderError> {
    var t :- Take(ts, i, AddressP);
    Ok(t.addr)
  }

  function UintAt(ts: seq<Token>, i: nat): Result<U256, OrderError> {
    var t :- Take(ts, i, Uint256P);
    Ok(t.uint)
  }

  function BytesAt(ts: seq<Token>, i: nat): Result<seq<byte>, OrderError> {
    var t :- Take(ts, i, BytesP);
    Ok(t.bytes)
  }

  function TupleAt(ts: seq<Token>, i: nat): Result<seq<Token>, OrderError> {
    var t :- Take(ts, i, TupleP);
    Ok(t.fields)
  }

  /** `into_array`: the elements of a dynamic or a fixed array. */
  function ArrayItems(t: Token): seq<Token>
    requires t.ArrayT? || t.FixedArrayT?
  {
    if t.ArrayT? then t.items else t.fixedItems
  }

  function ArrayAt(ts: seq<Token>, i: nat): Result<seq<Token>, OrderError> {
    var t :- Take(ts, i, ArrayP);
    Ok(ArrayItems(t))
  }

  // ---------------------------------------------------------------------------------------
  // TryFrom<Vec<Token>>
  // ---------------------------------------------------------------------------------------

  /** `OrderInfo::try_from`: fields taken positionally in `params()` order. */
  function OrderInfoFromTokens(ts: seq<Token>): (r: Result<OrderInfo, OrderError>)
    ensures r.Ok? <==> FitsLayout(ts, ORDER_INFO_LAYOUT)
    ensures r.Ok? ==> r.value == OrderInfo(ts[0].addr, ts[1].addr, ts[2].uint, ts[3].uint,
                                           ts[4].addr, ts[5].bytes)
  {
    var reactor :- AddressAt(ts, 0);
    var swapper :- AddressAt(ts, 1);
    var nonce :- UintAt(ts, 2);
    var deadline :- UintAt(ts, 3);
    var contract :- AddressAt(ts, 4);
    var data :- BytesAt(ts, 5);
    Ok(OrderInfo(reactor, swapper, nonce, deadline, contract, data))
  }

  /** `DutchInput::try_from`. */
  function InputFromTokens(ts: seq<Token>): (r: Result<DutchInput, OrderError>)
    ensures r.Ok? <==> FitsLayout(ts, INPUT_LAYOUT)
    ensures r.Ok? ==> r.value == DutchInput(ts[0].addr, ts[1].uint, ts[2].uint)
  {
    var token :- AddressAt(ts, 0);
    var startAmount :- UintAt(ts, 1);
    var endAmount :- UintAt(ts, 2);
    Ok(DutchInput(token, startAmount, endAmount))
  }

  /** `DutchOutput::try_from`. */
  function OutputFromTokens(ts: seq<Token>): (r: Result<DutchOutput, OrderError>)
    ensures r.Ok? <==> FitsLayout(ts, OUTPUT_LAYOUT)
    ensures r.Ok? ==> r.value == DutchOutput(ts[0].addr, ts[1].uint, ts[2].uint, ts[3].addr)
  {
    var token :- AddressAt(ts, 0);
    var startAmount :- UintAt(ts, 1);
    var endAmount :- UintAt(ts, 2);
    var recipient :- AddressAt(ts, 3);
    Ok(DutchOutput(token, startAmount, endAmount, recipient))
  }

  /** The output array: every element must be a tuple that decodes as an output. */
  function OutputsFromTokens(items: seq<Token>): (r: Result<seq<DutchOutput>, OrderError>)
    ensures r.Ok? <==> forall i :: 0 <= i < |items| ==>
                         items[i].TupleT? && OutputFromTokens(items[i].fields).Ok?
    ensures r.Ok? ==> |r.value| == |items| &&
                      forall i :: 0 <= i < |items| ==>
                        r.value[i] == OutputFromTokens(items[i].fields).value
  {
    if items == [] then Ok([])
    else
      var first :- if items[0].TupleT? then Ok(items[0].fields) else Err(WrongTokenKind);
      var output :- OutputFromTokens(first);
      var rest :- OutputsFromTokens(items[1..]);
      Ok([output] + rest)
  }

  /** `ExclusiveDutchOrder::try_from(Vec<u8>)`, given the result of
      `ethabi::decode(&[Tuple(params)], input)`. */
  function OrderFromDecoded(decoded: Option<seq<Token>>): (r: Result<ExclusiveDutchOrder, OrderError>)
    ensures decoded.None? ==> r == Err(AbiDecodeFailed)
    ensures r.Ok? ==> decoded.Some? && |decoded.value| >= 1 &&
                      decoded.value[|decoded.value| - 1].TupleT? &&
                      FitsLayout(decoded.value[|decoded.value| - 1].fields, ORDER_LAYOUT)
    ensures decoded.Some? && decoded.value == [] ==> r == Err(MissingToken)
    ensures decoded.Some? && |decoded.value| >= 1 && !decoded.value[|decoded.value| - 1].TupleT? ==>
              r == Err(WrongTokenKind)
    ensures decoded.Some? && |decoded.value| >= 1 && decoded.value[|decoded.value| - 1].TupleT? ==>
              r == OrderFromTokens(decoded.value[|decoded.value| - 1].fields)
  {
    var tokens :- if decoded.Some? then Ok(decoded.value) else Err(AbiDecodeFailed);
    var last :- if |tokens| > 0 then Ok(tokens[|tokens| - 1]) else Err(MissingToken);
    var values :- if last.TupleT? then Ok(last.fields) else Err(WrongTokenKind);
    OrderFromTokens(values)
  }

  /** The fields of the order tuple, positionally. */
  function OrderFromTokens(values: seq<Token>): (r: Result<ExclusiveDutchOrder, OrderError>)
    ensures r.Ok? ==> FitsLayout(values, ORDER_LAYOUT)
    ensures r.Ok? ==> r.value.decayStart == values[1].uint && r.value.decayEnd == values[2].uint
    ensures r.Ok? ==> OrderInfoFromTokens(values[0].fields) == Ok(r.value.info)
    ensures r.Ok? ==> InputFromTokens(values[5].fields) == Ok(r.value.input)
    ensures r.Ok? ==> r.value.exclusiveFiller == values[3].addr && r.value.exclusivityOverrideBps == values[4].uint
    ensures r.Ok? ==> OutputsFromTokens(ArrayItems(values[6])) == Ok(r.value.outputs)
    ensures r.Ok? <==> && FitsLayout(values, ORDER_LAYOUT)
                       && OrderInfoFromTokens(values[0].fields).Ok?
                       && InputFromTokens(values[5].fields).Ok?
                       && OutputsFromTokens(ArrayItems(values[6])).Ok?
  {
    var infoTokens :- TupleAt(values, 0);
    var info :- OrderInfoFromTokens(infoTokens);
    var decayStart :- UintAt(values, 1);
    var decayEnd :- UintAt(values, 2);
    var filler :- AddressAt(values, 3);
    var overrideBps :- UintAt(values, 4);
    var inputTokens :- TupleAt(values, 5);
    var input :- InputFromTokens(inputTokens);
    var outputTokens :- ArrayAt(values, 6);
    var outputs :- OutputsFromTokens(outputTokens);
    Ok(ExclusiveDutchOrder(info, decayStart, decayEnd, filler, overrideBps, input, outputs))
  }

  // ---------------------------------------------------------------------------------------
  // Wire records (`x::...`)
  // ---------------------------------------------------------------------------------------

  /** `TransactionInfo`: `blockTime` is a signed number of seconds. */
  datatype TransactionInfo = TransactionInfo(
    from: seq<byte>,
    to: seq<byte>,
    caller: seq<byte>,
    blockTime: i64,
    blockNumber: nat,
    txHash: seq<byte>,
    logIndex: nat)

  datatype ProtoOrderInfo = ProtoOrderInfo(
    reactor: seq<byte>,
    swapper: seq<byte>,
    nonce: string,
    deadline: string,
    validationContract: seq<byte>,
    validationData: seq<byte>)

  datatype ProtoInput = ProtoInput(
    token: seq<byte>,
    startAmount: string,
    endAmount: string,
    decayedAmount: string)

  datatype ProtoOutput = ProtoOutput(
    token: seq<byte>,
    startAmount: string,
    endAmount: string,
    recipient: seq<byte>,
    decayedAmount: string)

  /** Message fields are optional on the wire, hence the `Option`s. */
  datatype ProtoOrder = ProtoOrder(
    info: Option<ProtoOrderInfo>,
    txInfo: Option<TransactionInfo>,
    decayStartTime: string,
    decayEndTime: string,
    exclusiveFiller: seq<byte>,
    exclusivityOverrideBps: string,
    input: Option<ProtoInput>,
    outputs: seq<ProtoOutput>)

  /** `u32::MAX`. */
  const U32_MAX: nat := 0xFFFF_FFFF

  /** The deadline as a `u32`: values above `u32::MAX` saturate. */
  function ClampDeadline(deadline: U256): (d: nat)
    ensures d <= U32_MAX
    ensures deadline <= U32_MAX ==> d == deadline
    ensures deadline > U32_MAX ==> d == U32_MAX
  {
    if deadline > U32_MAX then U32_MAX else deadline
  }

  /** `From<OrderInfo> for x::OrderInfo`: the deadline text reads back as the deadline clamped to
      `u32::MAX`; the nonce text reads back as the nonce. */
  function OrderInfoToProto(info: OrderInfo): (p: ProtoOrderInfo)
    ensures AllDigits(p.deadline) && DigitsValue(p.deadline) <= U32_MAX
    ensures info.deadline <= U32_MAX ==> DigitsValue(p.deadline) == info.deadline
    ensures info.deadline > U32_MAX ==> DigitsValue(p.deadline) == U32_MAX
    ensures AllDigits(p.nonce) && DigitsValue(p.nonce) == info.nonce
    ensures p.reactor == info.reactor && p.swapper == info.swapper
    ensures p.validationContract == info.validationContract
    ensures p.validationData == info.validationData
  {
    DigitsValueOfNatToString(ClampDeadline(info.deadline));
    DigitsValueOfNatToString(info.nonce);
    ProtoOrderInfo(info.reactor, info.swapper, NatToString(info.nonce),
                   NatToString(ClampDeadline(info.deadline)),
                   info.validationContract, info.validationData)
  }

  /** A leg's decayed amount: the decimal text of `decay` over the window. */
  function DecayedText(w: DecayInfo, startAmount: U256, endAmount: U256): Result<string, OrderError> {
    match Decay(w, startAmount, endAmount)
    case Ok(v) => Ok(NatToString(v))
    case Err(e) => Err(DecayFailed(e))
  }

  /** `DutchInput::into_proto`. */
  function InputToProto(input: DutchInput, w: DecayInfo): (r: Result<ProtoInput, OrderError>)
    ensures r.Ok? <==> Decay(w, input.startAmount, input.endAmount).Ok?
    ensures r.Ok? ==> r.value.token == input.token &&
                      r.value.decayedAmount == NatToString(Decay(w, input.startAmount, input.endAmount).value)
    ensures r.Ok? ==> r.value.startAmount == NatToString(input.startAmount) &&
                      r.value.endAmount == NatToString(input.endAmount)
  {
    var decayed :- DecayedText(w, input.startAmount, input.endAmount);
    Ok(ProtoInput(input.token, NatToString(input.startAmount), NatToString(input.endAmount), decayed))
  }

  /** `DutchOutput::into_proto`. */
  function OutputToProto(output: DutchOutput, w: DecayInfo): (r: Result<ProtoOutput, OrderError>)
    ensures r.Ok? <==> Decay(w, output.startAmount, output.endAmount).Ok?
    ensures r.Ok? ==> r.value.token == output.token && r.value.recipient == output.recipient &&
                      r.value.decayedAmount == NatToString(Decay(w, output.startAmount, output.endAmount).value)
    ensures r.Ok? ==> r.value.startAmount == NatToString(output.startAmount) &&
                      r.value.endAmount == NatToString(output.endAmount)
  {
    var decayed :- DecayedText(w, output.startAmount, output.endAmount);
    Ok(ProtoOutput(output.token, NatToString(output.startAmount), NatToString(output.endAmount),
                   output.recipient, decayed))
  }

  /** The outputs mapped one to one, in order, all over the same window. */
  function OutputsToProto(outputs: seq<DutchOutput>, w: DecayInfo): (r: Result<seq<ProtoOutput>, OrderError>)
    ensures r.Ok? <==> forall i :: 0 <= i < |outputs| ==> OutputToProto(outputs[i], w).Ok?
    ensures r.Ok? ==> |r.value| == |outputs| &&
                      forall i :: 0 <= i < |outputs| ==> r.value[i] == OutputToProto(outputs[i], w).value
  {
    if outputs == [] then Ok([])
    else
      var first :- OutputToProto(outputs[0], w);
      var rest :- OutputsToProto(outputs[1..], w);
      Ok([first] + rest)
  }

  /** The window an order is decayed over at the given block time. */
  function WindowAt(order: ExclusiveDutchOrder, now: U256): DecayInfo {
    DecayInfo(now, order.decayStart, order.decayEnd)
  }

  /** `ExclusiveDutchOrder::into_proto`: the order with the transaction info attached, the input
      and every output decayed over the order's window at the block time. */
  function IntoProto(order: ExclusiveDutchOrder, tx: TransactionInfo): (r: Result<ProtoOrder, OrderError>)
    ensures tx.blockTime < 0 ==> r == Err(NegativeBlockTime)
    ensures r.Ok? ==> tx.blockTime >= 0
    ensures r.Ok? ==> r.value.txInfo == Some(tx) && r.value.info == Some(OrderInfoToProto(order.info))
    ensures r.Ok? ==> r.value.decayStartTime == NatToString(order.decayStart) &&
                      r.value.decayEndTime == NatToString(order.decayEnd)
    ensures r.Ok? ==> r.value.exclusiveFiller == order.exclusiveFiller &&
                      r.value.exclusivityOverrideBps == NatToString(order.exclusivityOverrideBps)
    ensures r.Ok? ==> r.value.input.Some? &&
                      InputToProto(order.input, WindowAt(order, tx.blockTime)) == Ok(r.value.input.value)
    ensures r.Ok? ==> |r.value.outputs| == |order.outputs| &&
                      forall i :: 0 <= i < |order.outputs| ==>
                        OutputToProto(order.outputs[i], WindowAt(order, tx.blockTime)) == Ok(r.value.outputs[i])
    ensures tx.blockTime >= 0 ==>
              (r.Ok? <==> InputToProto(order.input, WindowAt(order, tx.blockTime)).Ok? &&
                          OutputsToProto(order.outputs, WindowAt(order, tx.blockTime)).Ok?)
  {
    if tx.blockTime < 0 then Err(NegativeBlockTime)
    else
      var w := WindowAt(order, tx.blockTime);
      var input :- InputToProto(order.input, w);
      var outputs :- OutputsToProto(order.outputs, w);
      Ok(ProtoOrder(Some(OrderInfoToProto(order.info)), Some(tx), NatToString(order.decayStart),
                    NatToString(order.decayEnd), order.exclusiveFiller,
                    NatToString(order.exclusivityOverrideBps), Some(input), outputs))
  }

  /** Conversion fails exactly when the block time is negative or some leg's decay fails; since
      every leg shares one window, an invalid window fails the whole order. */
  lemma IntoProtoSucceeds(order: ExclusiveDutchOrder, tx: TransactionInfo)
    ensures IntoProto(order, tx).Ok? <==>
              && tx.blockTime >= 0
              && Decay(WindowAt(order, tx.blockTime), order.input.startAmount, order.input.endAmount).Ok?
              && forall i :: 0 <= i < |order.outputs| ==>
                   Decay(WindowAt(order, tx.blockTime), order.outputs[i].startAmount,
                         order.outputs[i].endAmount).Ok?
    ensures order.decayEnd < order.decayStart ==> IntoProto(order, tx).Err?
  {
  }

  /** Every decayed amount an order carries reads back as a value between that leg's start and
      end amounts. */
  lemma IntoProtoDecayedBetween(order: ExclusiveDutchOrder, tx: TransactionInfo, i: nat)
    requires IntoProto(order, tx).Ok?
    requires i < |order.outputs|
    ensures var p := IntoProto(order, tx).value;
            && AllDigits(p.input.value.decayedAmount)
            && Between(DigitsValue(p.input.value.decayedAmount), order.input.startAmount, order.input.endAmount)
            && AllDigits(p.outputs[i].decayedAmount)
            && Between(DigitsValue(p.outputs[i].decayedAmount), order.outputs[i].startAmount,
                       order.outputs[i].endAmount)
  {
    var w := WindowAt(order, tx.blockTime);
    DigitsValueOfNatToString(Decay(w, order.input.startAmount, order.input.endAmount).value);
    DigitsValueOfNatToString(Decay(w, order.outputs[i].startAmount, order.outputs[i].endAmount).value);
  }
}

=== FILE: encoding.dfy ===
/** The value-encoding protocol (`TableField::get_value`): every supported field kind has one
    canonical text form, defined recursively. */
module Encoding {
  import opened Text

  /** A field value of one of the kinds `TableField` is implemented for: a byte vector
      (`Vec<u8>`, also used for addresses and hashes), a big integer, a vector of values, or a
      tuple. */
  datatype Val =
    | Bytes(bytes: seq<byte>)
    | Big(n: int)
    | List(elems: seq<Val>)
    | Tuple(elems: seq<Val>)

  /** Only tuples of arity 2 to 5 implement `TableField`; other arities do not type-check. */
  predicate Supported(v: Val)
    decreases v
  {
    match v
    case Bytes(_) => true
    case Big(_) => true
    case List(xs) => forall i :: 0 <= i < |xs| ==> Supported(xs[i])
    case Tuple(xs) => 2 <= |xs| <= 5 && forall i :: 0 <= i < |xs| ==> Supported(xs[i])
  }

  /** `get_value`: hex for bytes, base 10 for big integers, `[e1,...,en]` for vectors and
      `(e1,...,en)` for tuples, each element in its own encoding. */
  function Encode(v: Val): (r: string)
    ensures v.Bytes? ==> |r| == 2 * |v.bytes| && AllHex(r)
    ensures v.Big? ==> |r| >= 1 && (r[0] == '-' <==> v.n < 0)
    ensures v.List? ==> |r| >= 2 && r[0] == '[' && r[|r| - 1] == ']'
    ensures v.Tuple? ==> |r| >= 2 && r[0] == '(' && r[|r| - 1] == ')'
    decreases v, 1
  {
    match v
    case Bytes(b) => Hex(b)
    case Big(n) => IntToString(n)
    case List(xs) => "[" + Join(",", EncodeAll(xs)) + "]"
    case Tuple(xs) => "(" + Join(",", EncodeAll(xs)) + ")"
  }

  /** The element encodings of a vector or tuple, in element order. */
  function EncodeAll(xs: seq<Val>): (es: seq<string>)
    ensures |es| == |xs|
    decreases xs, 0
  {
    if xs == [] then [] else [Encode(xs[0])] + EncodeAll(xs[1..])
  }

  lemma {:induction false} EncodeAllIndex(xs: seq<Val>, i: nat)
    requires i < |xs|
    ensures EncodeAll(xs)[i] == Encode(xs[i])
  {
    var es := EncodeAll(xs);
    assert es == [Encode(xs[0])] + EncodeAll(xs[1..]);
    if i > 0 {
      EncodeAllIndex(xs[1..], i - 1);
      assert es[i] == EncodeAll(xs[1..])[i - 1];
      assert xs[1..][i - 1] == xs[i];
    }
  }

  // ---------------------------------------------------------------------------------------
  // Properties
  // ---------------------------------------------------------------------------------------

  /** A byte vector encodes as hex, two characters per byte, and decodes back. */
  lemma EncodeBytes(b: seq<byte>)
    ensures |Encode(Bytes(b))| == 2 * |b|
    ensures AllHex(Encode(Bytes(b))) && UnHex(Encode(Bytes(b))) == b
  {
    UnHexHex(b);
  }

  /** A big integer encodes as its base-10 digits, which read back as the value, with a
      leading `-` when it is negative. */
  lemma EncodeBig(n: int)
    ensures n >= 0 ==> AllDigits(Encode(Big(n))) && DigitsValue(Encode(Big(n))) == n
    ensures n < 0 ==> Encode(Big(n))[0] == '-'
    ensures n < 0 ==> && Encode(Big(n)) == "-" + NatToString(-n)
                      && AllDigits(Encode(Big(n))[1..]) && DigitsValue(Encode(Big(n))[1..]) == -n
  {
    if n >= 0 {
      DigitsValueOfNatToString(n);
    } else {
      DigitsValueOfNatToString(-n);
      assert Encode(Big(n))[1..] == NatToString(-n);
    }
  }

  /** A vector's encoding is bracketed, and its elements are separated by commas only between
      them: two elements give exactly `[e1,e2]`; the empty vector gives `[]`. */
  lemma EncodeListShape(x: Val, y: Val)
    ensures Encode(List([])) == "[]"
    ensures Encode(List([x])) == "[" + Encode(x) + "]"
    ensures Encode(List([x, y])) == "[" + Encode(x) + "," + Encode(y) + "]"
  {
    EncodeAllSmall(x, y, y);
    JoinSmall(",", Encode(x), Encode(y), Encode(y));
  }

  /** Tuples render their components in order, parenthesised and comma-separated. */
  lemma EncodeTupleShape(a: Val, b: Val, c: Val)
    ensures Encode(Tuple([a, b])) == "(" + Encode(a) + "," + Encode(b) + ")"
    ensures Encode(Tuple([a, b, c])) == "(" + Encode(a) + "," + Encode(b) + "," + Encode(c) + ")"
  {
    EncodeAllSmall(a, b, c);
    JoinSmall(",", Encode(a), Encode(b), Encode(c));
  }

  /** The element encodings of one, two and three values. */
  lemma EncodeAllSmall(a: Val, b: Val, c: Val)
    ensures EncodeAll([a]) == [Encode(a)]
    ensures EncodeAll([a, b]) == [Encode(a), Encode(b)]
    ensures EncodeAll([a, b, c]) == [Encode(a), Encode(b), Encode(c)]
  {
    assert [b, c][1..] == [c];
    assert EncodeAll([b, c]) == [Encode(b), Encode(c)];
    assert [a, b][1..] == [b];
    assert [a, b, c][1..] == [b, c];
    assert EncodeAll([a, b, c]) == [Encode(a)] + EncodeAll([b, c]);
  }

  /** Prepending an element adds its encoding and one comma in front of a non-empty vector's
      element list: the encoding of a vector is built from its elements' encodings alone. */
  lemma EncodeListCons(x: Val, xs: seq<Val>)
    requires |xs| >= 1
    ensures Encode(List([x] + xs)) == "[" + Encode(x) + "," + Join(",", EncodeAll(xs)) + "]"
  {
    assert ([x] + xs)[1..] == xs;
  }

  /** Two vectors (or two tuples) whose elements encode pairwise alike encode alike. */
  lemma EncodeCompositional(xs: seq<Val>, ys: seq<Val>)
    requires |xs| == |ys|
    requires forall i :: 0 <= i < |xs| ==> Encode(xs[i]) == Encode(ys[i])
    ensures Encode(List(xs)) == Encode(List(ys))
    ensures Encode(Tuple(xs)) == Encode(Tuple(ys))
  {
    assert EncodeAll(xs) == EncodeAll(ys) by {
      forall i | 0 <= i < |xs|
        ensures EncodeAll(xs)[i] == EncodeAll(ys)[i]
      {
        EncodeAllIndex(xs, i);
        EncodeAllIndex(ys, i);
      }
    }
  }

  predicate AllBytes(xs: seq<Val>) {
    forall i :: 0 <= i < |xs| ==> xs[i].Bytes?
  }

  lemma HexHasNoComma(xs: seq<Val>)
    requires AllBytes(xs)
    ensures forall i :: 0 <= i < |xs| ==> ',' !in EncodeAll(xs)[i]
  {
    forall i | 0 <= i < |xs|
      ensures ',' !in EncodeAll(xs)[i]
    {
      EncodeAllIndex(xs, i);
      var h := Hex(xs[i].bytes);
      assert forall k :: 0 <= k < |h| ==> h[k] != ',';
    }
  }

  lemma {:induction false} EncodeAllBytesInjective(xs: seq<Val>, ys: seq<Val>)
    requires AllBytes(xs) && AllBytes(ys)
    requires EncodeAll(xs) == EncodeAll(ys)
    ensures xs == ys
  {
    forall i | 0 <= i < |xs|
      ensures xs[i] == ys[i]
    {
      EncodeAllIndex(xs, i);
      EncodeAllIndex(ys, i);
      HexInjective(xs[i].bytes, ys[i].bytes);
    }
  }

  /** Distinct non-empty vectors of byte vectors have distinct encodings: hex never contains a
      comma, so the commas delimit the elements exactly. */
  lemma BytesListInjective(xs: seq<Val>, ys: seq<Val>)
    requires AllBytes(xs) && AllBytes(ys)
    requires |xs| >= 1 && |ys| >= 1
    ensures Encode(List(xs)) == Encode(List(ys)) ==> xs == ys
  {
    if Encode(List(xs)) == Encode(List(ys)) {
      var a := Join(",", EncodeAll(xs));
      var b := Join(",", EncodeAll(ys));
      assert a == Encode(List(xs))[1..|Encode(List(xs))| - 1];
      assert b == Encode(List(ys))[1..|Encode(List(ys))| - 1];
      HexHasNoComma(xs);
      HexHasNoComma(ys);
      JoinInjective(EncodeAll(xs), EncodeAll(ys), ',');
      EncodeAllBytesInjective(xs, ys);
    }
  }

  /** The same holds for tuples of byte vectors. */
  lemma BytesTupleInjective(xs: seq<Val>, ys: seq<Val>)
    requires AllBytes(xs) && AllBytes(ys)
    requires Supported(Tuple(xs)) && Supported(Tuple(ys))
    ensures Encode(Tuple(xs)) == Encode(Tuple(ys)) ==> xs == ys
  {
    if Encode(Tuple(xs)) == Encode(Tuple(ys)) {
      var a := Join(",", EncodeAll(xs));
      var b := Join(",", EncodeAll(ys));
      assert a == Encode(Tuple(xs))[1..|Encode(Tuple(xs))| - 1];
      assert b == Encode(Tuple(ys))[1..|Encode(Tuple(ys))| - 1];
      HexHasNoComma(xs);
      HexHasNoComma(ys);
      JoinInjective(EncodeAll(xs), EncodeAll(ys), ',');
      EncodeAllBytesInjective(xs, ys);
    }
  }

  /** The one collision among vectors of byte vectors: the empty vector and the vector holding
      one empty byte vector both encode as `[]`. */
  lemma EmptyListCollision()
    ensures List([]) != List([Bytes([])])
    ensures Encode(List([])) == Encode(List([Bytes([])])) == "[]"
  {
  }
}

=== FILE: events.dfy ===
/** The generic events extractor: every log of a block that some contract module decodes becomes
    one `Create` row in its event's table, carrying seven standard columns and the event's own
    fields. Decoding (`Events::match_and_decode`) and the two renderings of a protobuf timestamp
    are parameters. */
module Events {
  import opened Wrappers
  import opened Text
  import opened Changes
  import opened TableDerive
  import opened Chain
  import Encoding
  import Schema

  datatype Log = Log(address: seq<byte>, index: nat, topics: seq<seq<byte>>, data: seq<byte>)

  /** The transaction of the receipt a log belongs to. */
  datatype TxRef = TxRef(hash: seq<byte>, from: seq<byte>, to: seq<byte>)

  /** One item of `block.logs()`: a log and its receipt's transaction. */
  datatype LogView = LogView(log: Log, tx: TxRef)

  datatype Header = Header(timestamp: Option<Timestamp>)

  datatype Block = Block(number: nat, header: Option<Header>, logs: seq<LogView>)

  /** `EvtTxInfo`. */
  datatype EvtTxInfo = EvtTxInfo(
    contractAddress: seq<byte>,
    evtTxHash: seq<byte>,
    txFrom: seq<byte>,
    txTo: seq<byte>,
    evtBlockNumber: nat,
    evtBlockTime: Timestamp,
    evtIndex: nat)

  datatype EventWithInfo = EventWithInfo(event: Obj, info: EvtTxInfo)

  /** The two `unwrap`s of `get_events`. */
  datatype EventsError = MissingHeader | MissingTimestamp

  function InfoOf(view: LogView, number: nat, time: Timestamp): EvtTxInfo {
    EvtTxInfo(view.log.address, view.tx.hash, view.tx.from, view.tx.to, number, time, view.log.index)
  }

  /** What one log contributes: nothing if no module decodes it; otherwise the event with its
      info, which needs the header's timestamp. The timestamp is unwrapped only here, so a block
      without one fails only if some log decodes. */
  function LogEvents(view: LogView, number: nat, header: Header, decode: Log -> Option<Obj>)
    : (r: Result<seq<EventWithInfo>, EventsError>)
    ensures decode(view.log).None? ==> r.Ok? && r.value == []
    ensures decode(view.log).Some? && header.timestamp.None? ==> r == Err(MissingTimestamp)
    ensures decode(view.log).Some? && header.timestamp.Some? ==>
              r.Ok? && r.value == [EventWithInfo(decode(view.log).value, InfoOf(view, number, header.timestamp.value))]
  {
    match decode(view.log)
    case None => Ok([])
    case Some(event) =>
      var time :- if header.timestamp.Some? then Ok(header.timestamp.value) else Err(MissingTimestamp);
      Ok([EventWithInfo(event, InfoOf(view, number, time))])
  }

  /** `get_events`: the header is unwrapped first, whatever the logs. */
  function GetEvents(block: Block, decode: Log -> Option<Obj>): (r: Result<seq<EventWithInfo>, EventsError>)
    ensures block.header.None? ==> r == Err(MissingHeader)
    ensures block.header.Some? ==>
              r == FlatMap((v: LogView) => LogEvents(v, block.number, block.header.value, decode), block.logs)
  {
    var header :- if block.header.Some? then Ok(block.header.value) else Err(MissingHeader);
    FlatMap((v: LogView) => LogEvents(v, block.number, header, decode), block.logs)
  }

  /** A block without a timestamp fails exactly when one of its logs decodes. */
  lemma MissingTimestampFailsIffDecoded(block: Block, decode: Log -> Option<Obj>)
    requires block.header.Some? && block.header.value.timestamp.None?
    ensures GetEvents(block, decode).Err? <==> exists i :: 0 <= i < |block.logs| && decode(block.logs[i].log).Some?
  {
    var f := (v: LogView) => LogEvents(v, block.number, block.header.value, decode);
    if exists i :: 0 <= i < |block.logs| && decode(block.logs[i].log).Some? {
      var i :| 0 <= i < |block.logs| && decode(block.logs[i].log).Some?;
      FlatMapFails(f, block.logs, i);
    } else {
      FlatMapEmpty(f, block.logs);
    }
  }

  /** With a full header, the events are the decoded logs, in log order, each with its own
      log's info. */
  lemma {:induction false} EventsFollowLogs(logs: seq<LogView>, number: nat, header: Header, decode: Log -> Option<Obj>)
    requires header.timestamp.Some?
    ensures var r := FlatMap((v: LogView) => LogEvents(v, number, header, decode), logs);
            && r.Ok?
            && r.value == DecodedEvents(logs, number, header.timestamp.value, decode)
    decreases |logs|
  {
    var f := (v: LogView) => LogEvents(v, number, header, decode);
    if logs != [] {
      EventsFollowLogs(logs[1..], number, header, decode);
      FlatMapUnfold(f, logs);
    }
  }

  /** `get_events` on a block with a full header: exactly the decoded logs, in order. */
  lemma GetEventsFollowLogs(block: Block, decode: Log -> Option<Obj>)
    requires block.header.Some? && block.header.value.timestamp.Some?
    ensures GetEvents(block, decode) == Ok(DecodedEvents(block.logs, block.number, block.header.value.timestamp.value, decode))
  {
    EventsFollowLogs(block.logs, block.number, block.header.value, decode);
  }

  /** The reference: the decoded logs, in order, each paired with its info. */
  function DecodedEvents(logs: seq<LogView>, number: nat, time: Timestamp, decode: Log -> Option<Obj>)
    : (es: seq<EventWithInfo>)
    ensures |es| <= |logs|
  {
    if logs == [] then []
    else
      var rest := DecodedEvents(logs[1..], number, time, decode);
      match decode(logs[0].log)
      case None => rest
      case Some(e) => [EventWithInfo(e, InfoOf(logs[0], number, time))] + rest
  }

  // ---------------------------------------------------------------------------------------
  // Rows
  // ---------------------------------------------------------------------------------------

  /** The columns `push_create` writes before the event's own, in order. */
  const STANDARD_COLUMNS: seq<string> :=
    ["evt_index", "evt_tx_hash", "tx_from", "tx_to", "evt_block_time", "evt_block_number", "contract_address"]

  /** The composite key of an event row. `timeKey` is the timestamp's `Display`. */
  function EventKeys(info: EvtTxInfo, timeKey: Timestamp -> string): (keys: map<string, string>)
    ensures keys.Keys == {"evt_tx_hash", "evt_index", "evt_block_number", "evt_block_time"}
    ensures keys["evt_tx_hash"] == Hex(info.evtTxHash)
    ensures keys["evt_index"] == NatToString(info.evtIndex)
  {
    map["evt_tx_hash" := Hex(info.evtTxHash),
        "evt_index" := NatToString(info.evtIndex),
        "evt_block_number" := NatToString(info.evtBlockNumber),
        "evt_block_time" := timeKey(info.evtBlockTime)]
  }

  /** The standard column values, aligned with `STANDARD_COLUMNS`. `timeColumn` is the
      timestamp's database rendering. */
  function StandardValues(info: EvtTxInfo, timeColumn: Timestamp -> string): (vs: seq<string>)
    ensures |vs| == |STANDARD_COLUMNS|
  {
    [NatToString(info.evtIndex), Hex(info.evtTxHash), Hex(info.txFrom), Hex(info.txTo),
     timeColumn(info.evtBlockTime), NatToString(info.evtBlockNumber), Hex(info.contractAddress)]
  }

  /** `push_create`: a `Create` change, the seven standard columns, then the event's fields. */
  function PushCreate(table: string, keys: map<string, string>, ordinal: nat, value: EventWithInfo,
                      timeColumn: Timestamp -> string): (tc: TableChange)
    requires WellFormed(value.event)
    ensures tc.table == table && tc.keys == keys && tc.ordinal == ordinal && tc.operation == Create
  {
    var std := WriteAll(NewCreate(table, keys, ordinal), Pairs(STANDARD_COLUMNS, StandardValues(value.info, timeColumn)));
    AddTableChanges(value.event, std)
  }

  /** `transform_events_to_database_changes`: one change per event, in order, in the event's
      table, with ordinal 0. */
  function TransformEvents(events: seq<EventWithInfo>, timeKey: Timestamp -> string,
                           timeColumn: Timestamp -> string): (r: seq<TableChange>)
    requires forall i :: 0 <= i < |events| ==> WellFormed(events[i].event)
    ensures |r| == |events|
    ensures forall i :: 0 <= i < |events| ==>
              && r[i].table == GetTableName(events[i].event)
              && r[i].keys == EventKeys(events[i].info, timeKey)
              && r[i].ordinal == 0 && r[i].operation == Create
    ensures forall i :: 0 <= i < |events| ==>
              r[i] == PushCreate(GetTableName(events[i].event), EventKeys(events[i].info, timeKey), 0, events[i], timeColumn)
  {
    seq(|events|, i requires 0 <= i < |events| =>
      PushCreate(GetTableName(events[i].event), EventKeys(events[i].info, timeKey), 0, events[i], timeColumn))
  }

  /** `transform`. */
  function Transform(block: Block, decode: Log -> Option<Obj>, timeKey: Timestamp -> string,
                     timeColumn: Timestamp -> string): (r: Result<seq<TableChange>, EventsError>)
    requires forall l: Log :: decode(l).Some? ==> WellFormed(decode(l).value)
    ensures block.header.None? ==> r == Err(MissingHeader)
    ensures r.Ok? <==> GetEvents(block, decode).Ok?
    ensures r.Ok? ==> |r.value| == |GetEvents(block, decode).value|
    ensures r.Ok? ==> var events := GetEvents(block, decode).value;
              && (forall i :: 0 <= i < |events| ==> WellFormed(events[i].event))
              && r.value == TransformEvents(events, timeKey, timeColumn)
  {
    var events :- GetEvents(block, decode);
    EventsAreWellFormed(block, decode, events);
    Ok(TransformEvents(events, timeKey, timeColumn))
  }

  /** Each event's row holds the seven standard columns, then the fields of the struct the
      event wraps, in declaration order. */
  lemma TransformColumns(events: seq<EventWithInfo>, timeKey: Timestamp -> string,
                         timeColumn: Timestamp -> string, i: nat)
    requires forall j :: 0 <= j < |events| ==> WellFormed(events[j].event)
    requires i < |events|
    ensures WellFormed(Innermost(events[i].event))
    ensures FieldNames(TransformEvents(events, timeKey, timeColumn)[i].fields) ==
              STANDARD_COLUMNS + Innermost(events[i].event).def.data.fields.names
  {
    PushCreateNames(GetTableName(events[i].event), EventKeys(events[i].info, timeKey), 0, events[i], timeColumn);
  }

  lemma EventsAreWellFormed(block: Block, decode: Log -> Option<Obj>, events: seq<EventWithInfo>)
    requires forall l: Log :: decode(l).Some? ==> WellFormed(decode(l).value)
    requires GetEvents(block, decode) == Ok(events)
    ensures forall i :: 0 <= i < |events| ==> WellFormed(events[i].event)
  {
    var f := (v: LogView) => LogEvents(v, block.number, block.header.value, decode);
    forall i | 0 <= i < |events|
      ensures WellFormed(events[i].event)
    {
      assert events[i] in FlatMap(f, block.logs).value;
      FlatMapOrigin(f, block.logs, events[i]);
      var j :| 0 <= j < |block.logs| && f(block.logs[j]).Ok? && events[i] in f(block.logs[j]).value;
      assert events[i].event == decode(block.logs[j].log).value;
    }
  }

  // ---------------------------------------------------------------------------------------
  // Agreement with the generated schema
  // ---------------------------------------------------------------------------------------

  /** The key columns are the primary key of the generated tables. */
  lemma KeysArePrimaryKey(info: EvtTxInfo, timeKey: Timestamp -> string)
    ensures EventKeys(info, timeKey).Keys == {"evt_block_time", "evt_block_number", "evt_tx_hash", "evt_index"}
    ensures forall k :: k in EventKeys(info, timeKey).Keys ==> k in Schema.TRAILER_COLUMNS
  {
  }

  /** A row's column names: the standard ones, then the innermost struct's fields in
      declaration order. */
  lemma PushCreateNames(table: string, keys: map<string, string>, ordinal: nat, value: EventWithInfo,
                        timeColumn: Timestamp -> string)
    requires WellFormed(value.event)
    ensures WellFormed(Innermost(value.event))
    ensures FieldNames(PushCreate(table, keys, ordinal, value, timeColumn).fields) ==
            STANDARD_COLUMNS + Innermost(value.event).def.data.fields.names
  {
    var vs := StandardValues(value.info, timeColumn);
    var std := WriteAll(NewCreate(table, keys, ordinal), Pairs(STANDARD_COLUMNS, vs));
    WriteAllNames(NewCreate(table, keys, ordinal), STANDARD_COLUMNS, vs);
    assert FieldNames(std.fields) == STANDARD_COLUMNS;
    Delegation(value.event, std);
    var inner := Innermost(value.event);
    var names := inner.def.data.fields.names;
    var encoded := Encoding.EncodeAll(inner.values);
    assert AddTableChanges(inner, std) == WriteAll(std, Pairs(names, encoded));
    WriteAllNames(std, names, encoded);
  }

  /** The seven standard writes come first, with no old value: the index and block number in
      decimal, the hashes and addresses in hex, the time through its database rendering. */
  lemma PushCreateStandard(table: string, keys: map<string, string>, ordinal: nat, value: EventWithInfo,
                           timeColumn: Timestamp -> string)
    requires WellFormed(value.event)
    ensures var fields := PushCreate(table, keys, ordinal, value, timeColumn).fields;
            var info := value.info;
            && |fields| >= |STANDARD_COLUMNS|
            && fields[0] == Field("evt_index", None, NatToString(info.evtIndex))
            && fields[1] == Field("evt_tx_hash", None, Hex(info.evtTxHash))
            && fields[2] == Field("tx_from", None, Hex(info.txFrom))
            && fields[3] == Field("tx_to", None, Hex(info.txTo))
            && fields[4] == Field("evt_block_time", None, timeColumn(info.evtBlockTime))
            && fields[5] == Field("evt_block_number", None, NatToString(info.evtBlockNumber))
            && fields[6] == Field("contract_address", None, Hex(info.contractAddress))
  {
    var vs := StandardValues(value.info, timeColumn);
    var blank := NewCreate(table, keys, ordinal);
    var std := WriteAll(blank, Pairs(STANDARD_COLUMNS, vs));
    WriteColumns(blank, STANDARD_COLUMNS, vs);
    var fields := PushCreate(table, keys, ordinal, value, timeColumn).fields;
    assert fields[..|std.fields|] == std.fields;
    assert forall i :: 0 <= i < |STANDARD_COLUMNS| ==> fields[i] == std.fields[i];
  }

  /** The columns a row writes are the standard columns, then the struct's fields, which the
      bindings generator names from the ABI inputs under its renaming `fieldName` (a parameter).
      When the renaming leaves the input names as they are, rows and schema disagree on exactly
      `contract_address`, which the schema does not declare. */
  lemma RowColumnsVersusSchema(value: EventWithInfo, e: Schema.AbiEvent, table: string,
                               keys: map<string, string>, timeColumn: Timestamp -> string,
                               fieldName: string -> string)
    requires WellFormed(value.event)
    requires Innermost(value.event).def.data == StructData(Named(Schema.RenamedParams(e.inputs, fieldName)))
    ensures FieldNames(PushCreate(table, keys, 0, value, timeColumn).fields) ==
              STANDARD_COLUMNS + Schema.RenamedParams(e.inputs, fieldName)
    ensures (forall i :: 0 <= i < |e.inputs| ==> fieldName(e.inputs[i].name) == e.inputs[i].name) ==>
              var names := FieldNames(PushCreate(table, keys, 0, value, timeColumn).fields);
              forall n :: n in names <==> n in Schema.DeclaredColumns(e) || n == "contract_address"
    ensures "contract_address" !in Schema.TRAILER_COLUMNS
  {
    PushCreateNames(table, keys, 0, value, timeColumn);
    var renamed := Schema.RenamedParams(e.inputs, fieldName);
    var pnames := Schema.ParamNames(e.inputs);
    if forall i :: 0 <= i < |e.inputs| ==> fieldName(e.inputs[i].name) == e.inputs[i].name {
      assert renamed == pnames;
      var names := STANDARD_COLUMNS + pnames;
      var declared := Schema.DeclaredColumns(e);
      assert declared == pnames + Schema.TRAILER_COLUMNS;
      forall n
        ensures n in names <==> n in declared || n == "contract_address"
      {
        assert n in names <==> n in STANDARD_COLUMNS || n in pnames;
        assert n in declared <==> n in pnames || n in Schema.TRAILER_COLUMNS;
      }
    }
  }
}

=== FILE: prices.dfy ===
/** The prices mapper: token-store deltas become `tokens` rows and deleted hourly price windows
    become `values` rows; and the token-info store handler, which records each pool's two tokens
    without ever overwriting a stored one. Store keys are `:`-separated segments. */
module Prices {
  import opened Wrappers
  import opened Text
  import opened Changes

  const BLOCKCHAIN := "ethereum"
  const HOUR_IN_SECONDS := 3600
  const U64_LIMIT := 0x1_0000_0000_0000_0000

  const TOKENS_TABLE := "tokens"
  const VALUES_TABLE := "values"
  const TOKEN_HOUR_DATA := "TokenHourData"

  /** A store delta's operation. */
  datatype DeltaOp = DeltaUnset | DeltaCreate | DeltaUpdate | DeltaDelete

  datatype Token = Token(address: string, name: string, symbol: string, decimals: nat)

  /** A delta of the token store: only its new value is read. */
  datatype TokenDelta = TokenDelta(op: DeltaOp, ordinal: nat, key: string, newValue: Token)

  /** A delta of the price store; `oldValue` is the old `BigDecimal` as it displays. */
  datatype PriceDelta = PriceDelta(op: DeltaOp, ordinal: nat, key: string, oldValue: string)

  /** The panics of the handlers: `segment_at` past the last segment, `parse::<u64>().unwrap()`,
      and `pool.token0/1.unwrap()`. */
  datatype PricesError = MissingSegment(index: nat) | BadTimeId(text: string) | MissingToken(pool: nat)

  // ---------------------------------------------------------------------------------------
  // Keys and numbers
  // ---------------------------------------------------------------------------------------

  /** `first_segment`: the text before the first `:` (all of it when there is none). */
  function FirstSegment(key: string): (s: string)
    ensures ':' !in s && s <= key
  {
    var parts := Split(key, ':');
    JoinPrefix(parts, ':');
    parts[0]
  }

  lemma JoinPrefix(parts: seq<string>, c: char)
    requires |parts| >= 1
    ensures parts[0] <= Join([c], parts)
  {
  }

  /** `pool_windows_id_fields`: segments 0, 1 and 2 of the key; a key with fewer than three
      segments fails at the first missing one. */
  function PoolWindowsIdFields(key: string): (r: Result<(string, string, string), PricesError>)
    ensures r.Ok? <==> |Split(key, ':')| >= 3
    ensures |Split(key, ':')| == 1 ==> r == Err(MissingSegment(1))
    ensures |Split(key, ':')| == 2 ==> r == Err(MissingSegment(2))
    ensures r.Ok? ==> r.value.0 == FirstSegment(key) &&
                      r.value.1 == Split(key, ':')[1] && r.value.2 == Split(key, ':')[2]
  {
    var parts := Split(key, ':');
    if |parts| < 2 then Err(MissingSegment(1))
    else if |parts| < 3 then Err(MissingSegment(2))
    else Ok((parts[0], parts[1], parts[2]))
  }

  /** Keys built by joining `:`-free segments give those segments back. */
  lemma PoolWindowsIdFieldsOfJoin(segments: seq<string>)
    requires |segments| >= 3
    requires forall i :: 0 <= i < |segments| ==> ':' !in segments[i]
    ensures PoolWindowsIdFields(Join([':'], segments)) == Ok((segments[0], segments[1], segments[2]))
  {
    SplitJoin(segments, ':');
  }

  /** `str::parse::<u64>`: an optional `+`, then at least one decimal digit, the value below
      2^64. */
  function ParseU64(s: string): (r: Option<nat>)
    ensures r.Some? ==> r.value < U64_LIMIT
    ensures s == [] || s == "+" ==> r.None?
    ensures s != [] && AllDigits(s) ==> r == (if DigitsValue(s) < U64_LIMIT then Some(DigitsValue(s)) else None)
    ensures r.Some? ==> && s != []
                        && var d := if s[0] == '+' then s[1..] else s;
                        && d != [] && AllDigits(d) && r.value == DigitsValue(d)
  {
    if s == [] then None
    else
      var digits := if s[0] == '+' then s[1..] else s;
      if digits == [] || !AllDigits(digits) then None
      else if DigitsValue(digits) < U64_LIMIT then Some(DigitsValue(digits))
      else None
  }

  /** `ParseU64` reads back every `u64` rendering, with or without a `+`. */
  lemma ParseRendering(n: nat)
    requires n < U64_LIMIT
    ensures ParseU64(NatToString(n)) == Some(n)
    ensures ParseU64("+" + NatToString(n)) == Some(n)
  {
    DigitsValueOfNatToString(n);
    var s := NatToString(n);
    assert ("+" + s)[1..] == s;
  }

  /** The `hour` key: the time id times 3600 in `u64` arithmetic, which wraps. */
  function HourOf(timeId: nat): (h: nat)
    requires timeId < U64_LIMIT
    ensures h < U64_LIMIT
    ensures timeId * HOUR_IN_SECONDS < U64_LIMIT ==> h == timeId * HOUR_IN_SECONDS
  {
    (timeId * HOUR_IN_SECONDS) % U64_LIMIT
  }

  /** Time ids from 2^64 / 3600 on wrap around: the first one whose product passes 2^64 gets a
      small hour, earlier than its predecessor's. */
  lemma HourWraps()
    ensures HourOf(5124095576030432) == 5124095576030432 * 3600 - U64_LIMIT
    ensures HourOf(5124095576030432) < HourOf(5124095576030431)
  {
  }

  // ---------------------------------------------------------------------------------------
  // db_out_inner
  // ---------------------------------------------------------------------------------------

  function TokenKeys(t: Token): (keys: map<string, string>)
    ensures keys.Keys == {"blockchain", "contract_address", "name", "symbol"}
    ensures keys["blockchain"] == BLOCKCHAIN && keys["contract_address"] == t.address
  {
    map["blockchain" := BLOCKCHAIN, "contract_address" := t.address, "name" := t.name, "symbol" := t.symbol]
  }

  /** The row of a created token. */
  function TokenChange(d: TokenDelta): (tc: TableChange)
    ensures tc.table == TOKENS_TABLE && tc.operation == Create && tc.ordinal == d.ordinal
    ensures tc.keys == TokenKeys(d.newValue)
    ensures tc.fields == [Field("decimals", None, NatToString(d.newValue.decimals))]
  {
    WriteAll(NewCreate(TOKENS_TABLE, TokenKeys(d.newValue), d.ordinal), [("decimals", NatToString(d.newValue.decimals))])
  }

  /** The token rows: one per `Create` delta, in delta order; other operations are skipped. */
  function TokenChanges(deltas: seq<TokenDelta>): (r: seq<TableChange>)
    ensures |r| <= |deltas|
    ensures forall i :: 0 <= i < |r| ==> r[i].table == TOKENS_TABLE && "blockchain" in r[i].keys && r[i].keys["blockchain"] == BLOCKCHAIN
  {
    if deltas == [] then []
    else
      var rest := TokenChanges(deltas[1..]);
      if deltas[0].op == DeltaCreate then [TokenChange(deltas[0])] + rest else rest
  }

  /** Every `Create` delta has its row among the token rows. */
  lemma {:induction false} TokenChangesComplete(deltas: seq<TokenDelta>)
    ensures forall j :: 0 <= j < |deltas| && deltas[j].op == DeltaCreate ==> TokenChange(deltas[j]) in TokenChanges(deltas)
  {
    if deltas != [] {
      var tail := deltas[1..];
      TokenChangesComplete(tail);
      var r := TokenChanges(deltas);
      var rest := TokenChanges(tail);
      assert r == (if deltas[0].op == DeltaCreate then [TokenChange(deltas[0])] else []) + rest;
      forall j | 0 <= j < |deltas| && deltas[j].op == DeltaCreate
        ensures TokenChange(deltas[j]) in r
      {
        if j > 0 {
          assert deltas[j] == tail[j - 1];
        }
      }
    }
  }

  /** Every token row is the row of some `Create` delta. */
  lemma {:induction false} TokenChangesSound(deltas: seq<TokenDelta>)
    ensures forall row :: row in TokenChanges(deltas) ==>
              exists j :: 0 <= j < |deltas| && deltas[j].op == DeltaCreate && row == TokenChange(deltas[j])
  {
    if deltas != [] {
      var tail := deltas[1..];
      TokenChangesSound(tail);
      var r := TokenChanges(deltas);
      var rest := TokenChanges(tail);
      assert r == (if deltas[0].op == DeltaCreate then [TokenChange(deltas[0])] else []) + rest;
      forall row | row in r
        ensures exists j :: 0 <= j < |deltas| && deltas[j].op == DeltaCreate && row == TokenChange(deltas[j])
      {
        if row in rest {
          var k :| 0 <= k < |tail| && tail[k].op == DeltaCreate && row == TokenChange(tail[k]);
          assert deltas[k + 1] == tail[k];
        }
      }
    }
  }

  /** Token rows keep delta order: the rows of a concatenation are the concatenated rows. */
  lemma {:induction false} TokenChangesAppend(a: seq<TokenDelta>, b: seq<TokenDelta>)
    ensures TokenChanges(a + b) == TokenChanges(a) + TokenChanges(b)
    decreases |a|
  {
    if a == [] {
      assert a + b == b;
    } else {
      assert (a + b)[1..] == a[1..] + b;
      TokenChangesAppend(a[1..], b);
    }
  }

  /** A price delta is turned into a row when its key names an hourly token window and the
      window was deleted. */
  predicate Selected(d: PriceDelta) {
    FirstSegment(d.key) == TOKEN_HOUR_DATA && d.op == DeltaDelete
  }

  /** The row of a closed hourly price window: keyed by chain, hour and token, holding the
      price the window had. */
  function ValueChange(d: PriceDelta): (r: Result<TableChange, PricesError>)
    ensures r.Ok? <==> PoolWindowsIdFields(d.key).Ok? && ParseU64(PoolWindowsIdFields(d.key).value.1).Some?
    ensures r.Ok? ==>
              var time := ParseU64(PoolWindowsIdFields(d.key).value.1).value;
              && r.value.table == VALUES_TABLE && r.value.operation == Create && r.value.ordinal == d.ordinal
              && r.value.keys == map["blockchain" := BLOCKCHAIN, "hour" := NatToString(HourOf(time)),
                                     "contract_address" := PoolWindowsIdFields(d.key).value.2]
              && r.value.fields == [Field("price", None, d.oldValue)]
  {
    var (_, timeText, address) :- PoolWindowsIdFields(d.key);
    var time :- if ParseU64(timeText).Some? then Ok(ParseU64(timeText).value) else Err(BadTimeId(timeText));
    var keys := map["blockchain" := BLOCKCHAIN, "hour" := NatToString(HourOf(time)), "contract_address" := address];
    Ok(WriteAll(NewCreate(VALUES_TABLE, keys, d.ordinal), [("price", d.oldValue)]))
  }

  /** What one price delta contributes: its row if selected, nothing otherwise. */
  function ValueRows(d: PriceDelta): (r: Result<seq<TableChange>, PricesError>)
    ensures !Selected(d) ==> r.Ok? && r.value == []
    ensures Selected(d) ==> (r.Ok? <==> ValueChange(d).Ok?)
    ensures Selected(d) && r.Ok? ==> r.value == [ValueChange(d).value]
    ensures Selected(d) && r.Err? ==> r.error == ValueChange(d).error
  {
    if Selected(d) then
      var row :- ValueChange(d);
      Ok([row])
    else Ok([])
  }

  /** The value rows, in delta order; the first selected delta with a bad key fails. */
  function ValueChanges(deltas: seq<PriceDelta>): (r: Result<seq<TableChange>, PricesError>)
    ensures (forall i :: 0 <= i < |deltas| ==> !Selected(deltas[i])) ==> r.Ok? && r.value == []
    ensures r.Ok? <==> forall i :: 0 <= i < |deltas| && Selected(deltas[i]) ==> ValueChange(deltas[i]).Ok?
  {
    var f := ValueRows;
    if forall i :: 0 <= i < |deltas| ==> !Selected(deltas[i]) then
      FlatMapEmpty(f, deltas);
      FlatMap(f, deltas)
    else if forall i :: 0 <= i < |deltas| && Selected(deltas[i]) ==> ValueChange(deltas[i]).Ok? then
      FlatMapSucceeds(f, deltas);
      FlatMap(f, deltas)
    else
      FlatMapFailsWhere(deltas);
      FlatMap(f, deltas)
  }

  lemma FlatMapFailsWhere(deltas: seq<PriceDelta>)
    ensures forall i :: 0 <= i < |deltas| && Selected(deltas[i]) && ValueChange(deltas[i]).Err? ==> FlatMap(ValueRows, deltas).Err?
  {
    forall i | 0 <= i < |deltas| && Selected(deltas[i]) && ValueChange(deltas[i]).Err?
      ensures FlatMap(ValueRows, deltas).Err?
    {
      FlatMapFails(ValueRows, deltas, i);
    }
  }

  /** Every selected delta's row is among the value rows. */
  lemma ValueChangesComplete(deltas: seq<PriceDelta>)
    ensures ValueChanges(deltas).Ok? ==>
              forall i :: 0 <= i < |deltas| && Selected(deltas[i]) ==>
                ValueChange(deltas[i]).Ok? && ValueChange(deltas[i]).value in ValueChanges(deltas).value
  {
    if ValueChanges(deltas).Ok? {
      forall i | 0 <= i < |deltas| && Selected(deltas[i])
        ensures ValueChange(deltas[i]).Ok? && ValueChange(deltas[i]).value in ValueChanges(deltas).value
      {
        FlatMapContains(ValueRows, deltas, i);
      }
    }
  }

  /** Value rows keep delta order: the rows of a concatenation are the concatenated rows, and
      one delta gives exactly its own rows. */
  lemma ValueChangesAppend(a: seq<PriceDelta>, b: seq<PriceDelta>, d: PriceDelta)
    ensures ValueChanges(a + b).Ok? <==> ValueChanges(a).Ok? && ValueChanges(b).Ok?
    ensures ValueChanges(a + b).Ok? ==> ValueChanges(a + b).value == ValueChanges(a).value + ValueChanges(b).value
    ensures ValueChanges([d]) == ValueRows(d)
  {
    FlatMapAppend(ValueRows, a, b);
    FlatMapUnfold(ValueRows, [d]);
    assert [d][1..] == [];
    if ValueRows(d).Ok? {
      assert ValueRows(d).value + [] == ValueRows(d).value;
    }
  }

  /** Every value row comes from a selected delta, and is in the values table. */
  lemma ValueRowsOrigin(deltas: seq<PriceDelta>, row: TableChange)
    requires ValueChanges(deltas).Ok? && row in ValueChanges(deltas).value
    ensures row.table == VALUES_TABLE && row.operation == Create
    ensures exists i :: 0 <= i < |deltas| && Selected(deltas[i]) && ValueChange(deltas[i]) == Ok(row)
  {
    FlatMapOrigin(ValueRows, deltas, row);
  }

  /** `db_out_inner`: all token rows, then all value rows. */
  function DbOutInner(prices: seq<PriceDelta>, tokens: seq<TokenDelta>): (r: Result<seq<TableChange>, PricesError>)
    ensures r.Ok? <==> ValueChanges(prices).Ok?
    ensures r.Ok? ==> |r.value| >= |TokenChanges(tokens)| && r.value[..|TokenChanges(tokens)|] == TokenChanges(tokens)
    ensures r.Ok? ==> r.value[|TokenChanges(tokens)|..] == ValueChanges(prices).value
  {
    var values :- ValueChanges(prices);
    Ok(TokenChanges(tokens) + values)
  }

  /** All token rows precede all value rows. */
  lemma TokensPrecedeValues(prices: seq<PriceDelta>, tokens: seq<TokenDelta>)
    requires DbOutInner(prices, tokens).Ok?
    ensures var rows := DbOutInner(prices, tokens).value;
            var k := |TokenChanges(tokens)|;
            && (forall i :: 0 <= i < k ==> rows[i].table == TOKENS_TABLE)
            && (forall i :: k <= i < |rows| ==> rows[i].table == VALUES_TABLE)
  {
    var rows := DbOutInner(prices, tokens).value;
    var k := |TokenChanges(tokens)|;
    var values := ValueChanges(prices).value;
    assert rows == TokenChanges(tokens) + values;
    forall i | k <= i < |rows|
      ensures rows[i].table == VALUES_TABLE
    {
      assert rows[i] == values[i - k];
      ValueRowsOrigin(prices, values[i - k]);
    }
  }

  // ---------------------------------------------------------------------------------------
  // store_token_info_inner
  // ---------------------------------------------------------------------------------------

  datatype Pool = Pool(logOrdinal: nat, token0: Option<Token>, token1: Option<Token>)

  /** The token store: address to token. */
  type TokenStore = map<string, Token>

  /** `set_if_not_exists`. */
  function SetIfNotExists(store: TokenStore, t: Token): (r: TokenStore)
    ensures r.Keys == store.Keys + {t.address}
    ensures forall k :: k in store ==> r[k] == store[k]
  {
    if t.address in store then store else store[t.address := t]
  }

  /** Sets a run of tokens in order, each only if its address is new. The reference for the
      store handler. */
  function SetAll(store: TokenStore, ts: seq<Token>): (r: TokenStore)
    ensures forall k :: k in store ==> k in r && r[k] == store[k]
    ensures forall i :: 0 <= i < |ts| ==> ts[i].address in r
    ensures forall k :: k in r ==> k in store || exists i :: 0 <= i < |ts| && ts[i].address == k
    decreases |ts|
  {
    if ts == [] then store
    else
      var r := SetAll(SetIfNotExists(store, ts[0]), ts[1..]);
      assert forall i :: 1 <= i < |ts| ==> ts[i] == ts[1..][i - 1];
      r
  }

  /** A new address holds the first token with that address. */
  lemma {:induction false} SetAllFirstWins(store: TokenStore, ts: seq<Token>, i: nat)
    requires i < |ts| && ts[i].address !in store
    requires forall j :: 0 <= j < i ==> ts[j].address != ts[i].address
    ensures SetAll(store, ts)[ts[i].address] == ts[i]
    decreases |ts|
  {
    if i > 0 {
      assert ts[1..][i - 1] == ts[i];
      forall j | 0 <= j < i - 1
        ensures ts[1..][j].address != ts[i].address
      {
        assert ts[1..][j] == ts[j + 1];
      }
      SetAllFirstWins(SetIfNotExists(store, ts[0]), ts[1..], i - 1);
    }
  }

  /** Setting tokens that are all already stored changes nothing; hence `SetAll` is
      idempotent. */
  lemma {:induction false} SetAllPresent(store: TokenStore, ts: seq<Token>)
    requires forall i :: 0 <= i < |ts| ==> ts[i].address in store
    ensures SetAll(store, ts) == store
    decreases |ts|
  {
    if ts != [] {
      assert SetIfNotExists(store, ts[0]) == store;
      assert forall i :: 0 <= i < |ts[1..]| ==> ts[1..][i] == ts[i + 1];
      SetAllPresent(store, ts[1..]);
    }
  }

  lemma SetAllIdempotent(store: TokenStore, ts: seq<Token>)
    ensures SetAll(SetAll(store, ts), ts) == SetAll(store, ts)
  {
    SetAllPresent(SetAll(store, ts), ts);
  }

  /** Whether every pool carries both tokens. */
  predicate AllTokensPresent(pools: seq<Pool>) {
    forall i :: 0 <= i < |pools| ==> pools[i].token0.Some? && pools[i].token1.Some?
  }

  /** The tokens in the order the handler sets them: token0 then token1, pool by pool. */
  function PoolTokens(pools: seq<Pool>): (ts: seq<Token>)
    requires AllTokensPresent(pools)
    ensures |ts| == 2 * |pools|
    ensures forall i :: 0 <= i < |pools| ==> ts[2 * i] == pools[i].token0.value && ts[2 * i + 1] == pools[i].token1.value
  {
    if pools == [] then []
    else
      assert forall i :: 1 <= i < |pools| ==> pools[i] == pools[1..][i - 1];
      [pools[0].token0.value, pools[0].token1.value] + PoolTokens(pools[1..])
  }

  /** `store_token_info_inner`: a pool missing either token fails, before its tokens are set. */
  function StoreTokenInfo(pools: seq<Pool>, store: TokenStore): (r: Result<TokenStore, PricesError>)
    ensures r.Ok? <==> AllTokensPresent(pools)
    ensures r.Ok? ==> r.value == SetAll(store, PoolTokens(pools))
    decreases |pools|
  {
    if pools == [] then Ok(store)
    else
      var pool := pools[0];
      if pool.token0.None? || pool.token1.None? then Err(MissingToken(pool.logOrdinal))
      else
        var next := SetIfNotExists(SetIfNotExists(store, pool.token0.value), pool.token1.value);
        var r := StoreTokenInfo(pools[1..], next);
        assert AllTokensPresent(pools) <==> AllTokensPresent(pools[1..]) by {
          assert forall i :: 1 <= i < |pools| ==> pools[i] == pools[1..][i - 1];
        }
        if r.Ok? then
          SetAllCons(store, pool.token0.value, pool.token1.value, PoolTokens(pools[1..]));
          r
        else r
  }

  lemma SetAllCons(store: TokenStore, t0: Token, t1: Token, ts: seq<Token>)
    ensures SetAll(store, [t0, t1] + ts) == SetAll(SetIfNotExists(SetIfNotExists(store, t0), t1), ts)
  {
    var all := [t0, t1] + ts;
    assert all[1..] == [t1] + ts;
    assert all[1..][1..] == ts;
  }

  /** The store handler never overwrites a stored token, stores every pool's tokens, and a new
      address holds the first token seen with it. */
  lemma StoreNeverOverwrites(pools: seq<Pool>, store: TokenStore, k: string)
    requires StoreTokenInfo(pools, store).Ok? && k in store
    ensures StoreTokenInfo(pools, store).value[k] == store[k]
  {
  }

  lemma StoreFirstTokenWins(pools: seq<Pool>, store: TokenStore, i: nat)
    requires AllTokensPresent(pools)
    requires i < 2 * |pools|
    requires PoolTokens(pools)[i].address !in store
    requires forall j :: 0 <= j < i ==> PoolTokens(pools)[j].address != PoolTokens(pools)[i].address
    ensures StoreTokenInfo(pools, store).Ok?
    ensures StoreTokenInfo(pools, store).value[PoolTokens(pools)[i].address] == PoolTokens(pools)[i]
  {
    SetAllFirstWins(store, PoolTokens(pools), i);
  }

  /** Replaying a block's pools changes nothing. */
  lemma StoreIdempotent(pools: seq<Pool>, store: TokenStore)
    requires AllTokensPresent(pools)
    ensures StoreTokenInfo(pools, StoreTokenInfo(pools, store).value) == StoreTokenInfo(pools, store)
  {
    SetAllIdempotent(store, PoolTokens(pools));
  }
}

=== FILE: schema.dfy ===
/** The build-time generators of the generic events package: the ClickHouse schema (one table per
    ABI event plus a cursors table) and the substreams manifest from a template. Reading files
    and loading ABIs are parameters. */
module Schema {
  import opened Wrappers
  import opened Text
  import TableDerive

  /** `ethabi::ParamType`; sizes are bit or byte counts as in the ABI. */
  datatype AbiType =
    | Address
    | Bytes
    | Str
    | Int(bits: nat)
    | Uint(bits: nat)
    | Bool
    | FixedBytes(size: nat)
    | Array(item: AbiType)
    | FixedArray(item: AbiType, len: nat)
    | Tuple(items: seq<AbiType>)

  datatype AbiParam = AbiParam(name: string, kind: AbiType)

  datatype AbiEvent = AbiEvent(name: string, inputs: seq<AbiParam>)

  /** The ClickHouse column type of an ABI type: the reference definition. */
  function ParamSql(t: AbiType): string
    decreases t, 1
  {
    match t
    case Str => "String"
    case Bytes => "String"
    case Address => "FixedString(40)"
    case FixedBytes(n) => "FixedString(" + NatToString(n) + ")"
    case Int(n) => "Int" + NatToString(n)
    case Uint(n) => "UInt" + NatToString(n)
    case Bool => "Boolean"
    case Array(item) => "Array(" + ParamSql(item) + ")"
    case FixedArray(item, _) => "Array(" + ParamSql(item) + ")"
    case Tuple(items) => "Tuple(" + Join(",", ParamSqlAll(items)) + ")"
  }

  function ParamSqlAll(items: seq<AbiType>): (r: seq<string>)
    ensures |r| == |items|
    decreases items, 0
  {
    if items == [] then [] else [ParamSql(items[0])] + ParamSqlAll(items[1..])
  }

  lemma ParamSqlAllPrefix(items: seq<AbiType>, i: nat)
    requires i < |items|
    ensures ParamSqlAll(items[..i + 1]) == ParamSqlAll(items[..i]) + [ParamSql(items[i])]
  {
    if i > 0 {
      assert items[..i + 1][1..] == items[1..][..i];
      assert items[..i][1..] == items[1..][..i - 1];
      ParamSqlAllPrefix(items[1..], i - 1);
    }
  }

  /** `write_param_type_sql`: the writer-based generator. It produces exactly the reference
      rendering. */
  method WriteParamTypeSql(t: AbiType) returns (out: string)
    ensures out == ParamSql(t)
    decreases t, 1
  {
    match t {
      case Str => out := "String";
      case Bytes => out := "String";
      case Address => out := "FixedString(40)";
      case FixedBytes(n) => out := "FixedString(" + NatToString(n) + ")";
      case Int(n) => out := "Int" + NatToString(n);
      case Uint(n) => out := "UInt" + NatToString(n);
      case Bool => out := "Boolean";
      case Array(item) =>
        var inner := WriteParamTypeSql(item);
        out := "Array(" + inner + ")";
      case FixedArray(item, _) =>
        var inner := WriteParamTypeSql(item);
        out := "Array(" + inner + ")";
      case Tuple(items) =>
        var inner := WriteTupleItems(items);
        out := "Tuple(" + inner + ")";
    }
  }

  /** The loop over a tuple's items: each item's type, then a comma after every item but the
      last. */
  method WriteTupleItems(items: seq<AbiType>) returns (out: string)
    ensures out == Join(",", ParamSqlAll(items))
    decreases items, 0
  {
    out := "";
    var i := 0;
    while i < |items|
      invariant 0 <= i <= |items|
      invariant out == Join(",", ParamSqlAll(items[..i])) + (if 0 < i < |items| then "," else "")
    {
      var s := WriteParamTypeSql(items[i]);
      ParamSqlAllPrefix(items, i);
      if i > 0 {
        JoinSnoc(",", ParamSqlAll(items[..i]), s);
      } else {
        assert ParamSqlAll(items[..1]) == [s];
      }
      out := out + s;
      if i < |items| - 1 {
        out := out + ",";
      }
      i := i + 1;
    }
    assert items[..i] == items;
  }

  /** The fixed length of an array is not part of its column type, and bytes and strings share
      one: the rendering forgets both distinctions. */
  lemma ParamSqlCollisions(t: AbiType, n: nat, m: nat)
    ensures n != m ==> FixedArray(t, n) != FixedArray(t, m)
    ensures ParamSql(FixedArray(t, n)) == ParamSql(FixedArray(t, m)) == ParamSql(Array(t))
    ensures ParamSql(Bytes) == ParamSql(Str)
  {
  }

  /** Column types never come out empty, and composite types are parenthesised. */
  lemma ParamSqlShape(t: AbiType)
    ensures |ParamSql(t)| >= 4
    ensures (t.Array? || t.FixedArray? || t.Tuple?) ==> ParamSql(t)[|ParamSql(t)| - 1] == ')'
  {
  }

  // ---------------------------------------------------------------------------------------
  // Tables
  // ---------------------------------------------------------------------------------------

  /** The trailer every event table ends with: six standard columns, the engine and the keys.
      The source declares it as a 330-byte array. */
  const SQL_TABLE_END: string :=
    "\t`evt_block_number` UInt64,\n" +
    "\t`evt_tx_hash` FixedString(64),\n" +
    "\t`evt_index` UInt32,\n" +
    "\t`evt_block_time` DateTime,\n" +
    "\t`tx_to` FixedString(40),\n" +
    "\t`tx_from` FixedString(40),\n" +
    ")\n" +
    "ENGINE = MergeTree\n" +
    "PRIMARY KEY (evt_block_time,\n" +
    "\tevt_block_number,\n" +
    "\tevt_tx_hash,\n" +
    "\tevt_index)\n" +
    "ORDER BY (evt_block_time,\n" +
    "\tevt_block_number,\n" +
    "\tevt_tx_hash,\n" +
    "\tevt_index);\n"

  /** The standard columns the trailer declares, in order. */
  const TRAILER_COLUMNS: seq<string> :=
    ["evt_block_number", "evt_tx_hash", "evt_index", "evt_block_time", "tx_to", "tx_from"]

  lemma TableEndLength()
    ensures |SQL_TABLE_END| == 330
  {
  }

  /** The widths the trailer declares are those of the hex renderings written into them: 32-byte
      transaction hashes give 64 characters, 20-byte addresses 40. */
  lemma TrailerWidthsMatchHex(hash: seq<byte>, addr: seq<byte>)
    requires |hash| == 32 && |addr| == 20
    ensures |Hex(hash)| == 64 && |Hex(addr)| == 40
    ensures ParamSql(Address) == "FixedString(" + NatToString(|Hex(addr)|) + ")"
  {
    assert NatToString(40) == "40" by {
      assert NatToString(4) == "4";
    }
  }

  /** A `bytesN` column is declared `FixedString(N)`, while the hex written into it has `2N`
      characters: unlike the address column, its width is half of what it receives. */
  lemma FixedBytesWidthHalved(bs: seq<byte>)
    requires |bs| > 0
    ensures ParamSql(FixedBytes(|bs|)) == "FixedString(" + NatToString(|Hex(bs)| / 2) + ")"
    ensures ParamSql(FixedBytes(|bs|)) != "FixedString(" + NatToString(|Hex(bs)|) + ")"
  {
    var open := "FixedString(";
    var a, b := NatToString(|bs|), NatToString(|Hex(bs)|);
    if open + a + ")" == open + b + ")" {
      assert (open + a + ")")[|open|..|open| + |a|] == a;
      assert (open + b + ")")[|open|..|open| + |b|] == b;
      NatToStringInjective(|bs|, |Hex(bs)|);
    }
  }

  /** The table of an event: the prefix, if any, then the lower-cased event name. */
  function TableSqlName(prefix: Option<string>, eventName: string): (name: string)
    ensures prefix.None? ==> name == Lower(eventName)
    ensures prefix.Some? ==> name == prefix.value + Lower(eventName)
  {
    match prefix
    case Some(p) => p + Lower(eventName)
    case None => Lower(eventName)
  }

  /** The schema names a table after the ABI event, the runtime after the struct the bindings
      generator emits for it (`structName`, a parameter). Given the attribute the build script
      attaches for a prefix (and none without one), the derive macro names the table the schema
      would give the struct's name, and the two agree exactly when the event and struct names
      lower-case alike. */
  lemma TableNamesAgree(prefix: Option<string>, eventName: string, structName: string -> string,
                        data: TableDerive.Data)
    ensures var attrs := if prefix.Some? then [TableDerive.Attr(TableDerive.TABLE_PREFIX_ATTR, TableDerive.NameValueStr(prefix.value))] else [];
            var runtime := TableDerive.TableName(TableDerive.TypeDef(structName(eventName), attrs, data));
            && runtime == TableSqlName(prefix, structName(eventName))
            && (runtime == TableSqlName(prefix, eventName) <==> Lower(structName(eventName)) == Lower(eventName))
  {
    var a, b := Lower(structName(eventName)), Lower(eventName);
    if prefix.Some? {
      var p := prefix.value;
      TableDerive.PrefixFromBuildAttribute(structName(eventName), p, data);
      assert (p + a)[|p|..] == a;
      assert (p + b)[|p|..] == b;
    }
  }

  /** One column line per event input, in input order. */
  function ColumnsSql(inputs: seq<AbiParam>): string {
    if inputs == [] then ""
    else "\t`" + inputs[0].name + "` " + ParamSql(inputs[0].kind) + ",\n" + ColumnsSql(inputs[1..])
  }

  /** An input's line is its back-quoted name, its column type and a comma; the lines of a run
      of inputs are the lines of its parts, in order. */
  lemma {:induction false} ColumnsSqlAppend(a: seq<AbiParam>, b: seq<AbiParam>, p: AbiParam)
    ensures ColumnsSql([p]) == "\t`" + p.name + "` " + ParamSql(p.kind) + ",\n"
    ensures ColumnsSql(a + b) == ColumnsSql(a) + ColumnsSql(b)
    decreases |a|
  {
    assert [p][1..] == [];
    if a == [] {
      assert a + b == b;
    } else {
      assert (a + b)[0] == a[0];
      assert (a + b)[1..] == a[1..] + b;
      ColumnsSqlAppend(a[1..], b, p);
    }
  }

  /** The columns a table declares: the event's inputs, then the trailer's. */
  function DeclaredColumns(e: AbiEvent): (cols: seq<string>)
    ensures |cols| == |e.inputs| + |TRAILER_COLUMNS|
    ensures forall i :: 0 <= i < |e.inputs| ==> cols[i] == e.inputs[i].name
    ensures cols[|e.inputs|..] == TRAILER_COLUMNS
  {
    ParamNames(e.inputs) + TRAILER_COLUMNS
  }

  /** The ABI input names, in declaration order: the column names the schema declares, which
      need not be the struct field names the bindings use at run time. */
  function ParamNames(inputs: seq<AbiParam>): (names: seq<string>)
    ensures |names| == |inputs|
    ensures forall i :: 0 <= i < |inputs| ==> names[i] == inputs[i].name
  {
    RenamedParams(inputs, (n: string) => n)
  }

  /** The struct field names the bindings generator gives the inputs, under its renaming. */
  function RenamedParams(inputs: seq<AbiParam>, rename: string -> string): (names: seq<string>)
    ensures |names| == |inputs|
    ensures forall i :: 0 <= i < |inputs| ==> names[i] == rename(inputs[i].name)
  {
    seq(|inputs|, i requires 0 <= i < |inputs| => rename(inputs[i].name))
  }

  /** The `CREATE TABLE` statement of one event. */
  function CreateTableSql(db: string, prefix: Option<string>, e: AbiEvent): (sql: string)
    ensures var head := "\nCREATE TABLE IF NOT EXISTS " + db + "." + TableSqlName(prefix, e.name) + " (\n";
            |sql| >= |head| && sql[..|head|] == head
    ensures |sql| >= |SQL_TABLE_END|
    ensures sql[|sql| - |SQL_TABLE_END|..] == SQL_TABLE_END
    ensures var head := "\nCREATE TABLE IF NOT EXISTS " + db + "." + TableSqlName(prefix, e.name) + " (\n";
            && |sql| == |head| + |ColumnsSql(e.inputs)| + |SQL_TABLE_END|
            && sql[|head|..|sql| - |SQL_TABLE_END|] == ColumnsSql(e.inputs)
  {
    var head := "\nCREATE TABLE IF NOT EXISTS " + db + "." + TableSqlName(prefix, e.name) + " (\n";
    var body := ColumnsSql(e.inputs);
    assert (head + body + SQL_TABLE_END)[|head + body|..] == SQL_TABLE_END;
    assert (head + body + SQL_TABLE_END)[..|head|] == head;
    assert (head + body + SQL_TABLE_END)[|head|..|head + body|] == body;
    head + body + SQL_TABLE_END
  }

  /** `write_contract_sql`: the events grouped by name, in the ABI map's name order, overloads
      in declaration order. The output is one statement per event over all groups in order:
      grouping by name only orders the events. */
  function ContractSql(groups: seq<seq<AbiEvent>>, db: string, prefix: Option<string>): (sql: string)
    ensures sql == EventsSql(Flatten(groups), db, prefix)
  {
    if groups == [] then ""
    else
      EventsSqlAppend(groups[0], Flatten(groups[1..]), db, prefix);
      EventsSql(groups[0], db, prefix) + ContractSql(groups[1..], db, prefix)
  }

  function EventsSql(events: seq<AbiEvent>, db: string, prefix: Option<string>): string {
    ConcatMap(Statement(db, prefix), events)
  }

  /** The statement writer of one contract's events. */
  function Statement(db: string, prefix: Option<string>): AbiEvent -> string {
    (e: AbiEvent) => CreateTableSql(db, prefix, e)
  }

  /** The events of the groups, group after group. */
  function Flatten(groups: seq<seq<AbiEvent>>): seq<AbiEvent> {
    if groups == [] then [] else groups[0] + Flatten(groups[1..])
  }

  /** The statements of a run of events are those of its parts, in order. */
  lemma EventsSqlAppend(a: seq<AbiEvent>, b: seq<AbiEvent>, db: string, prefix: Option<string>)
    ensures EventsSql(a + b, db, prefix) == EventsSql(a, db, prefix) + EventsSql(b, db, prefix)
  {
    ConcatMapAppend(Statement(db, prefix), a, b);
  }

  /** `write_database_sql`: the database and the cursors table. */
  function DatabaseSql(db: string): (sql: string)
    ensures var head := "CREATE DATABASE IF NOT EXISTS " + db + ";\n";
            |sql| > |head| && sql[..|head|] == head
    ensures var cursors := "\nCREATE TABLE IF NOT EXISTS " + db + ".cursors (\n";
            var k := |"CREATE DATABASE IF NOT EXISTS " + db + ";\n"|;
            |sql| >= k + |cursors| && sql[k..k + |cursors|] == cursors
  {
    "CREATE DATABASE IF NOT EXISTS " + db + ";\n" +
    "\nCREATE TABLE IF NOT EXISTS " + db + ".cursors (\n" +
    "\tid String,\n" +
    "\tcursor String,\n" +
    "\tblock_num Int64,\n" +
    "\tblock_id String\n" +
    ")\n" +
    "ENGINE = ReplacingMergeTree\n" +
    "ORDER BY id;\n"
  }

  datatype Contract = Contract(name: string, abiFile: string, tablePrefix: Option<string>)

  datatype Config = Config(name: string, version: string, network: string, database: string,
                           contracts: seq<Contract>)

  datatype SchemaError = AbiLoadFailed(file: string)

  /** `generate_sql_schema`: the database preamble, then each contract's tables in
      configuration order. `load` stands for opening and parsing an ABI file into its event
      groups. */
  function SchemaSql(config: Config, load: string -> Option<seq<seq<AbiEvent>>>): (r: Result<string, SchemaError>)
    ensures r.Ok? <==> forall i :: 0 <= i < |config.contracts| ==> load(config.contracts[i].abiFile).Some?
    ensures r.Ok? ==> |r.value| >= |DatabaseSql(config.database)| &&
                      r.value[..|DatabaseSql(config.database)|] == DatabaseSql(config.database)
    ensures r.Ok? ==> r.value == DatabaseSql(config.database) + ContractsSql(config.contracts, config.database, load).value
    ensures r.Err? ==> r.error == ContractsSql(config.contracts, config.database, load).error
  {
    var tables :- ContractsSql(config.contracts, config.database, load);
    Ok(DatabaseSql(config.database) + tables)
  }

  function ContractsSql(contracts: seq<Contract>, db: string, load: string -> Option<seq<seq<AbiEvent>>>)
    : (r: Result<string, SchemaError>)
    ensures r.Ok? <==> forall i :: 0 <= i < |contracts| ==> load(contracts[i].abiFile).Some?
    ensures r.Err? ==> exists i :: 0 <= i < |contracts| && r.error == AbiLoadFailed(contracts[i].abiFile)
    ensures contracts == [] ==> r == Ok("")
  {
    if contracts == [] then Ok("")
    else
      var c := contracts[0];
      var groups :- if load(c.abiFile).Some? then Ok(load(c.abiFile).value) else Err(AbiLoadFailed(c.abiFile));
      var rest :- ContractsSql(contracts[1..], db, load);
      assert forall i :: 1 <= i < |contracts| ==> contracts[i] == contracts[1..][i - 1];
      Ok(ContractSql(groups, db, c.tablePrefix) + rest)
  }

  /** The tables of a run of contracts are the tables of its parts, in configuration order;
      one contract gives exactly the tables of its loaded event groups. */
  lemma {:induction false} ContractsSqlAppend(a: seq<Contract>, b: seq<Contract>, db: string,
                                              load: string -> Option<seq<seq<AbiEvent>>>)
    ensures ContractsSql(a + b, db, load).Ok? <==> ContractsSql(a, db, load).Ok? && ContractsSql(b, db, load).Ok?
    ensures ContractsSql(a + b, db, load).Ok? ==>
              ContractsSql(a + b, db, load).value == ContractsSql(a, db, load).value + ContractsSql(b, db, load).value
    decreases |a|
  {
    if a == [] {
      assert a + b == b;
    } else {
      assert (a + b)[0] == a[0];
      assert (a + b)[1..] == a[1..] + b;
      ContractsSqlUnfold(a + b, db, load);
      ContractsSqlUnfold(a, db, load);
      ContractsSqlAppend(a[1..], b, db, load);
    }
  }

  lemma ContractsSqlUnfold(cs: seq<Contract>, db: string, load: string -> Option<seq<seq<AbiEvent>>>)
    requires cs != []
    ensures ContractsSql(cs, db, load).Ok? <==> load(cs[0].abiFile).Some? && ContractsSql(cs[1..], db, load).Ok?
    ensures ContractsSql(cs, db, load).Ok? ==>
              ContractsSql(cs, db, load).value ==
                ContractSql(load(cs[0].abiFile).value, db, cs[0].tablePrefix) + ContractsSql(cs[1..], db, load).value
  {
  }

  lemma ContractsSqlSingle(c: Contract, db: string, load: string -> Option<seq<seq<AbiEvent>>>)
    ensures ContractsSql([c], db, load).Ok? <==> load(c.abiFile).Some?
    ensures load(c.abiFile).None? ==> ContractsSql([c], db, load) == Err(AbiLoadFailed(c.abiFile))
    ensures load(c.abiFile).Some? ==>
              ContractsSql([c], db, load).value == ContractSql(load(c.abiFile).value, db, c.tablePrefix)
  {
    assert [c][1..] == [];
    if load(c.abiFile).Some? {
      assert ContractSql(load(c.abiFile).value, db, c.tablePrefix) + "" == ContractSql(load(c.abiFile).value, db, c.tablePrefix);
    }
  }

  // ---------------------------------------------------------------------------------------
  // The manifest
  // ---------------------------------------------------------------------------------------

  const NAME_PLACEHOLDER := "{{NAME}}"
  const VERSION_PLACEHOLDER := "{{VERSION}}"
  const NETWORK_PLACEHOLDER := "{{NETWORK}}"

  /** `generate_substreams`: the three placeholders replaced in turn, each in the text the
      previous replacement produced. */
  function Substitute(template: string, config: Config): string {
    var t1 := Replace(template, NAME_PLACEHOLDER, config.name);
    var t2 := Replace(t1, VERSION_PLACEHOLDER, config.version);
    Replace(t2, NETWORK_PLACEHOLDER, config.network)
  }

  /** A template without placeholders is copied unchanged. */
  lemma SubstituteNoPlaceholders(template: string, config: Config)
    requires '{' !in template
    ensures Substitute(template, config) == template
  {
    ReplaceAbsent(template, NAME_PLACEHOLDER, config.name);
    ReplaceAbsent(template, VERSION_PLACEHOLDER, config.version);
    ReplaceAbsent(template, NETWORK_PLACEHOLDER, config.network);
  }

  /** A name placeholder between placeholder-free text is replaced by the configured name when
      the configured values contain no braces. */
  lemma SubstituteName(u: string, v: string, config: Config)
    requires '{' !in u && '{' !in v && '{' !in config.name
    ensures Substitute(u + NAME_PLACEHOLDER + v, config) == u + config.name + v
  {
    ReplaceAt(u, NAME_PLACEHOLDER, v, config.name);
    ReplaceAbsent(v, NAME_PLACEHOLDER, config.name);
    var t1 := u + config.name + v;
    assert '{' !in t1;
    ReplaceAbsent(t1, VERSION_PLACEHOLDER, config.version);
    ReplaceAbsent(t1, NETWORK_PLACEHOLDER, config.network);
  }

  /** A template read as chunks: each chunk is brace-free text or one of the three
      placeholders. */
  predicate IsChunk(c: string) {
    '{' !in c || c == NAME_PLACEHOLDER || c == VERSION_PLACEHOLDER || c == NETWORK_PLACEHOLDER
  }

  function Concat(chunks: seq<string>): string {
    if chunks == [] then "" else chunks[0] + Concat(chunks[1..])
  }

  /** Every chunk equal to `pat` becomes `rep`; the others stay. */
  function Pass(chunks: seq<string>, pat: string, rep: string): (r: seq<string>)
    ensures |r| == |chunks|
    ensures forall i :: 0 <= i < |chunks| ==> r[i] == (if chunks[i] == pat then rep else chunks[i])
  {
    seq(|chunks|, i requires 0 <= i < |chunks| => if chunks[i] == pat then rep else chunks[i])
  }

  /** Each placeholder chunk holds its configured value; text chunks stay as they are. */
  function Filled(chunks: seq<string>, config: Config): (r: seq<string>)
    ensures |r| == |chunks|
  {
    seq(|chunks|, i requires 0 <= i < |chunks| =>
      if chunks[i] == NAME_PLACEHOLDER then config.name
      else if chunks[i] == VERSION_PLACEHOLDER then config.version
      else if chunks[i] == NETWORK_PLACEHOLDER then config.network
      else chunks[i])
  }

  /** No placeholder occurs inside a chunk other than itself. */
  lemma ChunkMismatches(c: string, pat: string)
    requires IsChunk(c) && c != pat
    requires pat == NAME_PLACEHOLDER || pat == VERSION_PLACEHOLDER || pat == NETWORK_PLACEHOLDER
    ensures MismatchesWithin(c, pat)
  {
    forall k | 0 <= k < |c|
      ensures MismatchAt(c, pat, k)
    {
      if '{' !in c {
        assert c[k] != pat[0];
      } else if k == 0 {
        if c[2] != pat[2] {
          assert c[2] != pat[2];
        } else {
          assert c[3] != pat[3];
        }
      } else if k == 1 {
        assert c[2] != pat[1];
      } else {
        assert c[k] != pat[0];
      }
    }
  }

  /** One `replace` pass over a chunked template replaces exactly the chunks equal to the
      placeholder. */
  lemma {:induction false} ReplaceChunks(chunks: seq<string>, pat: string, rep: string)
    requires forall i :: 0 <= i < |chunks| ==> IsChunk(chunks[i])
    requires pat == NAME_PLACEHOLDER || pat == VERSION_PLACEHOLDER || pat == NETWORK_PLACEHOLDER
    ensures Replace(Concat(chunks), pat, rep) == Concat(Pass(chunks, pat, rep))
    decreases |chunks|
  {
    if chunks == [] {
      assert Pass(chunks, pat, rep) == [];
    } else {
      var c, rest := chunks[0], chunks[1..];
      ReplaceChunks(rest, pat, rep);
      var passed := Pass(chunks, pat, rep);
      assert passed[1..] == Pass(rest, pat, rep);
      if c == pat {
        ReplaceAt([], pat, Concat(rest), rep);
        assert [] + pat + Concat(rest) == Concat(chunks);
      } else {
        ChunkMismatches(c, pat);
        ReplaceSkip(c, Concat(rest), pat, rep);
      }
    }
  }

  /** For a template of brace-free text and placeholders, and brace-free configured values,
      substitution puts each value where its placeholder was and changes nothing else. */
  lemma SubstituteChunks(chunks: seq<string>, config: Config)
    requires forall i :: 0 <= i < |chunks| ==> IsChunk(chunks[i])
    requires '{' !in config.name && '{' !in config.version && '{' !in config.network
    ensures Substitute(Concat(chunks), config) == Concat(Filled(chunks, config))
  {
    var c1 := Pass(chunks, NAME_PLACEHOLDER, config.name);
    var c2 := Pass(c1, VERSION_PLACEHOLDER, config.version);
    var c3 := Pass(c2, NETWORK_PLACEHOLDER, config.network);
    ReplaceChunks(chunks, NAME_PLACEHOLDER, config.name);
    PassKeepsChunks(chunks, NAME_PLACEHOLDER, config.name);
    ReplaceChunks(c1, VERSION_PLACEHOLDER, config.version);
    PassKeepsChunks(c1, VERSION_PLACEHOLDER, config.version);
    ReplaceChunks(c2, NETWORK_PLACEHOLDER, config.network);
    PassesFill(chunks, config);
  }

  /** Replacing placeholder chunks by brace-free text keeps the template chunked. */
  lemma PassKeepsChunks(chunks: seq<string>, pat: string, rep: string)
    requires forall i :: 0 <= i < |chunks| ==> IsChunk(chunks[i])
    requires '{' !in rep
    ensures forall i :: 0 <= i < |chunks| ==> IsChunk(Pass(chunks, pat, rep)[i])
  {
  }

  /** The three passes, in the handler's order, fill every placeholder with its value. */
  lemma PassesFill(chunks: seq<string>, config: Config)
    requires '{' !in config.name && '{' !in config.version && '{' !in config.network
    ensures Pass(Pass(Pass(chunks, NAME_PLACEHOLDER, config.name), VERSION_PLACEHOLDER, config.version),
                 NETWORK_PLACEHOLDER, config.network) == Filled(chunks, config)
  {
    var c1 := Pass(chunks, NAME_PLACEHOLDER, config.name);
    var c2 := Pass(c1, VERSION_PLACEHOLDER, config.version);
    var c3 := Pass(c2, NETWORK_PLACEHOLDER, config.network);
    var filled := Filled(chunks, config);
    PlaceholdersDistinct();
    assert VERSION_PLACEHOLDER[0] == '{' && NETWORK_PLACEHOLDER[0] == '{';
    assert config.name != VERSION_PLACEHOLDER && config.name != NETWORK_PLACEHOLDER;
    assert config.version != NETWORK_PLACEHOLDER;
    forall i | 0 <= i < |chunks|
      ensures c3[i] == filled[i]
    {
    }
  }

  /** The three placeholders are distinct. */
  lemma PlaceholdersDistinct()
    ensures NAME_PLACEHOLDER != VERSION_PLACEHOLDER && NAME_PLACEHOLDER != NETWORK_PLACEHOLDER
    ensures VERSION_PLACEHOLDER != NETWORK_PLACEHOLDER
  {
    assert |NAME_PLACEHOLDER| == 8 && |VERSION_PLACEHOLDER| == 11;
    assert VERSION_PLACEHOLDER[2] != NETWORK_PLACEHOLDER[2];
  }

  /** Replacements cascade: a configured name that itself contains the version placeholder has
      it replaced by the version. */
  lemma SubstitutionCascades(version: string, network: string, db: string)
    requires '{' !in version && '{' !in network
    ensures Substitute(NAME_PLACEHOLDER, Config(VERSION_PLACEHOLDER, version, network, db, [])) == version
  {
    var t1 := Replace(NAME_PLACEHOLDER, NAME_PLACEHOLDER, VERSION_PLACEHOLDER);
    assert NAME_PLACEHOLDER[|NAME_PLACEHOLDER|..] == [];
    assert t1 == VERSION_PLACEHOLDER + Replace([], NAME_PLACEHOLDER, VERSION_PLACEHOLDER);
    assert t1 == VERSION_PLACEHOLDER;
    var t2 := Replace(t1, VERSION_PLACEHOLDER, version);
    assert VERSION_PLACEHOLDER[|VERSION_PLACEHOLDER|..] == [];
    assert t2 == version + Replace([], VERSION_PLACEHOLDER, version);
    assert t2 == version;
    ReplaceAbsent(version, NETWORK_PLACEHOLDER, network);
  }
}

=== FILE: text.dfy ===
/** Text primitives the handlers rely on: the `Display` of `substreams::Hex`, Rust's
    decimal `to_string` for integers, ASCII lower-casing, `join`, `split` on one character and
    `str::replace`. Each rendering comes with its inverse or a characterising lemma. */
module Text {

  type byte = b: int | 0 <= b < 256

  // ---------------------------------------------------------------------------------------
  // Hexadecimal
  // ---------------------------------------------------------------------------------------

  predicate IsHexChar(c: char) {
    ('0' <= c <= '9') || ('a' <= c <= 'f')
  }

  function HexDigit(n: nat): (c: char)
    requires n < 16
    ensures IsHexChar(c)
  {
    if n < 10 then ('0' as int + n) as char else ('a' as int + n - 10) as char
  }

  function HexValue(c: char): (n: nat)
    requires IsHexChar(c)
    ensures n < 16 && HexDigit(n) == c
  {
    if '0' <= c <= '9' then c as int - '0' as int else c as int - 'a' as int + 10
  }

  /** Lower-case hexadecimal rendering of a byte string: two characters per byte, high nibble
      first, no `0x` prefix. */
  function Hex(bs: seq<byte>): (r: string)
    ensures |r| == 2 * |bs|
    ensures forall i :: 0 <= i < |r| ==> IsHexChar(r[i])
  {
    if bs == [] then "" else [HexDigit(bs[0] / 16), HexDigit(bs[0] % 16)] + Hex(bs[1..])
  }

  predicate AllHex(s: string) {
    forall i :: 0 <= i < |s| ==> IsHexChar(s[i])
  }

  /** The inverse of `Hex`: reads two hex characters per byte. */
  function UnHex(s: string): (bs: seq<byte>)
    requires |s| % 2 == 0 && AllHex(s)
    ensures |bs| * 2 == |s|
  {
    if s == [] then [] else [HexValue(s[0]) * 16 + HexValue(s[1])] + UnHex(s[2..])
  }

  lemma {:induction false} UnHexHex(bs: seq<byte>)
    ensures UnHex(Hex(bs)) == bs
  {
    if bs != [] {
      var h := Hex(bs);
      assert h[2..] == Hex(bs[1..]);
      assert HexValue(h[0]) == bs[0] / 16;
      assert HexValue(h[1]) == bs[0] % 16;
      UnHexHex(bs[1..]);
    }
  }

  /** Distinct byte strings have distinct hex renderings. */
  lemma HexInjective(a: seq<byte>, b: seq<byte>)
    ensures Hex(a) == Hex(b) ==> a == b
  {
    if Hex(a) == Hex(b) {
      UnHexHex(a);
      UnHexHex(b);
    }
  }

  // ---------------------------------------------------------------------------------------
  // Decimal
  // ---------------------------------------------------------------------------------------

  predicate IsDigit(c: char) {
    '0' <= c <= '9'
  }

  predicate AllDigits(s: string) {
    forall i :: 0 <= i < |s| ==> IsDigit(s[i])
  }

  function DigitChar(d: nat): (c: char)
    requires d < 10
    ensures IsDigit(c)
  {
    ('0' as int + d) as char
  }

  function DigitValue(c: char): (d: nat)
    requires IsDigit(c)
    ensures d < 10 && DigitChar(d) == c
  {
    c as int - '0' as int
  }

  /** Base-10 rendering of a natural number without leading zeros (Rust's `to_string` of an
      unsigned integer, `U256` or non-negative `BigInt`). */
  function NatToString(n: nat): (r: string)
    ensures |r| >= 1 && AllDigits(r)
    ensures r[0] == '0' ==> n == 0
    decreases n
  {
    if n < 10 then [DigitChar(n)] else NatToString(n / 10) + [DigitChar(n % 10)]
  }

  /** The value of a non-empty or empty string of decimal digits, read most significant first. */
  function DigitsValue(s: string): nat
    requires AllDigits(s)
    decreases |s|
  {
    if s == [] then 0 else 10 * DigitsValue(s[..|s| - 1]) + DigitValue(s[|s| - 1])
  }

  lemma {:induction false} DigitsValueOfNatToString(n: nat)
    ensures DigitsValue(NatToString(n)) == n
    decreases n
  {
    if n >= 10 {
      var r := NatToString(n);
      assert r[..|r| - 1] == NatToString(n / 10);
      DigitsValueOfNatToString(n / 10);
    }
  }

  /** Distinct naturals render to distinct decimal strings. */
  lemma NatToStringInjective(a: nat, b: nat)
    ensures NatToString(a) == NatToString(b) ==> a == b
  {
    DigitsValueOfNatToString(a);
    DigitsValueOfNatToString(b);
  }

  /** Base-10 rendering of a signed integer (`BigInt::to_string`): a leading `-` for negatives. */
  function IntToString(i: int): (r: string)
    ensures i >= 0 ==> r == NatToString(i)
    ensures i < 0 ==> r == "-" + NatToString(-i)
  {
    if i < 0 then "-" + NatToString(-i) else NatToString(i)
  }

  // ---------------------------------------------------------------------------------------
  // ASCII lower-casing (Rust's `to_lowercase` restricted to ASCII)
  // ---------------------------------------------------------------------------------------

  function LowerChar(c: char): char {
    if 'A' <= c <= 'Z' then (c as int + 32) as char else c
  }

  function Lower(s: string): (r: string)
    ensures |r| == |s|
    ensures forall i :: 0 <= i < |s| ==> r[i] == LowerChar(s[i]) && !('A' <= r[i] <= 'Z')
  {
    if s == [] then "" else [LowerChar(s[0])] + Lower(s[1..])
  }

  // ---------------------------------------------------------------------------------------
  // Join and split
  // ---------------------------------------------------------------------------------------

  /** `parts.join(sep)`: the separator appears only between consecutive parts. */
  function Join(sep: string, parts: seq<string>): string {
    if |parts| == 0 then ""
    else if |parts| == 1 then parts[0]
    else parts[0] + sep + Join(sep, parts[1..])
  }

  /** The texts of a run of items written one after another, in order. */
  function ConcatMap<T>(f: T -> string, xs: seq<T>): string {
    if xs == [] then "" else f(xs[0]) + ConcatMap(f, xs[1..])
  }

  /** Writing a run of items is writing its parts in turn. */
  lemma {:induction false} ConcatMapAppend<T>(f: T -> string, a: seq<T>, b: seq<T>)
    ensures ConcatMap(f, a + b) == ConcatMap(f, a) + ConcatMap(f, b)
    decreases |a|
  {
    if a == [] {
      assert a + b == b;
    } else {
      assert (a + b)[0] == a[0];
      assert (a + b)[1..] == a[1..] + b;
      ConcatMapAppend(f, a[1..], b);
    }
  }

  /** Appending a part to a non-empty list appends the separator and the part. */
  lemma {:induction false} JoinSnoc(sep: string, parts: seq<string>, p: string)
    requires |parts| >= 1
    ensures Join(sep, parts + [p]) == Join(sep, parts) + sep + p
    decreases |parts|
  {
    if |parts| == 1 {
      assert (parts + [p])[1..] == [p];
    } else {
      assert (parts + [p])[1..] == parts[1..] + [p];
      JoinSnoc(sep, parts[1..], p);
    }
  }

  /** Two parts are joined by one separator; three by two. */
  lemma JoinSmall(sep: string, a: string, b: string, c: string)
    ensures Join(sep, [a, b]) == a + sep + b
    ensures Join(sep, [a, b, c]) == a + sep + (b + sep + c)
  {
    assert [a, b][1..] == [b];
    assert [b, c][1..] == [c];
    assert Join(sep, [b, c]) == b + sep + c;
    assert [a, b, c][1..] == [b, c];
  }

  function IndexOf(s: string, c: char): (k: nat)
    requires c in s
    ensures k < |s| && s[k] == c && c !in s[..k]
  {
    if s[0] == c then 0 else 1 + IndexOf(s[1..], c)
  }

  /** `s.split(c)`: the maximal `c`-free pieces of `s`, at least one. */
  function Split(s: string, c: char): (parts: seq<string>)
    ensures |parts| >= 1
    ensures forall i :: 0 <= i < |parts| ==> c !in parts[i]
    ensures Join([c], parts) == s
    decreases |s|
  {
    if c !in s then [s]
    else
      var k := IndexOf(s, c);
      var rest := Split(s[k + 1..], c);
      assert s == s[..k] + [c] + s[k + 1..];
      [s[..k]] + rest
  }

  /** Splitting a join of `c`-free parts gives the parts back. */
  lemma {:induction false} SplitJoin(parts: seq<string>, c: char)
    requires |parts| >= 1
    requires forall i :: 0 <= i < |parts| ==> c !in parts[i]
    ensures Split(Join([c], parts), c) == parts
  {
    if |parts| > 1 {
      var s := Join([c], parts);
      var tail := Join([c], parts[1..]);
      assert s == parts[0] + [c] + tail;
      assert c in s by { assert s[|parts[0]|] == c; }
      var k := IndexOf(s, c);
      assert k == |parts[0]|;
      assert s[..k] == parts[0];
      assert s[k + 1..] == tail;
      SplitJoin(parts[1..], c);
    }
  }

  /** Joining with a separator character that occurs in no part is injective on non-empty
      lists of parts. */
  lemma JoinInjective(a: seq<string>, b: seq<string>, c: char)
    requires |a| >= 1 && |b| >= 1
    requires forall i :: 0 <= i < |a| ==> c !in a[i]
    requires forall i :: 0 <= i < |b| ==> c !in b[i]
    ensures Join([c], a) == Join([c], b) ==> a == b
  {
    SplitJoin(a, c);
    SplitJoin(b, c);
  }

  // ---------------------------------------------------------------------------------------
  // str::replace
  // ---------------------------------------------------------------------------------------

  /** Rust's `str::replace`: every leftmost non-overlapping occurrence of `pat` is replaced by
      `rep`; an empty pattern matches before every character and at the end. */
  function Replace(s: string, pat: string, rep: string): string
    decreases |s|
  {
    if |pat| == 0 then
      (if s == [] then rep else rep + [s[0]] + Replace(s[1..], pat, rep))
    else if |s| < |pat| then s
    else if s[..|pat|] == pat then rep + Replace(s[|pat|..], pat, rep)
    else [s[0]] + Replace(s[1..], pat, rep)
  }

  /** A pattern whose first character does not occur leaves the text unchanged. */
  lemma {:induction false} ReplaceAbsent(s: string, pat: string, rep: string)
    requires |pat| > 0 && pat[0] !in s
    ensures Replace(s, pat, rep) == s
    decreases |s|
  {
    if |s| >= |pat| {
      assert s[..|pat|][0] == s[0];
      ReplaceAbsent(s[1..], pat, rep);
      assert s == [s[0]] + s[1..];
    }
  }

  /** No occurrence of `pat` starts inside `u`, whatever follows it: every position of `u`
      mismatches the pattern before `u` ends. */
  predicate MismatchesWithin(u: string, pat: string) {
    forall k :: 0 <= k < |u| ==> MismatchAt(u, pat, k)
  }

  /** The pattern, laid at position `k` of `u`, disagrees with `u` before `u` ends. */
  predicate MismatchAt(u: string, pat: string, k: nat) {
    exists m :: 0 <= m < |pat| && k + m < |u| && u[k + m] != pat[m]
  }

  /** Text in which no occurrence of the pattern starts is copied through unchanged. */
  lemma {:induction false} ReplaceSkip(u: string, rest: string, pat: string, rep: string)
    requires |pat| > 0 && MismatchesWithin(u, pat)
    ensures Replace(u + rest, pat, rep) == u + Replace(rest, pat, rep)
    decreases |u|
  {
    if u == [] {
      assert u + rest == rest;
    } else if |u + rest| < |pat| {
      ReplaceShort(rest, pat, rep);
    } else {
      ReplaceStep(u, rest, pat, rep);
      MismatchesWithinTail(u, pat);
      ReplaceSkip(u[1..], rest, pat, rep);
      assert [u[0]] + (u[1..] + Replace(rest, pat, rep)) == ([u[0]] + u[1..]) + Replace(rest, pat, rep);
      assert [u[0]] + u[1..] == u;
    }
  }

  /** Where the pattern mismatches at the front, `replace` keeps the first character. */
  lemma ReplaceStep(u: string, rest: string, pat: string, rep: string)
    requires |pat| > 0 && u != [] && MismatchAt(u, pat, 0) && |u + rest| >= |pat|
    ensures Replace(u + rest, pat, rep) == [u[0]] + Replace(u[1..] + rest, pat, rep)
  {
    var s := u + rest;
    var m :| 0 <= m < |pat| && m < |u| && u[m] != pat[m];
    assert s[..|pat|][m] == u[m];
    assert s[1..] == u[1..] + rest;
  }

  /** Dropping the first character keeps the absence of occurrences. */
  lemma MismatchesWithinTail(u: string, pat: string)
    requires u != [] && MismatchesWithin(u, pat)
    ensures MismatchesWithin(u[1..], pat)
  {
    forall k | 0 <= k < |u[1..]|
      ensures MismatchAt(u[1..], pat, k)
    {
      assert MismatchAt(u, pat, k + 1);
      var m :| 0 <= m < |pat| && k + 1 + m < |u| && u[k + 1 + m] != pat[m];
      assert u[1..][k + m] == u[k + 1 + m];
    }
  }

  /** Text shorter than a non-empty pattern is left unchanged. */
  lemma ReplaceShort(s: string, pat: string, rep: string)
    requires 0 < |pat| && |s| < |pat|
    ensures Replace(s, pat, rep) == s
  {
  }

  /** Replacing a pattern by itself is the identity. */
  lemma {:induction false} ReplaceSelf(s: string, pat: string)
    ensures Replace(s, pat, pat) == s
    decreases |s|
  {
    if |pat| == 0 {
      if s != [] {
        ReplaceSelf(s[1..], pat);
        assert s == [s[0]] + s[1..];
      }
    } else if |s| >= |pat| {
      if s[..|pat|] == pat {
        ReplaceSelf(s[|pat|..], pat);
        assert s == s[..|pat|] + s[|pat|..];
      } else {
        ReplaceSelf(s[1..], pat);
        assert s == [s[0]] + s[1..];
      }
    }
  }

  /** The first occurrence of a non-empty pattern, preceded by text free of the pattern's first
      character, is the one replaced. */
  lemma {:induction false} ReplaceAt(u: string, pat: string, v: string, rep: string)
    requires |pat| > 0 && pat[0] !in u
    ensures Replace(u + pat + v, pat, rep) == u + rep + Replace(v, pat, rep)
    decreases |u|
  {
    var s := u + pat + v;
    if u == [] {
      assert s[..|pat|] == pat;
      assert s[|pat|..] == v;
    } else {
      assert |s| >= |pat| && s[0] == u[0];
      assert s[..|pat|] != pat by { assert s[..|pat|][0] == u[0]; }
      assert Replace(s, pat, rep) == [u[0]] + Replace(s[1..], pat, rep);
      assert s[1..] == u[1..] + pat + v;
      assert pat[0] !in u[1..];
      ReplaceAt(u[1..], pat, v, rep);
      var tail := Replace(v, pat, rep);
      assert [u[0]] + (u[1..] + rep + tail) == ([u[0]] + u[1..]) + rep + tail;
      assert [u[0]] + u[1..] == u;
    }
  }
}

=== FILE: tx.dfy ===
/** The block and transaction mapper: one `blocks` row per block followed by one `transactions`
    row per transaction trace, in trace order. The timestamp's `Display` is a parameter. */
module Tx {
  import opened Wrappers
  import opened Text
  import opened Changes
  import opened Chain

  /** `balance_change::Reason::RewardMineBlock`: code 2 of the `sf.ethereum.type.v2` balance
      change reasons, after `Unknown` (0) and `RewardMineUncle` (1). */
  const REWARD_MINE_BLOCK := 2

  datatype BalanceChange = BalanceChange(address: seq<byte>, reason: int)

  /** An `eth::v2::BigInt` is its unsigned big-endian bytes; fields holding one are optional. */
  type BigIntBytes = Option<seq<byte>>

  datatype Header = Header(
    parentHash: seq<byte>,
    gasLimit: nat,
    gasUsed: nat,
    difficulty: BigIntBytes,
    totalDifficulty: BigIntBytes,
    nonce: nat,
    baseFeePerGas: BigIntBytes,
    timestamp: Option<Timestamp>)

  /** A `TransactionTrace`; `status` and `txType` are the raw protobuf enum codes. */
  datatype Trace = Trace(
    hash: seq<byte>,
    from: seq<byte>,
    to: seq<byte>,
    status: int,
    txType: int,
    value: BigIntBytes,
    gasUsed: nat,
    gasLimit: nat,
    gasPrice: BigIntBytes,
    maxFeePerGas: BigIntBytes,
    maxPriorityFeePerGas: BigIntBytes,
    nonce: nat,
    index: nat,
    returnData: seq<byte>,
    beginOrdinal: nat)

  datatype Block = Block(
    number: nat,
    hash: seq<byte>,
    header: Option<Header>,
    traces: seq<Trace>,
    balanceChanges: seq<BalanceChange>)

  /** The panics of the handler: the block's timestamp accessor unwraps the header and its
      timestamp; `from_i32(..).unwrap()` rejects unknown enum codes. */
  datatype TxError = MissingHeader | MissingTimestamp | UnknownStatus(status: int) | UnknownType(txType: int)

  /** `block.timestamp()`. */
  function BlockTime(block: Block): (r: Result<Timestamp, TxError>)
    ensures r.Ok? <==> block.header.Some? && block.header.value.timestamp.Some?
    ensures r.Ok? ==> r.value == block.header.value.timestamp.value
    ensures block.header.None? ==> r == Err(MissingHeader)
  {
    if block.header.None? then Err(MissingHeader)
    else if block.header.value.timestamp.None? then Err(MissingTimestamp)
    else Ok(block.header.value.timestamp.value)
  }

  // ---------------------------------------------------------------------------------------
  // Renderings
  // ---------------------------------------------------------------------------------------

  /** The value of unsigned big-endian bytes (`BigInt::from_unsigned_bytes_be`). */
  function BeValue(bs: seq<byte>): nat
    decreases |bs|
  {
    if bs == [] then 0 else 256 * BeValue(bs[..|bs| - 1]) + bs[|bs| - 1]
  }

  /** Leading zero bytes do not change the value. */
  lemma {:induction false} BeValueLeadingZero(bs: seq<byte>)
    ensures BeValue([0] + bs) == BeValue(bs)
    decreases |bs|
  {
    if bs != [] {
      var z := [0 as byte] + bs;
      assert z[..|z| - 1] == [0 as byte] + bs[..|bs| - 1];
      assert z[|z| - 1] == bs[|bs| - 1];
      BeValueLeadingZero(bs[..|bs| - 1]);
    } else {
      var z := [0 as byte];
      assert z[..|z| - 1] == [];
    }
  }

  /** `big_int_to_string`: a missing number reads as zero; otherwise the decimal rendering,
      which reads back as the bytes' value. */
  function BigIntToString(b: BigIntBytes): (r: string)
    ensures b.None? ==> r == "0"
    ensures AllDigits(r) && |r| >= 1
    ensures b.Some? ==> DigitsValue(r) == BeValue(b.value)
    ensures r[0] == '0' ==> r == "0"
  {
    match b
    case None => "0"
    case Some(bs) =>
      DigitsValueOfNatToString(BeValue(bs));
      NatToString(BeValue(bs))
  }

  /** A missing number, an empty byte string and a zero number all render as `"0"`. */
  lemma MissingLikeZero(bs: seq<byte>)
    requires BeValue(bs) == 0
    ensures BigIntToString(None) == BigIntToString(Some(bs)) == "0"
  {
  }

  /** `TransactionTraceStatus::from_i32(..).as_str_name()`, with its inverse. */
  function StatusName(code: int): (r: Option<string>)
    ensures r.Some? <==> 0 <= code <= 3
    ensures r.Some? ==> StatusCode(r.value) == Some(code)
  {
    if code == 0 then Some("UNKNOWN")
    else if code == 1 then Some("SUCCEEDED")
    else if code == 2 then Some("FAILED")
    else if code == 3 then Some("REVERTED")
    else None
  }

  function StatusCode(name: string): Option<int> {
    if name == "UNKNOWN" then Some(0)
    else if name == "SUCCEEDED" then Some(1)
    else if name == "FAILED" then Some(2)
    else if name == "REVERTED" then Some(3)
    else None
  }

  const STATUS_SUCCEEDED := 1

  /** `transaction_trace::Type::from_i32(..).as_str_name()`, with its inverse. */
  function TypeName(code: int): (r: Option<string>)
    ensures r.Some? <==> 0 <= code <= 2
    ensures r.Some? ==> TypeCode(r.value) == Some(code)
  {
    if code == 0 then Some("TRX_TYPE_LEGACY")
    else if code == 1 then Some("TRX_TYPE_ACCESS_LIST")
    else if code == 2 then Some("TRX_TYPE_DYNAMIC_FEE")
    else None
  }

  function TypeCode(name: string): Option<int> {
    if name == "TRX_TYPE_LEGACY" then Some(0)
    else if name == "TRX_TYPE_ACCESS_LIST" then Some(1)
    else if name == "TRX_TYPE_DYNAMIC_FEE" then Some(2)
    else None
  }

  // ---------------------------------------------------------------------------------------
  // The block change
  // ---------------------------------------------------------------------------------------

  /** The miner text when no balance change rewards the block: forty zeros. */
  const NO_MINER := "0000000000000000000000000000000000000000"

  /** The index of the first mining-reward balance change. */
  function FirstReward(bcs: seq<BalanceChange>): (r: Option<nat>)
    ensures r.None? <==> forall i :: 0 <= i < |bcs| ==> bcs[i].reason != REWARD_MINE_BLOCK
    ensures r.Some? ==> r.value < |bcs| && bcs[r.value].reason == REWARD_MINE_BLOCK &&
                        forall j :: 0 <= j < r.value ==> bcs[j].reason != REWARD_MINE_BLOCK
  {
    if bcs == [] then None
    else if bcs[0].reason == REWARD_MINE_BLOCK then Some(0)
    else match FirstReward(bcs[1..])
      case None => None
      case Some(k) => Some(k + 1)
  }

  /** The `miner` column: the first mining reward's beneficiary, in hex, or forty zeros. */
  function Miner(bcs: seq<BalanceChange>): (m: string)
    ensures FirstReward(bcs).None? ==> m == NO_MINER
    ensures FirstReward(bcs).Some? ==> m == Hex(bcs[FirstReward(bcs).value].address)
  {
    match FirstReward(bcs)
    case None => NO_MINER
    case Some(i) => Hex(bcs[i].address)
  }

  /** A block rewarding the zero address reads as a block with no reward. */
  lemma ZeroMinerAmbiguous(zero: seq<byte>)
    requires |zero| == 20 && forall i :: 0 <= i < 20 ==> zero[i] == 0
    ensures Miner([BalanceChange(zero, REWARD_MINE_BLOCK)]) == Miner([])
  {
    HexOfZeros(zero);
    assert Hex(zero) == NO_MINER;
  }

  lemma {:induction false} HexOfZeros(bs: seq<byte>)
    requires forall i :: 0 <= i < |bs| ==> bs[i] == 0
    ensures forall i :: 0 <= i < |Hex(bs)| ==> Hex(bs)[i] == '0'
    decreases |bs|
  {
    if bs != [] {
      HexOfZeros(bs[1..]);
      var h := Hex(bs);
      assert h == ['0', '0'] + Hex(bs[1..]);
    }
  }

  const BLOCKS_TABLE := "blocks"

  const BLOCK_COLUMNS: seq<string> :=
    ["parent_hash", "gas_limit", "gas_used", "miner", "difficulty", "total_difficulty", "nonce", "base_fee_per_gas"]

  function BlockKeys(block: Block, time: Timestamp, timeKey: Timestamp -> string): (keys: map<string, string>)
    ensures keys.Keys == {"time", "number", "hash"}
    ensures keys["hash"] == Hex(block.hash) && keys["number"] == NatToString(block.number)
  {
    map["time" := timeKey(time), "number" := NatToString(block.number), "hash" := Hex(block.hash)]
  }

  /** The block columns' values, aligned with `BLOCK_COLUMNS`. */
  function BlockValues(block: Block, h: Header): (vs: seq<string>)
    ensures |vs| == |BLOCK_COLUMNS|
  {
    [Hex(h.parentHash), NatToString(h.gasLimit), NatToString(h.gasUsed), Miner(block.balanceChanges),
     BigIntToString(h.difficulty), BigIntToString(h.totalDifficulty), NatToString(h.nonce),
     BigIntToString(h.baseFeePerGas)]
  }

  /** `create_block_change`. The timestamp is read before the `if let` on the header, so the
      header is always present once it is reached. */
  function CreateBlockChange(block: Block, timeKey: Timestamp -> string): (r: Result<TableChange, TxError>)
    ensures r.Ok? <==> BlockTime(block).Ok?
    ensures r.Err? ==> r.error == BlockTime(block).error
    ensures r.Ok? ==> && r.value.table == BLOCKS_TABLE && r.value.operation == Create
                      && r.value.ordinal == 0
                      && r.value.keys == BlockKeys(block, BlockTime(block).value, timeKey)
  {
    var time :- BlockTime(block);
    Ok(WriteAll(NewCreate(BLOCKS_TABLE, BlockKeys(block, time, timeKey), 0),
                Pairs(BLOCK_COLUMNS, BlockValues(block, block.header.value))))
  }

  /** The block row holds every block column, in order, each rendering the header field or
      reward it is named after; `miner` and `difficulty` fall back to the zero address and `"0"`. */
  lemma BlockColumns(block: Block, timeKey: Timestamp -> string)
    requires CreateBlockChange(block, timeKey).Ok?
    ensures var f := CreateBlockChange(block, timeKey).value.fields; var h := block.header.value;
            && FieldNames(f) == BLOCK_COLUMNS && |f| == |BLOCK_COLUMNS|
            && f[0] == Field("parent_hash", None, Hex(h.parentHash))
            && f[1] == Field("gas_limit", None, NatToString(h.gasLimit))
            && f[2] == Field("gas_used", None, NatToString(h.gasUsed))
            && f[3] == Field("miner", None, Miner(block.balanceChanges))
            && f[4] == Field("difficulty", None, BigIntToString(h.difficulty))
            && f[5] == Field("total_difficulty", None, BigIntToString(h.totalDifficulty))
            && f[6] == Field("nonce", None, NatToString(h.nonce))
            && f[7] == Field("base_fee_per_gas", None, BigIntToString(h.baseFeePerGas))
  {
    var time := BlockTime(block).value;
    var blank := NewCreate(BLOCKS_TABLE, BlockKeys(block, time, timeKey), 0);
    assert CreateBlockChange(block, timeKey).value
        == WriteAll(blank, Pairs(BLOCK_COLUMNS, BlockValues(block, block.header.value)));
    BlockRowFields(blank, block, block.header.value);
  }

  /** Each block column, written into an empty change, holds the value it is named after. */
  lemma BlockRowFields(tc: TableChange, block: Block, h: Header)
    requires tc.fields == []
    ensures var f := WriteAll(tc, Pairs(BLOCK_COLUMNS, BlockValues(block, h))).fields;
            && FieldNames(f) == BLOCK_COLUMNS && |f| == |BLOCK_COLUMNS|
            && f[0] == Field("parent_hash", None, Hex(h.parentHash))
            && f[1] == Field("gas_limit", None, NatToString(h.gasLimit))
            && f[2] == Field("gas_used", None, NatToString(h.gasUsed))
            && f[3] == Field("miner", None, Miner(block.balanceChanges))
            && f[4] == Field("difficulty", None, BigIntToString(h.difficulty))
            && f[5] == Field("total_difficulty", None, BigIntToString(h.totalDifficulty))
            && f[6] == Field("nonce", None, NatToString(h.nonce))
            && f[7] == Field("base_fee_per_gas", None, BigIntToString(h.baseFeePerGas))
  {
    WriteColumns(tc, BLOCK_COLUMNS, BlockValues(block, h));
  }

  // ---------------------------------------------------------------------------------------
  // Transaction changes
  // ---------------------------------------------------------------------------------------

  const TRANSACTIONS_TABLE := "transactions"

  const TX_COLUMNS: seq<string> :=
    ["status", "value", "success", "gas_used", "gas_limit", "gas_price", "max_fee_per_gas",
     "max_priority_fee_per_gas", "nonce", "index", "from", "to", "data", "type"]

  function TxKeys(tx: Trace, block: Block, time: Timestamp, timeKey: Timestamp -> string): (keys: map<string, string>)
    ensures keys.Keys == {"hash", "block_number", "block_time", "block_hash"}
    ensures keys["hash"] == Hex(tx.hash) && keys["block_hash"] == Hex(block.hash)
  {
    map["hash" := Hex(tx.hash), "block_number" := NatToString(block.number),
        "block_time" := timeKey(time), "block_hash" := Hex(block.hash)]
  }

  /** The transaction columns' values, aligned with `TX_COLUMNS`. */
  function TxValues(tx: Trace, status: string, txType: string): (vs: seq<string>)
    ensures |vs| == |TX_COLUMNS|
  {
    [status, BigIntToString(tx.value), BoolText(tx.status == STATUS_SUCCEEDED), NatToString(tx.gasUsed),
     NatToString(tx.gasLimit), BigIntToString(tx.gasPrice), BigIntToString(tx.maxFeePerGas),
     BigIntToString(tx.maxPriorityFeePerGas), NatToString(tx.nonce), NatToString(tx.index),
     Hex(tx.from), Hex(tx.to), Hex(tx.returnData), txType]
  }

  /** `create_transaction_change`: the block time first, then the status, then the type. */
  function CreateTransactionChange(tx: Trace, block: Block, timeKey: Timestamp -> string)
    : (r: Result<TableChange, TxError>)
    ensures r.Ok? <==> BlockTime(block).Ok? && StatusName(tx.status).Some? && TypeName(tx.txType).Some?
    ensures BlockTime(block).Ok? && StatusName(tx.status).None? ==> r == Err(UnknownStatus(tx.status))
    ensures r.Ok? ==> && r.value.table == TRANSACTIONS_TABLE && r.value.operation == Create
                      && r.value.ordinal == tx.beginOrdinal
                      && r.value.keys == TxKeys(tx, block, BlockTime(block).value, timeKey)
  {
    var time :- BlockTime(block);
    var status :- if StatusName(tx.status).Some? then Ok(StatusName(tx.status).value) else Err(UnknownStatus(tx.status));
    var txType :- if TypeName(tx.txType).Some? then Ok(TypeName(tx.txType).value) else Err(UnknownType(tx.txType));
    Ok(WriteAll(NewCreate(TRANSACTIONS_TABLE, TxKeys(tx, block, time, timeKey), tx.beginOrdinal),
                Pairs(TX_COLUMNS, TxValues(tx, status, txType))))
  }

  /** The transaction row holds every transaction column, in order, each rendering the trace
      field it is named after; `success` is `"true"` exactly when the status column reads
      `SUCCEEDED`. */
  lemma TransactionColumns(tx: Trace, block: Block, timeKey: Timestamp -> string)
    requires CreateTransactionChange(tx, block, timeKey).Ok?
    ensures var f := CreateTransactionChange(tx, block, timeKey).value.fields;
            && FieldNames(f) == TX_COLUMNS && |f| == |TX_COLUMNS|
            && f[0] == Field("status", None, StatusName(tx.status).value)
            && f[1] == Field("value", None, BigIntToString(tx.value))
            && f[2].name == "success" && f[2].oldValue == None
            && (f[2].newValue == "true" <==> StatusName(tx.status) == Some("SUCCEEDED"))
            && (f[2].newValue == "false" <==> StatusName(tx.status) != Some("SUCCEEDED"))
            && f[3] == Field("gas_used", None, NatToString(tx.gasUsed))
            && f[4] == Field("gas_limit", None, NatToString(tx.gasLimit))
            && f[5] == Field("gas_price", None, BigIntToString(tx.gasPrice))
            && f[6] == Field("max_fee_per_gas", None, BigIntToString(tx.maxFeePerGas))
            && f[7] == Field("max_priority_fee_per_gas", None, BigIntToString(tx.maxPriorityFeePerGas))
            && f[8] == Field("nonce", None, NatToString(tx.nonce))
            && f[9] == Field("index", None, NatToString(tx.index))
            && f[10] == Field("from", None, Hex(tx.from))
            && f[11] == Field("to", None, Hex(tx.to))
            && f[12] == Field("data", None, Hex(tx.returnData))
            && f[13] == Field("type", None, TypeName(tx.txType).value)
  {
    var time := BlockTime(block).value;
    var blank := NewCreate(TRANSACTIONS_TABLE, TxKeys(tx, block, time, timeKey), tx.beginOrdinal);
    assert CreateTransactionChange(tx, block, timeKey).value
        == WriteAll(blank, Pairs(TX_COLUMNS, TxValues(tx, StatusName(tx.status).value, TypeName(tx.txType).value)));
    TxRowFields(blank, tx, StatusName(tx.status).value, TypeName(tx.txType).value);
  }

  /** Each transaction column, written into an empty change, holds the value it is named after;
      `success` is the status code compared with `SUCCEEDED`'s. */
  lemma TxRowFields(tc: TableChange, tx: Trace, status: string, txType: string)
    requires tc.fields == []
    ensures var f := WriteAll(tc, Pairs(TX_COLUMNS, TxValues(tx, status, txType))).fields;
            && FieldNames(f) == TX_COLUMNS && |f| == |TX_COLUMNS|
            && f[0] == Field("status", None, status)
            && f[1] == Field("value", None, BigIntToString(tx.value))
            && f[2] == Field("success", None, BoolText(tx.status == STATUS_SUCCEEDED))
            && f[3] == Field("gas_used", None, NatToString(tx.gasUsed))
            && f[4] == Field("gas_limit", None, NatToString(tx.gasLimit))
            && f[5] == Field("gas_price", None, BigIntToString(tx.gasPrice))
            && f[6] == Field("max_fee_per_gas", None, BigIntToString(tx.maxFeePerGas))
            && f[7] == Field("max_priority_fee_per_gas", None, BigIntToString(tx.maxPriorityFeePerGas))
            && f[8] == Field("nonce", None, NatToString(tx.nonce))
            && f[9] == Field("index", None, NatToString(tx.index))
            && f[10] == Field("from", None, Hex(tx.from))
            && f[11] == Field("to", None, Hex(tx.to))
            && f[12] == Field("data", None, Hex(tx.returnData))
            && f[13] == Field("type", None, txType)
  {
    var vs := TxValues(tx, status, txType);
    WriteColumns(tc, TX_COLUMNS, vs);
    // Instantiating the column-wise equality once, over the whole row, keeps the proof small.
    var f := WriteAll(tc, Pairs(TX_COLUMNS, vs)).fields;
    forall i | 0 <= i < |TX_COLUMNS|
      ensures f[i] == Field(TX_COLUMNS[i], None, vs[i])
    {
    }
  }

  /** One change per trace, in trace order; the first failure wins. */
  function TransactionChanges(traces: seq<Trace>, block: Block, timeKey: Timestamp -> string)
    : (r: Result<seq<TableChange>, TxError>)
    ensures r.Ok? <==> forall i :: 0 <= i < |traces| ==> CreateTransactionChange(traces[i], block, timeKey).Ok?
    ensures r.Ok? ==>
              && |r.value| == |traces|
              && forall i :: 0 <= i < |traces| ==> r.value[i] == CreateTransactionChange(traces[i], block, timeKey).value
    ensures r.Ok? ==>
              forall i :: 0 <= i < |traces| ==>
                r.value[i].table == TRANSACTIONS_TABLE && r.value[i].ordinal == traces[i].beginOrdinal
  {
    MapResult((tx: Trace) => CreateTransactionChange(tx, block, timeKey), traces)
  }

  /** `db_out`: the block row, then one transaction row per trace. A block without a header
      fails, whatever its traces. */
  function DbOut(block: Block, timeKey: Timestamp -> string): (r: Result<seq<TableChange>, TxError>)
    ensures block.header.None? ==> r == Err(MissingHeader)
    ensures r.Ok? <==>
              && BlockTime(block).Ok?
              && forall i :: 0 <= i < |block.traces| ==>
                   StatusName(block.traces[i].status).Some? && TypeName(block.traces[i].txType).Some?
    ensures r.Ok? ==>
              && |r.value| == 1 + |block.traces|
              && r.value[0] == CreateBlockChange(block, timeKey).value
              && r.value[0].table == BLOCKS_TABLE
              && forall i :: 1 <= i < |r.value| ==>
                   r.value[i].table == TRANSACTIONS_TABLE && r.value[i].ordinal == block.traces[i - 1].beginOrdinal
    ensures r.Ok? ==> forall i :: 1 <= i < |r.value| ==>
                        r.value[i] == CreateTransactionChange(block.traces[i - 1], block, timeKey).value
  {
    var blockChange := CreateBlockChange(block, timeKey);
    if blockChange.Err? then Err(blockChange.error)
    else
      var txs := TransactionChanges(block.traces, block, timeKey);
      if txs.Err? then Err(txs.error)
      else
        var rows := [blockChange.value] + txs.value;
        ConsIndex(blockChange.value, txs.value);
        Ok(rows)
  }
}

=== FILE: uniswapx.dfy ===
/** The UniswapX fills extractor: from the `Fill` logs of the tracked reactor, classify the
    enclosing call by its 4-byte selector, decode its order(s) and flatten them into wire
    records; then turn each order into one `exclusive_dutch_auction_fills` row.
    The call decoders, `Fill::match_log` and `ethabi::decode` are parameters. */
module UniswapX {
  import opened Wrappers
  import opened Text
  import opened Changes
  import opened DutchOrder
  import opened Chain

  /** The UniswapX reactor whose fills are tracked, 0x6000da47483062a0d734ba3dc7576ce6a0b645c4. */
  const TRACKED_CONTRACT: seq<byte> :=
    [0x60, 0x00, 0xda, 0x47, 0x48, 0x30, 0x62, 0xa0, 0xd7, 0x34,
     0xba, 0x3d, 0xc7, 0x57, 0x6c, 0xe6, 0xa0, 0xb6, 0x45, 0xc4]

  /** The protocol fee recipient, 0x37a8f295612602f2774d331e562be9e61b83a327. */
  const UNISWAP_FEE_RECIPIENT: seq<byte> :=
    [0x37, 0xa8, 0xf2, 0x95, 0x61, 0x26, 0x02, 0xf2, 0x77, 0x4d,
     0x33, 0x1e, 0x56, 0x2b, 0xe9, 0xe6, 0x1b, 0x83, 0xa3, 0x27]

  const EXECUTE: seq<byte> := [63, 98, 25, 46]
  const EXECUTE_WITH_CALLBACK: seq<byte> := [13, 51, 88, 132]
  const EXECUTE_BATCH: seq<byte> := [13, 122, 22, 195]
  const EXECUTE_BATCH_WITH_CALLBACK: seq<byte> := [19, 251, 114, 199]

  /** The four reactor entry points. */
  datatype Selector = Execute | ExecuteWithCallback | ExecuteBatch | ExecuteBatchWithCallback {
    predicate IsBatch() {
      this == ExecuteBatch || this == ExecuteBatchWithCallback
    }
  }

  function SelectorBytes(k: Selector): seq<byte> {
    match k
    case Execute => EXECUTE
    case ExecuteWithCallback => EXECUTE_WITH_CALLBACK
    case ExecuteBatch => EXECUTE_BATCH
    case ExecuteBatchWithCallback => EXECUTE_BATCH_WITH_CALLBACK
  }

  /** The four selector constants are pairwise distinct, so classification is unambiguous. */
  lemma SelectorBytesInjective(a: Selector, b: Selector)
    ensures SelectorBytes(a) == SelectorBytes(b) ==> a == b
  {
    if a != b {
      assert SelectorBytes(a)[0] != SelectorBytes(b)[0] || SelectorBytes(a)[1] != SelectorBytes(b)[1];
    }
  }

  datatype FillError =
    | MissingHeader        // `blk.header.as_ref().unwrap()`
    | MissingTimestamp     // `timestamp.as_ref().unwrap()`
    | ShortInput           // `call.input[0..4]` on fewer than 4 bytes
    | UnknownFunction      // `panic!("Unknown function")`
    | CallDecodeFailed     // `Execute::decode(..).unwrap()` and friends
    | OrderFailed(reason: OrderError)
    | MissingMessage       // `unwrap()` of an absent message field in `db_out`

  /** The selector of a call input; fewer than 4 bytes or an unknown selector is a failure, not
      a skip. */
  function Classify(input: seq<byte>): (r: Result<Selector, FillError>)
    ensures |input| < 4 <==> r == Err(ShortInput)
    ensures r.Ok? ==> |input| >= 4 && input[..4] == SelectorBytes(r.value)
    ensures r == Err(UnknownFunction) <==>
              |input| >= 4 && forall k: Selector :: input[..4] != SelectorBytes(k)
  {
    if |input| < 4 then Err(ShortInput)
    else
      var sig := input[..4];
      if sig == EXECUTE then Ok(Execute)
      else if sig == EXECUTE_WITH_CALLBACK then Ok(ExecuteWithCallback)
      else if sig == EXECUTE_BATCH then Ok(ExecuteBatch)
      else if sig == EXECUTE_BATCH_WITH_CALLBACK then Ok(ExecuteBatchWithCallback)
      else Err(UnknownFunction)
  }

  // ---------------------------------------------------------------------------------------
  // Block shape and external decoders
  // ---------------------------------------------------------------------------------------

  datatype Log = Log(address: seq<byte>, index: nat, topics: seq<seq<byte>>, data: seq<byte>)

  datatype Call = Call(caller: seq<byte>, input: seq<byte>)

  datatype Transaction = Transaction(hash: seq<byte>, from: seq<byte>, to: seq<byte>)

  /** One item of `transactions().flat_map(logs_with_calls)`: a log, the call that emitted it
      and that call's transaction. */
  datatype LogWithCall = LogWithCall(log: Log, call: Call, tx: Transaction)

  datatype Header = Header(number: nat, timestamp: Option<Timestamp>)

  datatype Block = Block(header: Option<Header>, logsWithCalls: seq<LogWithCall>)

  /** The generated and library decoders the handler calls, as opaque functions: the four call
      decoders give the encoded order(s) of a call (`.order` / `.orders`, signatures dropped),
      `abiDecode` is `ethabi::decode` of one encoded order. */
  datatype Decoders = Decoders(
    isFill: Log -> bool,
    execute: seq<byte> -> Option<seq<byte>>,
    executeWithCallback: seq<byte> -> Option<seq<byte>>,
    executeBatch: seq<byte> -> Option<seq<seq<byte>>>,
    executeBatchWithCallback: seq<byte> -> Option<seq<seq<byte>>>,
    abiDecode: seq<byte> -> Option<seq<Token>>)

  /** Logs of the tracked reactor that are `Fill` events. */
  predicate Tracked(d: Decoders, lc: LogWithCall) {
    lc.log.address == TRACKED_CONTRACT && d.isFill(lc.log)
  }

  /** The encoded orders of a classified call: one for the single entry points, the decoded
      list for the batch ones. */
  function DecodeCall(d: Decoders, k: Selector, input: seq<byte>): (r: Result<seq<seq<byte>>, FillError>)
    ensures r.Err? ==> r.error == CallDecodeFailed
    ensures r.Ok? && !k.IsBatch() ==> |r.value| == 1
    ensures k == Execute ==> (r.Ok? <==> d.execute(input).Some?) &&
                             (r.Ok? ==> r.value == [d.execute(input).value])
    ensures k == ExecuteWithCallback ==> (r.Ok? <==> d.executeWithCallback(input).Some?) &&
                                         (r.Ok? ==> r.value == [d.executeWithCallback(input).value])
    ensures k == ExecuteBatch ==> (r.Ok? <==> d.executeBatch(input).Some?) &&
                                  (r.Ok? ==> r.value == d.executeBatch(input).value)
    ensures k == ExecuteBatchWithCallback ==> (r.Ok? <==> d.executeBatchWithCallback(input).Some?) &&
                                              (r.Ok? ==> r.value == d.executeBatchWithCallback(input).value)
  {
    var decoded := match k
      case Execute => if d.execute(input).Some? then Some([d.execute(input).value]) else None
      case ExecuteWithCallback =>
        if d.executeWithCallback(input).Some? then Some([d.executeWithCallback(input).value]) else None
      case ExecuteBatch => d.executeBatch(input)
      case ExecuteBatchWithCallback => d.executeBatchWithCallback(input);
    if decoded.Some? then Ok(decoded.value) else Err(CallDecodeFailed)
  }

  /** The `TransactionInfo` shared by every order of one call. */
  function TxInfoOf(lc: LogWithCall, now: i64, number: nat): TransactionInfo {
    TransactionInfo(lc.tx.from, lc.tx.to, lc.call.caller, now, number, lc.tx.hash, lc.log.index)
  }

  /** `ExclusiveDutchOrder::try_from(order).unwrap()` followed by `into_proto`. */
  function OrderToProto(d: Decoders, encoded: seq<byte>, tx: TransactionInfo): (r: Result<ProtoOrder, FillError>)
    ensures r.Ok? ==> r.value.txInfo == Some(tx)
    ensures d.abiDecode(encoded).None? ==> r == Err(OrderFailed(AbiDecodeFailed))
    ensures OrderFromDecoded(d.abiDecode(encoded)).Err? ==>
              r == Err(OrderFailed(OrderFromDecoded(d.abiDecode(encoded)).error))
    ensures OrderFromDecoded(d.abiDecode(encoded)).Ok? ==>
              var p := IntoProto(OrderFromDecoded(d.abiDecode(encoded)).value, tx);
              && (r.Ok? <==> p.Ok?)
              && (r.Ok? ==> r.value == p.value)
              && (r.Err? ==> r.error == OrderFailed(p.error))
  {
    var order :- match OrderFromDecoded(d.abiDecode(encoded))
      case Ok(o) => Ok(o)
      case Err(e) => Err(OrderFailed(e));
    match IntoProto(order, tx)
    case Ok(p) => Ok(p)
    case Err(e) => Err(OrderFailed(e))
  }

  /** Each encoded order converted in turn; the first failure fails the call. */
  function OrdersToProto(d: Decoders, encoded: seq<seq<byte>>, tx: TransactionInfo)
    : (r: Result<seq<ProtoOrder>, FillError>)
    ensures r.Ok? <==> forall i :: 0 <= i < |encoded| ==> OrderToProto(d, encoded[i], tx).Ok?
    ensures r.Ok? ==> |r.value| == |encoded|
    ensures r.Ok? ==> forall i :: 0 <= i < |encoded| ==> r.value[i] == OrderToProto(d, encoded[i], tx).value
    ensures r.Ok? ==> forall i :: 0 <= i < |r.value| ==> r.value[i].txInfo == Some(tx)
  {
    MapResult((e: seq<byte>) => OrderToProto(d, e, tx), encoded)
  }

  /** All orders of one tracked log's call, each carrying that call's transaction info. */
  function FillsOfCall(d: Decoders, lc: LogWithCall, now: i64, number: nat)
    : (r: Result<seq<ProtoOrder>, FillError>)
    ensures Classify(lc.call.input).Err? ==> r == Err(Classify(lc.call.input).error)
    ensures r.Ok? ==> forall i :: 0 <= i < |r.value| ==> r.value[i].txInfo == Some(TxInfoOf(lc, now, number))
    ensures r.Ok? && !Classify(lc.call.input).value.IsBatch() ==> |r.value| == 1
    ensures Classify(lc.call.input).Ok? ==>
              var decoded := DecodeCall(d, Classify(lc.call.input).value, lc.call.input);
              && (decoded.Err? ==> r == Err(decoded.error))
              && (decoded.Ok? ==> r == OrdersToProto(d, decoded.value, TxInfoOf(lc, now, number)))
  {
    var tx := TxInfoOf(lc, now, number);
    var k :- Classify(lc.call.input);
    var encoded :- DecodeCall(d, k, lc.call.input);
    OrdersToProto(d, encoded, tx)
  }

  /** The orders one item contributes: none for an untracked item, otherwise its call's. */
  function ItemFills(d: Decoders, lc: LogWithCall, now: i64, number: nat): (r: Result<seq<ProtoOrder>, FillError>)
    ensures !Tracked(d, lc) ==> r.Ok? && r.value == []
    ensures Tracked(d, lc) ==> r == FillsOfCall(d, lc, now, number)
  {
    if Tracked(d, lc) then FillsOfCall(d, lc, now, number) else Ok([])
  }

  /** The tracked items in order, each expanded into its orders; any failure fails the block. */
  function CollectFills(d: Decoders, items: seq<LogWithCall>, now: i64, number: nat)
    : (r: Result<seq<ProtoOrder>, FillError>)
    ensures r.Ok? <==> forall i :: 0 <= i < |items| ==> ItemFills(d, items[i], now, number).Ok?
    ensures items == [] ==> r == Ok([])
  {
    FlatMapOkIff((lc: LogWithCall) => ItemFills(d, lc, now, number), items);
    FlatMap((lc: LogWithCall) => ItemFills(d, lc, now, number), items)
  }

  /** `map_fills`. */
  function MapFills(d: Decoders, blk: Block): (r: Result<seq<ProtoOrder>, FillError>)
    ensures blk.header.None? ==> r == Err(MissingHeader)
    ensures blk.header.Some? && blk.header.value.timestamp.None? ==> r == Err(MissingTimestamp)
    ensures blk.header.Some? && blk.header.value.timestamp.Some? ==>
              r == CollectFills(d, blk.logsWithCalls, blk.header.value.timestamp.value.seconds,
                                blk.header.value.number)
  {
    var header :- if blk.header.Some? then Ok(blk.header.value) else Err(MissingHeader);
    var ts :- if header.timestamp.Some? then Ok(header.timestamp.value) else Err(MissingTimestamp);
    CollectFills(d, blk.logsWithCalls, ts.seconds, header.number)
  }

  // ---------------------------------------------------------------------------------------
  // Properties of map_fills
  // ---------------------------------------------------------------------------------------

  /** Flattening preserves order: the fills of a concatenation are the fills of the first part
      followed by those of the second, and a failure in the first part is the block's failure. */
  lemma CollectFillsAppend(d: Decoders, a: seq<LogWithCall>, b: seq<LogWithCall>, now: i64, number: nat)
    ensures CollectFills(d, a + b, now, number).Ok? <==>
              CollectFills(d, a, now, number).Ok? && CollectFills(d, b, now, number).Ok?
    ensures CollectFills(d, a + b, now, number).Ok? ==>
              CollectFills(d, a + b, now, number).value ==
                CollectFills(d, a, now, number).value + CollectFills(d, b, now, number).value
    ensures CollectFills(d, a, now, number).Err? ==>
              CollectFills(d, a + b, now, number) == CollectFills(d, a, now, number)
  {
    FlatMapAppend((lc: LogWithCall) => ItemFills(d, lc, now, number), a, b);
  }

  /** One item yields exactly its own orders; with `CollectFillsAppend` this gives the block's
      fills as the items' fills in item order, each call's orders in the call's own order. */
  lemma CollectFillsSingle(d: Decoders, lc: LogWithCall, now: i64, number: nat)
    ensures CollectFills(d, [lc], now, number) == ItemFills(d, lc, now, number)
  {
    var f := (x: LogWithCall) => ItemFills(d, x, now, number);
    FlatMapUnfold(f, [lc]);
    assert [lc][1..] == [];
    if f(lc).Ok? {
      assert f(lc).value + [] == f(lc).value;
    }
  }

  /** A tracked `execute` call whose order decodes yields exactly that order's wire record: its
      fills are `into_proto` of the decoded order, at the block time, with the call's
      transaction info. */
  lemma ExecuteFills(d: Decoders, lc: LogWithCall, now: i64, number: nat)
    requires Tracked(d, lc)
    requires Classify(lc.call.input) == Ok(Execute) && d.execute(lc.call.input).Some?
    requires OrderFromDecoded(d.abiDecode(d.execute(lc.call.input).value)).Ok?
    ensures var p := IntoProto(OrderFromDecoded(d.abiDecode(d.execute(lc.call.input).value)).value,
                               TxInfoOf(lc, now, number));
            && (CollectFills(d, [lc], now, number).Ok? <==> p.Ok?)
            && (p.Ok? ==> CollectFills(d, [lc], now, number).value == [p.value])
  {
    CollectFillsSingle(d, lc, now, number);
  }

  /** A tracked batch call yields one wire record per encoded order, in the batch's order. */
  lemma BatchFillsInOrder(d: Decoders, lc: LogWithCall, now: i64, number: nat)
    requires Tracked(d, lc)
    requires Classify(lc.call.input) == Ok(ExecuteBatch) && d.executeBatch(lc.call.input).Some?
    ensures var encoded := d.executeBatch(lc.call.input).value;
            var fills := CollectFills(d, [lc], now, number);
            && (fills.Ok? <==> forall i :: 0 <= i < |encoded| ==> OrderToProto(d, encoded[i], TxInfoOf(lc, now, number)).Ok?)
            && (fills.Ok? ==> |fills.value| == |encoded|)
            && (fills.Ok? ==> forall i :: 0 <= i < |encoded| ==>
                                fills.value[i] == OrderToProto(d, encoded[i], TxInfoOf(lc, now, number)).value)
  {
    CollectFillsSingle(d, lc, now, number);
  }

  /** Items that are not tracked `Fill` logs contribute nothing and cannot fail, whatever their
      call input. */
  lemma CollectFillsSkipsUntracked(d: Decoders, items: seq<LogWithCall>, now: i64, number: nat)
    requires forall i :: 0 <= i < |items| ==> !Tracked(d, items[i])
    ensures CollectFills(d, items, now, number).Ok? && CollectFills(d, items, now, number).value == []
  {
    FlatMapEmpty((lc: LogWithCall) => ItemFills(d, lc, now, number), items);
  }

  /** A tracked log whose call has an unknown selector (or a too-short input) fails the whole
      block: it is never skipped. */
  lemma UnknownSelectorFailsBlock(d: Decoders, items: seq<LogWithCall>, i: nat, now: i64, number: nat)
    requires i < |items| && Tracked(d, items[i])
    requires Classify(items[i].call.input).Err?
    ensures CollectFills(d, items, now, number).Err?
  {
    FlatMapFails((lc: LogWithCall) => ItemFills(d, lc, now, number), items, i);
  }

  /** Every order the block yields carries the transaction info of some tracked item. */
  lemma CollectFillsTxInfo(d: Decoders, items: seq<LogWithCall>, now: i64, number: nat, o: ProtoOrder)
    requires CollectFills(d, items, now, number).Ok? && o in CollectFills(d, items, now, number).value
    ensures exists i :: 0 <= i < |items| && Tracked(d, items[i]) && o.txInfo == Some(TxInfoOf(items[i], now, number))
  {
    var f := (lc: LogWithCall) => ItemFills(d, lc, now, number);
    FlatMapOrigin(f, items, o);
    var i :| 0 <= i < |items| && f(items[i]).Ok? && o in f(items[i]).value;
    var k :| 0 <= k < |f(items[i]).value| && f(items[i]).value[k] == o;
  }

  // ---------------------------------------------------------------------------------------
  // db_out
  // ---------------------------------------------------------------------------------------

  const FILLS_TABLE := "exclusive_dutch_auction_fills"

  predicate IsFee(o: ProtoOutput) {
    o.recipient == UNISWAP_FEE_RECIPIENT
  }

  /** Every output goes to the fee recipient (vacuously so for no outputs). */
  predicate AllFee(outputs: seq<ProtoOutput>) {
    forall k :: 0 <= k < |outputs| ==> IsFee(outputs[k])
  }

  /** The index of the first output whose fee-ness is `fee`, if any. */
  function FirstWhere(outputs: seq<ProtoOutput>, fee: bool): (r: Option<nat>)
    ensures r.Some? ==> r.value < |outputs| && IsFee(outputs[r.value]) == fee &&
                        forall k :: 0 <= k < r.value ==> IsFee(outputs[k]) != fee
    ensures r.None? ==> forall k :: 0 <= k < |outputs| ==> IsFee(outputs[k]) != fee
  {
    if outputs == [] then None
    else if IsFee(outputs[0]) == fee then Some(0)
    else match FirstWhere(outputs[1..], fee)
      case None => None
      case Some(j) => Some(j + 1)
  }

  /** The composite key of a fill row. */
  function FillKeys(tx: TransactionInfo): (keys: map<string, string>)
    ensures keys.Keys == {"tx_block_time", "tx_block_number", "tx_hash", "tx_log_index"}
    ensures keys["tx_hash"] == Hex(tx.txHash)
  {
    map["tx_block_time" := IntToString(tx.blockTime),
        "tx_block_number" := NatToString(tx.blockNumber),
        "tx_hash" := Hex(tx.txHash),
        "tx_log_index" := NatToString(tx.logIndex)]
  }

  /** The column names of a fill row, in the order they are set. */
  const FILL_COLUMNS: seq<string> := [
    "reactor", "swapper", "nonce", "deadline", "additional_validation_contract",
    "additional_validation_data", "tx_from", "tx_to", "tx_caller", "decay_start_time",
    "decay_end_time", "exclusive_filler", "exclusivity_override_bps", "input_token",
    "input_start_amount", "input_end_amount", "input_decayed_amount", "output_token",
    "output_recipient", "output_start_amount", "output_end_amount", "output_decayed_amount",
    "fee_decayed_amount"]

  /** The column values of a fill row, aligned with `FILL_COLUMNS`. */
  function FillValues(info: ProtoOrderInfo, tx: TransactionInfo, order: ProtoOrder, input: ProtoInput,
                      output: ProtoOutput, decayedFee: string): (vs: seq<string>)
    ensures |vs| == |FILL_COLUMNS|
  {
    [Hex(info.reactor), Hex(info.swapper), info.nonce, info.deadline,
     Hex(info.validationContract), Hex(info.validationData),
     Hex(tx.from), Hex(tx.to), Hex(tx.caller),
     order.decayStartTime, order.decayEndTime, Hex(order.exclusiveFiller), order.exclusivityOverrideBps,
     Hex(input.token), input.startAmount, input.endAmount, input.decayedAmount,
     Hex(output.token), Hex(output.recipient), output.startAmount, output.endAmount, output.decayedAmount,
     decayedFee]
  }

  /** The output and fee columns of a fill row come from the chosen output and the fee amount. */
  lemma FillValuesAt(info: ProtoOrderInfo, tx: TransactionInfo, order: ProtoOrder, input: ProtoInput,
                     output: ProtoOutput, decayedFee: string)
    ensures var vs := FillValues(info, tx, order, input, output, decayedFee);
            && vs[17] == Hex(output.token) && vs[18] == Hex(output.recipient)
            && vs[21] == output.decayedAmount && vs[22] == decayedFee
  {
  }

  /** The fee output's decayed amount, or `"0"` when no output goes to the fee recipient. */
  function FeeDecayed(outputs: seq<ProtoOutput>): (fee: string)
    ensures (forall k :: 0 <= k < |outputs| ==> !IsFee(outputs[k])) ==> fee == "0"
    ensures forall k :: (0 <= k < |outputs| && IsFee(outputs[k]) &&
                         forall m :: 0 <= m < k ==> !IsFee(outputs[m])) ==> fee == outputs[k].decayedAmount
  {
    match FirstWhere(outputs, true)
    case Some(f) => outputs[f].decayedAmount
    case None => "0"
  }

  /** The row of an order whose messages are present: `None` exactly when every output goes to
      the fee recipient; otherwise a `Create` of one fill row keyed by the transaction. */
  function RowOf(tx: TransactionInfo, info: ProtoOrderInfo, input: ProtoInput, order: ProtoOrder)
    : (r: Option<TableChange>)
    ensures r.None? <==> AllFee(order.outputs)
    ensures r.Some? ==>
              && r.value.table == FILLS_TABLE && r.value.operation == Create && r.value.ordinal == 0
              && r.value.keys == FillKeys(tx)
  {
    match FirstWhere(order.outputs, false)
    case None => None
    case Some(j) =>
      var values := FillValues(info, tx, order, input, order.outputs[j], FeeDecayed(order.outputs));
      Some(WriteAll(NewCreate(FILLS_TABLE, FillKeys(tx), 0), Pairs(FILL_COLUMNS, values)))
  }

  /** A fill row holds every column `db_out` sets, from the message `db_out` takes it from: the
      order info, the transaction info, the order, the input, the first output that does not go
      to the fee recipient, and the first fee output's decayed amount (or `"0"`). */
  lemma RowOfDescribes(tx: TransactionInfo, info: ProtoOrderInfo, input: ProtoInput, order: ProtoOrder)
    requires !AllFee(order.outputs)
    ensures var f := RowOf(tx, info, input, order).value.fields;
            && FieldNames(f) == FILL_COLUMNS && |f| == |FILL_COLUMNS|
            && f[0] == Field("reactor", None, Hex(info.reactor))
            && f[1] == Field("swapper", None, Hex(info.swapper))
            && f[2] == Field("nonce", None, info.nonce)
            && f[3] == Field("deadline", None, info.deadline)
            && f[4] == Field("additional_validation_contract", None, Hex(info.validationContract))
            && f[5] == Field("additional_validation_data", None, Hex(info.validationData))
            && f[6] == Field("tx_from", None, Hex(tx.from))
            && f[7] == Field("tx_to", None, Hex(tx.to))
            && f[8] == Field("tx_caller", None, Hex(tx.caller))
            && f[9] == Field("decay_start_time", None, order.decayStartTime)
            && f[10] == Field("decay_end_time", None, order.decayEndTime)
            && f[11] == Field("exclusive_filler", None, Hex(order.exclusiveFiller))
            && f[12] == Field("exclusivity_override_bps", None, order.exclusivityOverrideBps)
            && f[13] == Field("input_token", None, Hex(input.token))
            && f[14] == Field("input_start_amount", None, input.startAmount)
            && f[15] == Field("input_end_amount", None, input.endAmount)
            && f[16] == Field("input_decayed_amount", None, input.decayedAmount)
            && f[22] == Field("fee_decayed_amount", None, FeeDecayed(order.outputs))
            && exists j :: 0 <= j < |order.outputs| && !IsFee(order.outputs[j]) &&
                 (forall k :: 0 <= k < j ==> IsFee(order.outputs[k])) &&
                 f[17] == Field("output_token", None, Hex(order.outputs[j].token)) &&
                 f[18] == Field("output_recipient", None, Hex(order.outputs[j].recipient)) &&
                 f[19] == Field("output_start_amount", None, order.outputs[j].startAmount) &&
                 f[20] == Field("output_end_amount", None, order.outputs[j].endAmount) &&
                 f[21] == Field("output_decayed_amount", None, order.outputs[j].decayedAmount)
  {
    var j := FirstWhere(order.outputs, false).value;
    var blank := NewCreate(FILLS_TABLE, FillKeys(tx), 0);
    var values := FillValues(info, tx, order, input, order.outputs[j], FeeDecayed(order.outputs));
    assert RowOf(tx, info, input, order).value == WriteAll(blank, Pairs(FILL_COLUMNS, values));
    FillRowFields(blank, info, tx, order, input, order.outputs[j], FeeDecayed(order.outputs));
  }

  /** Writing the fill columns into an empty change gives exactly the fill column names, each
      holding the value at its position. */
  lemma FillFields(tc: TableChange, values: seq<string>)
    requires tc.fields == [] && |values| == |FILL_COLUMNS|
    ensures var fields := WriteAll(tc, Pairs(FILL_COLUMNS, values)).fields;
            && FieldNames(fields) == FILL_COLUMNS
            && (forall i :: 0 <= i < |FILL_COLUMNS| ==> fields[i] == Field(FILL_COLUMNS[i], None, values[i]))
            && fields[17] == Field("output_token", None, values[17])
            && fields[18] == Field("output_recipient", None, values[18])
            && fields[21] == Field("output_decayed_amount", None, values[21])
            && fields[22] == Field("fee_decayed_amount", None, values[22])
  {
    WriteColumns(tc, FILL_COLUMNS, values);
  }

  /** Each fill column, written into an empty change, holds the message field it is named after. */
  lemma FillRowFields(tc: TableChange, info: ProtoOrderInfo, tx: TransactionInfo, order: ProtoOrder,
                      input: ProtoInput, output: ProtoOutput, decayedFee: string)
    requires tc.fields == []
    ensures var f := WriteAll(tc, Pairs(FILL_COLUMNS, FillValues(info, tx, order, input, output, decayedFee))).fields;
            && FieldNames(f) == FILL_COLUMNS && |f| == |FILL_COLUMNS|
            && f[0] == Field("reactor", None, Hex(info.reactor))
            && f[1] == Field("swapper", None, Hex(info.swapper))
            && f[2] == Field("nonce", None, info.nonce)
            && f[3] == Field("deadline", None, info.deadline)
            && f[4] == Field("additional_validation_contract", None, Hex(info.validationContract))
            && f[5] == Field("additional_validation_data", None, Hex(info.validationData))
            && f[6] == Field("tx_from", None, Hex(tx.from))
            && f[7] == Field("tx_to", None, Hex(tx.to))
            && f[8] == Field("tx_caller", None, Hex(tx.caller))
            && f[9] == Field("decay_start_time", None, order.decayStartTime)
            && f[10] == Field("decay_end_time", None, order.decayEndTime)
            && f[11] == Field("exclusive_filler", None, Hex(order.exclusiveFiller))
            && f[12] == Field("exclusivity_override_bps", None, order.exclusivityOverrideBps)
            && f[13] == Field("input_token", None, Hex(input.token))
            && f[14] == Field("input_start_amount", None, input.startAmount)
            && f[15] == Field("input_end_amount", None, input.endAmount)
            && f[16] == Field("input_decayed_amount", None, input.decayedAmount)
            && f[17] == Field("output_token", None, Hex(output.token))
            && f[18] == Field("output_recipient", None, Hex(output.recipient))
            && f[19] == Field("output_start_amount", None, output.startAmount)
            && f[20] == Field("output_end_amount", None, output.endAmount)
            && f[21] == Field("output_decayed_amount", None, output.decayedAmount)
            && f[22] == Field("fee_decayed_amount", None, decayedFee)
  {
    FillFields(tc, FillValues(info, tx, order, input, output, decayedFee));
  }

  /** One order's row. The transaction info, order info and input are unwrapped before the
      fee-only test, so a missing one fails even for an order that would be skipped. */
  function FillRow(order: ProtoOrder): (r: Result<Option<TableChange>, FillError>)
    ensures r.Ok? <==> order.txInfo.Some? && order.info.Some? && order.input.Some?
    ensures r.Err? ==> r.error == MissingMessage
    ensures r.Ok? ==> r.value == RowOf(order.txInfo.value, order.info.value, order.input.value, order)
  {
    var tx :- if order.txInfo.Some? then Ok(order.txInfo.value) else Err(MissingMessage);
    var info :- if order.info.Some? then Ok(order.info.value) else Err(MissingMessage);
    var input :- if order.input.Some? then Ok(order.input.value) else Err(MissingMessage);
    Ok(RowOf(tx, info, input, order))
  }

  /** The messages `db_out` unwraps are all present. */
  predicate Complete(order: ProtoOrder) {
    order.txInfo.Some? && order.info.Some? && order.input.Some?
  }

  /** What one order contributes: its row, if it has one. */
  function OrderRows(order: ProtoOrder): (r: Result<seq<TableChange>, FillError>)
    ensures r.Ok? <==> Complete(order)
    ensures r.Ok? ==> |r.value| <= 1
    ensures r.Ok? ==> (r.value == [] <==> AllFee(order.outputs))
    ensures r.Ok? && r.value != [] ==> r.value[0].table == FILLS_TABLE && r.value[0].keys == FillKeys(order.txInfo.value)
  {
    var row :- FillRow(order);
    if row.Some? then Ok([row.value]) else Ok([])
  }

  /** `db_out`: one row per order that has a non-fee output, in order. */
  function DbOut(orders: seq<ProtoOrder>): (r: Result<seq<TableChange>, FillError>)
    ensures r.Ok? <==> forall i :: 0 <= i < |orders| ==> Complete(orders[i])
    ensures r.Ok? ==> |r.value| <= |orders|
    ensures r.Ok? ==> forall i :: 0 <= i < |r.value| ==> r.value[i].table == FILLS_TABLE
  {
    DbOutFacts(orders);
    FlatMap(OrderRows, orders)
  }

  lemma DbOutFacts(orders: seq<ProtoOrder>)
    ensures var r := FlatMap(OrderRows, orders);
            && (r.Ok? <==> forall i :: 0 <= i < |orders| ==> Complete(orders[i]))
            && (r.Ok? ==> |r.value| <= |orders|)
            && (r.Ok? ==> forall i :: 0 <= i < |r.value| ==> r.value[i].table == FILLS_TABLE)
  {
    DbOutOkIff(orders);
    FlatMapAtMostOne(OrderRows, orders);
    DbOutTable(orders);
  }

  lemma DbOutOkIff(orders: seq<ProtoOrder>)
    ensures FlatMap(OrderRows, orders).Ok? <==> forall i :: 0 <= i < |orders| ==> Complete(orders[i])
  {
    if forall i :: 0 <= i < |orders| ==> Complete(orders[i]) {
      FlatMapSucceeds(OrderRows, orders);
    } else {
      var i :| 0 <= i < |orders| && !Complete(orders[i]);
      FlatMapFails(OrderRows, orders, i);
    }
  }

  lemma DbOutTable(orders: seq<ProtoOrder>)
    ensures var r := FlatMap(OrderRows, orders);
            r.Ok? ==> forall i :: 0 <= i < |r.value| ==> r.value[i].table == FILLS_TABLE
  {
    var r := FlatMap(OrderRows, orders);
    if r.Ok? {
      forall k | 0 <= k < |r.value|
        ensures r.value[k].table == FILLS_TABLE
      {
        FlatMapOrigin(OrderRows, orders, r.value[k]);
      }
    }
  }

  /** The rows of a concatenation of orders are the rows of each part, in order; one order
      gives exactly its own rows. */
  lemma DbOutAppend(a: seq<ProtoOrder>, b: seq<ProtoOrder>, o: ProtoOrder)
    ensures DbOut(a + b).Ok? <==> DbOut(a).Ok? && DbOut(b).Ok?
    ensures DbOut(a + b).Ok? ==> DbOut(a + b).value == DbOut(a).value + DbOut(b).value
    ensures DbOut([o]) == OrderRows(o)
  {
    FlatMapAppend(OrderRows, a, b);
    FlatMapUnfold(OrderRows, [o]);
    assert [o][1..] == [];
    if OrderRows(o).Ok? {
      assert OrderRows(o).value + [] == OrderRows(o).value;
    }
  }

  /** A row is emitted exactly when it is the row of one of the orders. */
  lemma DbOutRows(orders: seq<ProtoOrder>, row: TableChange)
    requires DbOut(orders).Ok?
    ensures row in DbOut(orders).value <==>
              exists i :: 0 <= i < |orders| && OrderRows(orders[i]).Ok? && row in OrderRows(orders[i]).value
  {
    if row in DbOut(orders).value {
      FlatMapOrigin(OrderRows, orders, row);
    }
    if exists i :: 0 <= i < |orders| && OrderRows(orders[i]).Ok? && row in OrderRows(orders[i]).value {
      var i :| 0 <= i < |orders| && OrderRows(orders[i]).Ok? && row in OrderRows(orders[i]).value;
      FlatMapContains(OrderRows, orders, i);
    }
  }

  /** When every order has a non-fee output, there is exactly one row per order, keyed by that
      order's transaction info. */
  lemma DbOutOneRowPerOrder(orders: seq<ProtoOrder>)
    requires forall i :: 0 <= i < |orders| ==> Complete(orders[i])
    requires forall i :: 0 <= i < |orders| ==> !AllFee(orders[i].outputs)
    ensures DbOut(orders).Ok? && |DbOut(orders).value| == |orders|
    ensures forall i :: 0 <= i < |orders| ==> DbOut(orders).value[i].keys == FillKeys(orders[i].txInfo.value)
  {
    FlatMapSingletons(OrderRows, orders);
  }

  /** Orders whose every output goes to the fee recipient produce no row. */
  lemma DbOutSkipsFeeOnly(orders: seq<ProtoOrder>)
    requires forall i :: 0 <= i < |orders| ==> Complete(orders[i])
    requires forall i :: 0 <= i < |orders| ==> AllFee(orders[i].outputs)
    ensures DbOut(orders).Ok? && DbOut(orders).value == []
  {
    FlatMapEmpty(OrderRows, orders);
  }
}

=== FILE: wrappers.dfy ===
/** Failure-compatible wrappers used throughout the model.
    A Rust `panic!`, `unwrap()` on `None`/`Err` or `unimplemented!()` is modelled as `Err`. */
module Wrappers {

  datatype Option<+T> = None | Some(value: T) {

    /** The contained value, or `default` when absent (Rust's `unwrap_or`). */
    function GetOr(default: T): T {
      match this
      case Some(v) => v
      case None => default
    }
  }

  datatype Result<+T, +E> = Ok(value: T) | Err(error: E) {

    predicate IsFailure() {
      Err?
    }

    function PropagateFailure<U>(): Result<U, E>
      requires Err?
    {
      Err(error)
    }

    function Extract(): T
      requires Ok?
    {
      value
    }
  }

  /** Each element mapped to one result, in order; the first failure wins. */
  function MapResult<A, T, E>(f: A -> Result<T, E>, xs: seq<A>): (r: Result<seq<T>, E>)
    ensures r.Ok? <==> forall i :: 0 <= i < |xs| ==> f(xs[i]).Ok?
    ensures r.Ok? ==> |r.value| == |xs| && forall i :: 0 <= i < |xs| ==> r.value[i] == f(xs[i]).value
    decreases |xs|
  {
    if xs == [] then Ok([])
    else
      var first := f(xs[0]);
      var rest := MapResult(f, xs[1..]);
      assert forall i :: 1 <= i < |xs| ==> xs[i] == xs[1..][i - 1];
      if first.Err? then Err(first.error)
      else if rest.Err? then Err(rest.error)
      else Ok([first.value] + rest.value)
  }

  /** Each element mapped to a run of results, concatenated in order; the first failure wins. */
  function FlatMap<A, T, E>(f: A -> Result<seq<T>, E>, xs: seq<A>): (r: Result<seq<T>, E>)
    ensures xs == [] ==> r == Ok([])
    decreases |xs|
  {
    if xs == [] then Ok([])
    else
      var first :- f(xs[0]);
      var rest :- FlatMap(f, xs[1..]);
      Ok(first + rest)
  }

  /** One step of `FlatMap`, stated without `:-`. */
  lemma FlatMapUnfold<A, T, E>(f: A -> Result<seq<T>, E>, xs: seq<A>)
    requires xs != []
    ensures f(xs[0]).Err? ==> FlatMap(f, xs) == Err(f(xs[0]).error)
    ensures f(xs[0]).Ok? && FlatMap(f, xs[1..]).Err? ==> FlatMap(f, xs) == Err(FlatMap(f, xs[1..]).error)
    ensures f(xs[0]).Ok? && FlatMap(f, xs[1..]).Ok? ==>
              FlatMap(f, xs) == Ok(f(xs[0]).value + FlatMap(f, xs[1..]).value)
  {
  }

  /** Mapping a concatenation gives the concatenated runs, or the first failure. */
  lemma {:induction false} FlatMapAppend<A, T, E>(f: A -> Result<seq<T>, E>, xs: seq<A>, ys: seq<A>)
    ensures FlatMap(f, xs + ys).Ok? <==> FlatMap(f, xs).Ok? && FlatMap(f, ys).Ok?
    ensures FlatMap(f, xs + ys).Ok? ==> FlatMap(f, xs + ys).value == FlatMap(f, xs).value + FlatMap(f, ys).value
    ensures FlatMap(f, xs).Err? ==> FlatMap(f, xs + ys) == FlatMap(f, xs)
    decreases |xs|
  {
    if xs != [] {
      assert (xs + ys)[0] == xs[0];
      assert (xs + ys)[1..] == xs[1..] + ys;
      FlatMapAppend(f, xs[1..], ys);
      FlatMapUnfold(f, xs);
      FlatMapUnfold(f, xs + ys);
      if f(xs[0]).Ok? && FlatMap(f, xs[1..]).Ok? && FlatMap(f, ys).Ok? {
        var a, b, c := f(xs[0]).value, FlatMap(f, xs[1..]).value, FlatMap(f, ys).value;
        assert a + (b + c) == (a + b) + c;
      }
    } else {
      assert xs + ys == ys;
      if FlatMap(f, ys).Ok? {
        var e: seq<T> := [];
        assert FlatMap(f, xs).value == e;
        assert e + FlatMap(f, ys).value == FlatMap(f, ys).value;
      }
    }
  }

  /** A run made of elements that each yield nothing yields nothing. */
  lemma {:induction false} FlatMapEmpty<A, T, E>(f: A -> Result<seq<T>, E>, xs: seq<A>)
    requires forall i :: 0 <= i < |xs| ==> f(xs[i]).Ok? && f(xs[i]).value == []
    ensures FlatMap(f, xs).Ok? && FlatMap(f, xs).value == []
    decreases |xs|
  {
    if xs != [] {
      assert f(xs[0]).Ok? && f(xs[0]).value == [];
      assert forall i :: 0 <= i < |xs[1..]| ==> xs[1..][i] == xs[i + 1];
      FlatMapEmpty(f, xs[1..]);
      FlatMapUnfold(f, xs);
    }
  }

  /** One failing element fails the whole run. */
  lemma {:induction false} FlatMapFails<A, T, E>(f: A -> Result<seq<T>, E>, xs: seq<A>, i: nat)
    requires i < |xs| && f(xs[i]).Err?
    ensures FlatMap(f, xs).Err?
    decreases |xs|
  {
    if i == 0 {
    } else {
      assert xs[1..][i - 1] == xs[i];
      FlatMapFails(f, xs[1..], i - 1);
    }
  }

  /** A run succeeds exactly when every element does. */
  lemma FlatMapOkIff<A, T, E>(f: A -> Result<seq<T>, E>, xs: seq<A>)
    ensures FlatMap(f, xs).Ok? <==> forall i :: 0 <= i < |xs| ==> f(xs[i]).Ok?
  {
    if forall i :: 0 <= i < |xs| ==> f(xs[i]).Ok? {
      FlatMapSucceeds(f, xs);
    } else {
      var i :| 0 <= i < |xs| && f(xs[i]).Err?;
      FlatMapFails(f, xs, i);
    }
  }

  /** A run whose every element succeeds succeeds. */
  lemma {:induction false} FlatMapSucceeds<A, T, E>(f: A -> Result<seq<T>, E>, xs: seq<A>)
    requires forall i :: 0 <= i < |xs| ==> f(xs[i]).Ok?
    ensures FlatMap(f, xs).Ok?
    decreases |xs|
  {
    if xs != [] {
      assert forall i :: 0 <= i < |xs[1..]| ==> xs[1..][i] == xs[i + 1];
      FlatMapSucceeds(f, xs[1..]);
      FlatMapUnfold(f, xs);
    }
  }

  /** Elements that each yield exactly one value yield one value each, in order. */
  lemma {:induction false} FlatMapSingletons<A, T, E>(f: A -> Result<seq<T>, E>, xs: seq<A>)
    requires forall i :: 0 <= i < |xs| ==> f(xs[i]).Ok? && |f(xs[i]).value| == 1
    ensures FlatMap(f, xs).Ok? && |FlatMap(f, xs).value| == |xs|
    ensures forall i :: 0 <= i < |xs| ==> FlatMap(f, xs).value[i] == f(xs[i]).value[0]
    decreases |xs|
  {
    if xs != [] {
      assert forall i :: 0 <= i < |xs[1..]| ==> xs[1..][i] == xs[i + 1];
      FlatMapSingletons(f, xs[1..]);
      FlatMapUnfold(f, xs);
      var rest := FlatMap(f, xs[1..]).value;
      var all := FlatMap(f, xs).value;
      assert all == f(xs[0]).value + rest;
      forall i | 0 <= i < |xs|
        ensures all[i] == f(xs[i]).value[0]
      {
        if i > 0 {
          assert all[i] == rest[i - 1];
          assert xs[1..][i - 1] == xs[i];
        }
      }
    }
  }

  /** Elements that each yield at most one value yield at most one value each. */
  lemma {:induction false} FlatMapAtMostOne<A, T, E>(f: A -> Result<seq<T>, E>, xs: seq<A>)
    requires forall i :: 0 <= i < |xs| && f(xs[i]).Ok? ==> |f(xs[i]).value| <= 1
    ensures FlatMap(f, xs).Ok? ==> |FlatMap(f, xs).value| <= |xs|
    decreases |xs|
  {
    if xs != [] {
      assert forall i :: 0 <= i < |xs[1..]| ==> xs[1..][i] == xs[i + 1];
      FlatMapAtMostOne(f, xs[1..]);
      FlatMapUnfold(f, xs);
    }
  }

  /** Every element of a successful run comes from the run of some input element. */
  lemma {:induction false} FlatMapOrigin<A, T, E>(f: A -> Result<seq<T>, E>, xs: seq<A>, t: T)
    requires FlatMap(f, xs).Ok? && t in FlatMap(f, xs).value
    ensures exists i :: 0 <= i < |xs| && f(xs[i]).Ok? && t in f(xs[i]).value
    decreases |xs|
  {
    FlatMapUnfold(f, xs);
    if t !in f(xs[0]).value {
      FlatMapOrigin(f, xs[1..], t);
      var j :| 0 <= j < |xs[1..]| && f(xs[1..][j]).Ok? && t in f(xs[1..][j]).value;
      assert xs[1..][j] == xs[j + 1];
    }
  }

  /** In a successful run, every element succeeded and all of its values are in the run. */
  lemma {:induction false} FlatMapContains<A, T, E>(f: A -> Result<seq<T>, E>, xs: seq<A>, i: nat)
    requires i < |xs| && FlatMap(f, xs).Ok?
    ensures f(xs[i]).Ok? && forall t :: t in f(xs[i]).value ==> t in FlatMap(f, xs).value
    decreases |xs|
  {
    FlatMapUnfold(f, xs);
    if i > 0 {
      assert xs[1..][i - 1] == xs[i];
      FlatMapContains(f, xs[1..], i - 1);
    }
  }

  /** Past the head, a consed sequence is its tail, shifted by one. */
  lemma ConsIndex<T>(x: T, xs: seq<T>)
    ensures forall i :: 1 <= i < |[x] + xs| ==> ([x] + xs)[i] == xs[i - 1]
  {
  }
}
